=== FILE: README.md ===
# IbEverythingLib in Dafny

A model of the core of IbEverythingLib, the client libraries for the
Everything file-search engine, with proofs about it. The model has three
parts.

- **The plugin handler** (`everything-plugin`, Rust). `PluginHandler::handle`
  is a state machine driven by the `EVERYTHING_PLUGIN_PM_*` messages Everything
  sends to a plugin. Its state is:
  - the host once-cell;
  - the identity strings;
  - the app slot;
  - one handle slot per options page;
  - the pending `OptionsMessage`;
  - the instance name.

  Each message step (`PluginHandler.Handle`) returns one of two things. A
  `Done` carries the return value, the new handler and the host calls and
  page messages the step issued, in order. A `Failed` carries a Rust panic
  or undefined behaviour. Also modelled:
  - the options-page operations (`OptionsPages`);
  - loading and saving the config under setting `"_"` (`Settings`);
  - the `debug_assert!` checks, which depend on a `Profile`: Debug or Release.
- **IPC window discovery** (`everything-ipc`). This covers:
  - the first-match search over the calling thread's windows for the
    `EVERYTHING_TASKBAR_NOTIFICATION` class prefix, on class names as
    UTF-16 units read through a 256-unit buffer;
  - the conversion of the found class name to a `String`, whose `unwrap`
    panics on units that are not valid UTF-16 (`Utf16`);
  - the `_(<name>)` instance-name suffix;
  - the `Version` order and `get_version`.

  The C++ `ipc_class` construction (`IpcClass`), built in UTF-16 from a
  `std::wstring_view`, is proved to be found by the Rust locator and parsed
  back by its `instance_name`.

  `everything-plugin/src/ipc.rs` is a second copy of the locator. The
  plugin crate never compiles it: `everything-plugin/src/lib.rs:110`
  re-exports `everything_ipc` as `ipc`, and the module list at lines
  113-117 has no `mod ipc`.
  `PluginIpc` models the copy anyway and proves it behaves exactly like
  the library on every window list, so nothing rests on which one runs.
- **The Everything IPC wire format** (C++, one model for the three copies of
  the header library). This covers:
  - the request flags and `RequestData::type`;
  - the `QueryItem::all_until` field walker with `get`, `get_str`,
    `get_cstr`, `get_size`, `get_date` and `get_dword`;
  - the `QueryResults` header and item table;
  - the `EVERYTHING_IPC_QUERY2` record `query_send` builds;
  - the `EverythingMT` reply-id bookkeeping.

  Replies are byte sequences. The reader is proved to find every field the
  writer laid out, and the query decoder to read back what `query_send`
  encoded.

Outside inputs are parameters rather than actions. The main thread's window
list, the host's exports and settings, and the page worker's answer to Save
are fields of `PluginTypes.Env`. `PluginHandler.Handle` is `handle` as the
code has it, including the SAVE_OPTIONS_PAGE described under Findings;
`PluginHandler.HandleCorrected` is the same state machine with that save
corrected. serde_json is a `PluginTypes.Codec`. A
property that needs parsing to invert serializing states that as
`RoundTrips(codec)`. The app is the one the crate documents: it holds a
`Config { s: String }` and falls back to `Config::default()`.

## Model

| member | source | states |
|---|---|---|
| IpcWindow.ReadClassName | everything-ipc/src/lib.rs:26-29 | a class name is read through a 256-unit buffer: it is at most 255 UTF-16 units, a prefix of the registered name, the whole name when that fits and exactly 255 units otherwise, whether or not that cuts a surrogate pair |
| IpcWindow.FirstIpcIndex | everything-ipc/src/lib.rs:28-34 | the reference for the search: the index of the first window the callback accepts, every window before it rejected, or the number of windows when none is accepted |
| IpcWindow.Located | everything-ipc/src/lib.rs:29-38 | an accepted window's name converts exactly when the units read are valid UTF-16, keeps the handle and encodes back to those units; otherwise the `unwrap` panic |
| IpcWindow.EnumWindowsProc | everything-ipc/src/lib.rs:23-44 | a window whose class name, as read, is empty or lacks the prefix (compared unit by unit) keeps the earlier result and continues; an accepted window stops the enumeration with its handle and its name as a `String`, or panics with the `unwrap` message exactly when the units are not valid UTF-16 |
| IpcWindow.EnumThreadWindows | everything-ipc/src/lib.rs:53-63 | the enumeration stops at the first accepted window and visits nothing after it; with none accepted it visits all and keeps the result; the first accepted window's failed conversion is the whole call's panic |
| IpcWindow.FromCurrentThread | everything-ipc/src/lib.rs:23-63 | `Ok(None)` exactly when no window is accepted; a panic exactly when the first accepted window's name, as read, is not valid UTF-16; otherwise that window, whose name encodes back to the units read: shorter than 256 units and carrying the prefix |
| IpcWindow.TruncatedPairPanics | everything-ipc/src/lib.rs:26-37 | a registered IPC class name of 256 units or more whose unit 254 is a high surrogate is cut inside the pair by the read, and the locator panics |
| Utf16.EncodeChar | everything-ipc/src/lib.rs:29-37 | a character below U+10000 is its own unit, never a surrogate; one above is a high and a low surrogate whose values give the character back |
| Utf16.DecodeEncode | everything-ipc/src/lib.rs:37 | `to_string` of the units of any string gives that string back |
| Utf16.EncodeDecode | everything-ipc/src/lib.rs:37 | units that `to_string` accepts are exactly the encoding of the string it returns |
| Utf16.DecodeAppend | everything-ipc/src/lib.rs:37 | units joined outside a surrogate pair convert exactly when both parts do, to the joined strings |
| Utf16.DecodeWidened | everything-ipc/src/lib.rs:15 | units without surrogates, each the value of the matching character, convert to those characters |
| Utf16.TrailingHighSurrogateFails | everything-ipc/src/lib.rs:37 | units ending in a lone high surrogate never convert |
| IpcWindow.InstanceNameIff | everything-ipc/src/lib.rs:73-78 | `instance_name` is `Some(s)` exactly when the class name is `EVERYTHING_TASKBAR_NOTIFICATION_(` + s + `)` |
| IpcWindow.InstanceNameNone | everything-ipc/src/lib.rs:73-78 | `instance_name` is `None` exactly when the name lacks the `_(` prefix or the final `)`, including the bare prefix the locator accepts |
| IpcWindow.NewVersion | everything-ipc/src/lib.rs:108-116 | `Version::new` keeps its four arguments in order |
| IpcWindow.CompareIsKeyOrder | everything-ipc/src/lib.rs:100-106 | the derived order compares (major, minor, revision, build) lexicographically: it is the order of one combined key, and Equal means equal versions |
| IpcWindow.CompareIsTotalOrder | everything-ipc/src/lib.rs:100-106 | the version order is antisymmetric and transitive |
| IpcWindow.GetVersionReadsHostVersion | everything-ipc/src/lib.rs:80-97 | with the host answering IPC commands 0, 1, 2 and 3 with major, minor, revision and build, `get_version` returns the host's version |
| PluginIpc.FromCurrentThread | everything-plugin/src/ipc.rs:17-57 | the plugin's copy of the locator, as a loop over the windows: it visits windows up to the first accepted one, and its result, panic included, equals the library locator's on every window list |
| PluginIpc.LibraryResult | everything-ipc/src/lib.rs:35-62 | the library locator's result is the window its callback stored for the first accepted window, or the `unwrap` panic on that window's name, and `None` when no window is accepted |
| PluginIpc.InstanceName | everything-plugin/src/ipc.rs:67-72 | the plugin's `instance_name` strips exactly the `_(` prefix and one final `)`, and is `None` otherwise |
| PluginIpc.SamePrefix | everything-plugin/src/ipc.rs:11-28 | the copy's prefix units and callback test accept exactly the windows the library accepts |
| PluginIpc.InstanceNamesAgree | everything-plugin/src/ipc.rs:67-72 | both crates' `instance_name` agree on every class name |
| IpcClass.IpcClass | everything-cpp/include/IbEverything/Everything_impl.hpp:298-305 | the UTF-16 class name always starts with the prefix units; it is the bare prefix for an empty instance name, and otherwise 3 units plus the name longer, with the name between `_(` and `)` |
| IpcClass.InstanceNameRoundTrip | everything-cpp/include/IbEverything/Everything_impl.hpp:298-305 | the C++ class name converts to a Rust `String` exactly when the instance name is valid UTF-16, and `instance_name` then parses back that name, or `None` for the unnamed instance |
| IpcClass.NamedClassDecodes | everything-cpp/include/IbEverything/Everything_impl.hpp:298-305 | a named class converts to the `_(` prefix, the converted instance name and `)`, and does not convert when the name does not |
| IpcClass.PrefixUnits | everything-cpp/include/IbEverything/Everything_impl.hpp:301 | the prefix units convert to the prefix text |
| IpcClass.LocatorFindsNamedHost | everything-cpp/include/IbEverything/Everything_impl.hpp:298-305 | with the C++ host's window first among the accepted ones and its class name within 255 units, the Rust locator succeeds exactly when the instance name is valid UTF-16, finds that window and reads back the instance name, and otherwise panics |
| Request.FlagsAreSingleBits | Cpp/IbEverythingLib/include/IbEverythingLib/Everything.hpp:34-49 | the 16 request flags are the single bits 0x1 to 0x8000, listed in the order the walker reads them |
| Request.FlagsIncrease | Cpp/IbEverythingLib/include/IbEverythingLib/Everything.hpp:146-162 | the walk order is increasing numeric order, so the 16 flags are distinct |
| Request.TypeOfDefinedExactlyOnFlags | everything-cpp/include/IbEverything/Everything_impl.hpp:20-41 | `RequestData::type` has a result exactly for the 16 request flags and throws `invalid_argument` for every other value |
| Request.TypeAtIsTypeOf | Cpp/IbEverythingLib/include/IbEverythingLib/Everything.hpp:55-76 | the storage-type table by walk position agrees with `type` on every flag: four strings, size, three dates, attributes, file-list name, run count, two dates, three highlighted strings |
| Request.SortValuesDistinctExceptDefault | Cpp/IbEverythingLib/include/IbEverythingLib/Everything.hpp:79-106 | two sort orders are sent as the same DWORD exactly when they are equal or are `Default` and `Name_Ascending` |
| QueryItem.AdvanceSizes | everything-cpp/include/IbEverything/Everything_impl.hpp:63-76 | the cursor moves 8 bytes past a size or date field and 4 past a DWORD; past a string of n units it moves 4 + 2(n+1) bytes, except that n = 0xFFFFFFFF wraps the DWORD sum n + 1 to 0 and moves only 4; a length that cannot be read is an out-of-bounds error |
| QueryItem.RequestedFromExactly | everything-cpp/include/IbEverything/Everything_impl.hpp:80-96 | the walk's positions are exactly the flags the request carries |
| QueryItem.RequestedFromAscending | everything-cpp/include/IbEverything/Everything_impl.hpp:80-96 | the walk's positions strictly increase |
| QueryItem.WalkFollowsPositions | everything-cpp/include/IbEverything/Everything_impl.hpp:55-97 | the walker calls back at a prefix of the requested positions, each with its own flag, and never at an unrequested flag |
| QueryItem.WalkEndsWhenToldOrDone | everything-cpp/include/IbEverything/Everything_impl.hpp:58-62 | every callback but the last returned true, and the walk ends before the last requested flag only because the callback returned false |
| QueryItem.WalkCursorsAdvance | everything-cpp/include/IbEverything/Everything_impl.hpp:55-97 | the first cursor is the item's start, and each next cursor is the previous one moved past that field |
| QueryItem.AllVisitsExactlyTheRequestedFlags | everything-cpp/include/IbEverything/Everything_impl.hpp:51-53 | `all` calls back once per requested flag, in walk order |
| QueryItem.AllVisitsEveryRequestedFlag | everything-cpp/include/IbEverything/Everything_impl.hpp:51-53 | a flag is visited by `all` exactly when the request carries it |
| QueryItem.WalkStopsAtCursor | everything-cpp/include/IbEverything/Everything_impl.hpp:99-108 | a walk that continues past the first n positions and stops at the next one ends at the cursor the sizes of those n fields give |
| QueryItem.GetRequestedIsCursor | everything-cpp/include/IbEverything/Everything_impl.hpp:99-108 | `get` of a requested flag returns its field offset: the item's start plus the sizes of the lower requested fields |
| QueryItem.GetFindsCursor | everything-cpp/include/IbEverything/Everything_impl.hpp:99-108 | `get` of the n-th requested flag returns where the cursor stands after the n fields before it |
| QueryItem.GetAbsentIsNull | everything-cpp/include/IbEverything/Everything_impl.hpp:99-108 | `get` of a flag the item does not carry, or of a value that is no request flag, returns null |
| QueryItem.GetCStr | Cpp/IbEverythingLib/include/IbEverythingLib/Everything.hpp:180-182 | `get_cstr` is an address exactly when `get` finds the field, and then points 4 bytes into it; for an absent field it is `Err(NullPointer)` where the source returns null + 4 |
| ItemLayout.CursorOverFields | everything-cpp/include/IbEverything/Everything_impl.hpp:63-76 | over fields laid out back to back in the request's order, the cursor after n of them stands where the n fields end |
| ItemLayout.NthField | everything-cpp/include/IbEverything/Everything_impl.hpp:55-97 | the walker's cursor before the n-th field is where the n-th field is written |
| ItemLayout.FieldReadBack | everything-cpp/include/IbEverything/Everything_impl.hpp:110-125 | where `get` finds a field that holds v, the getter of v's type returns v |
| ItemLayout.GettersReadWrittenFields | everything-cpp/include/IbEverything/Everything_impl.hpp:99-125 | for any requested field of an item laid out back to back, `get_str`, `get_cstr_len`, `get_size`, `get_date` and `get_dword` return what was written |
| ItemLayout.GettersReadItemBuffer | Cpp/IbEverythingLib/include/IbEverythingLib/Everything.hpp:165-194 | the same holds for the bytes of an item buffer built from the field values |
| Results.FromReply | everything-cpp/include/IbEverything/Everything_impl.hpp:144-150 | a reply at least as long as the header gives non-empty results with the reply's bytes and id; a shorter one is read out of bounds |
| Results.At | everything-cpp/include/IbEverything/Everything_impl.hpp:156-158 | every item carries the reply's request flags, and indexing a default (empty) result dereferences null |
| Results.FromReplyReadsHeader | everything-cpp/include/IbEverything/Everything_impl.hpp:144-150 | the constructor copies totitems, numitems, request_flags and sort_type from the header Everything wrote |
| Results.AtReadsEntry | everything-cpp/include/IbEverything/Everything_impl.hpp:156-158 | item i starts at the data_offset of entry i, and the entries start right after the 20-byte header |
| Results.EveryCountedItemExists | everything-cpp/include/IbEverything/Everything_impl.hpp:152-158 | when numitems counts the entries, `size()` is that count and every index below it names the item its entry points at |
| Results.ResultFieldReadsBack | everything-cpp/include/IbEverything/Everything_impl.hpp:140-160 | end to end: the getters on item i of a reply read back the fields written where entry i points |
| QueryPacket.QuerySend | everything-cpp/include/IbEverything/Everything_impl.hpp:405-423 | the block has dwData 18 and cbData = sizeof(EVERYTHING_IPC_QUERY2) + 2·len = its length; a length that does not fit the DWORD is an error |
| QueryPacket.HeaderReadBack | everything-cpp/include/IbEverything/Everything_impl.hpp:394-418 | each of the seven DWORD fields is read back from its offset |
| QueryPacket.DecodeEncode | everything-cpp/include/IbEverything/Everything_impl.hpp:394-418 | a record whose search string has no NUL unit is read back whole |
| QueryPacket.EmbeddedNulTruncates | everything-cpp/include/IbEverything/Everything_impl.hpp:415-416 | a NUL unit inside the search string ends the search Everything reads there |
| QueryPacket.TerminatorInsideBlock | everything-cpp/include/IbEverything/Everything_impl.hpp:415-421 | the NUL sits at unit index len of the string, inside the cbData bytes |
| QueryPacket.QuerySendCarriesArguments | everything-cpp/include/IbEverything/Everything_impl.hpp:390-425 | Everything reads back the block's arguments: the low DWORD of the reply window, the id as reply message, the flags, offset, limit, sort value and search string |
| QueryPacket.DefaultsOnTheWire | Cpp/IbEverythingLib/include/IbEverythingLib/Everything.hpp:349-386 | the legacy defaults arrive as sort value 1, id 0, offset 0 and limit 0xFFFFFFFF |
| EverythingMt.IdAfterWraps | everything-cpp/include/IbEverything/Everything_impl.hpp:549 | fewer than 2^32 increments of the DWORD id add k, wrapping past 0xFFFFFFFF at most once |
| EverythingMt.Register | everything-cpp/include/IbEverything/Everything_impl.hpp:540-553 | `query_send` registers the current id as pending, leaves the other pending ids alone and moves the counter one on |
| EverythingMt.Arrive | everything-cpp/include/IbEverything/Everything_impl.hpp:527-534 | `data_arrive` is defined exactly for a pending id; it removes exactly that id and leaves the counter |
| EverythingMt.ArriveUndoesRegister | Cpp/IbEverythingLib/include/IbEverythingLib/Everything_impl.hpp:416-442 | the arrival of a fresh query's reply restores the pending set, with the counter one on |
| EverythingMt.IdsDistinct | everything-cpp/include/IbEverything/Everything_impl.hpp:544-550 | fewer than 2^32 successive queries get distinct ids |
| EverythingMt.CounterComesBack | everything-cpp/include/IbEverything/Everything_impl.hpp:544-550 | after 2^32 queries the counter is back at its start, so a query then reuses an id that may still be pending |
| EverythingMt.SendMany | everything-cpp/include/IbEverything/Everything_impl.hpp:540-553 | k successive queries get the ids start, start+1, … (wrapping), the counter ends at start+k, and the pending set gains exactly those ids; they are distinct, and there are k of them, when k ≤ 2^32 |
| PluginTypes.NewApp | everything-plugin/src/lib.rs:133-137 | the documented `App::new` keeps the given config, or takes `Config::default()` |
| PluginTypes.Build | everything-plugin/src/lib.rs:192-218 | the builder succeeds exactly when no identity string has a NUL; it gives no host, no app, the given pages with empty slots, `Noop` pending and no instance name |
| PluginTypes.HostOf | everything-plugin/src/lib.rs:251-254 | `host()` returns the host once set; before INIT it panics "Plugin host not inited" in Debug and is undefined in Release |
| PluginTypes.CallExport | everything-plugin/src/lib.rs:449-461 | a call through `get(..).unwrap_unchecked()` happens exactly when the host exports the procedure, and is undefined otherwise |
| PluginTypes.AppNew | everything-plugin/src/lib.rs:387-392 | `app_new` fails exactly in Debug with an app already live; otherwise the slot holds the new app and its `start` hook runs once |
| PluginTypes.AppIntoConfig | everything-plugin/src/lib.rs:394-400 | `app_into_config` succeeds exactly with a live app, returns its config and empties the slot |
| PluginTypes.AppRef | everything-plugin/src/lib.rs:403-407 | `app()` is the live app, and panics "App not inited" otherwise |
| PluginTypes.WithApp | everything-plugin/src/lib.rs:410-412 | `with_app(f)` is f of the live app exactly when one is live |
| PluginTypes.InstanceNameFromMainThread | everything-plugin/src/lib.rs:504-511 | `None` when no window of the main thread is accepted; the instance name of the located window's class name when one is found; the locator's `unwrap` panic exactly when the locator panics |
| Settings.LoadSettings | everything-plugin/src/data/mod.rs:35-64 | with a host it reads setting `"_"` once, and gives the parsed config, or `None` when the setting is absent or does not parse; without a host it takes the handed-over config for non-null data, and gives `None` for null data |
| Settings.PluginSetSettingString | everything-plugin/src/data/mod.rs:162-177 | the write happens exactly when the host exports it, the value has no NUL and, in Debug, no newline; a multi-line value panics in Debug |
| Settings.SaveSettings | everything-plugin/src/data/mod.rs:66-73 | without an app it panics "App not inited"; otherwise it writes the serialized config once under `"_"` and returns 1 |
| Settings.FirstLine | everything-plugin/src/data/mod.rs:154 | the host keeps of a written value the part before the first newline: all of a one-line value, and a proper prefix ending at a newline otherwise |
| Settings.SaveSettingsSucceeds | everything-plugin/src/data/mod.rs:66-73 | with a serializer that writes one line without NUL, a live app and a host that exports the write, SAVE_SETTINGS succeeds in either build and writes the serialized config once under `"_"` |
| Settings.ReleaseMultiLineLosesTail | everything-plugin/src/data/mod.rs:154-166 | in Release a multi-line value is written without complaint, and the host keeps only its first line, strictly shorter than the value |
| Settings.SavedConfigLoadsBack | everything-plugin/src/data/mod.rs:35-73 | with a codec that writes one line and round-trips, and a host that answers with what it kept of SAVE_SETTINGS's write, START loads exactly the saved config |
| OptionsPages.TryInto | everything-plugin/src/ui/mod.rs:76-91 | a worker forwards only `Msg`; `Size` resizes its window and `Kill` closes it |
| OptionsPages.RegisterPages | everything-plugin/src/ui/mod.rs:126-129 | each page from i on is registered once, in order, with correlation index equal to its position, provided the host exports the call and no name has a NUL |
| OptionsPages.AddOptionsPages | everything-plugin/src/ui/mod.rs:121-132 | 0 and nothing without pages; otherwise exactly one registration per page, page i with index i, and 1 |
| OptionsPages.LoadOptionsPage | everything-plugin/src/ui/mod.rs:137-159 | succeeds exactly for an index below the page count, and then replaces only that slot with the loaded handle and returns 1 |
| OptionsPages.SaveOptionsPageAsWritten | everything-plugin/src/ui/mod.rs:178-215 | with a live handle and app, the app is rebuilt only if the worker receives and replies; every successful save leaves `EnableApply(true)` pending and returns 1. With no pages it returns 0 and changes nothing; a page index past the table panics. An empty slot sends nothing and leaves the app as it was. A live slot with no app panics "App not inited" |
| OptionsPages.SaveOptionsPage | everything-plugin/src/ui/mod.rs:178-215 | the corrected save: 0 without pages, a panic for an index past them; an empty slot leaves the app alone; with a handle it succeeds exactly with a live app and rebuilds it from the edited or the unchanged config; `EnableApply(true)` is left pending |
| OptionsPages.LoWord | everything-plugin/src/ui/mod.rs:279 | the width is the low 16 bits of lParam |
| OptionsPages.EnableApplyButton | everything-plugin/src/ui/mod.rs:375-394 | one enable call on item 1001 of the options window, possible exactly when the host exports it |
| OptionsPages.ProcMessage | everything-plugin/src/ui/mod.rs:268-301 | WM_SIZE sends the unpacked size only to a live page whose worker receives; WM_CTLCOLORDLG enables Apply; every other message does nothing |
| OptionsPages.OptionsPageProc | everything-plugin/src/ui/mod.rs:227-311 | 0 without pages; otherwise the message's own effect, then the pending message drained to `Noop` with one call for a pending `EnableApply(e)`, and 1 |
| OptionsPages.KillOptionsPage | everything-plugin/src/ui/mod.rs:313-336 | indexed by the data value, it empties that slot, tells a live worker to close, and returns 1 even for an empty slot |
| OptionsPages.SizeUnpacks | everything-plugin/src/ui/mod.rs:276-283 | a size packed into lParam the way WM_SIZE packs it unpacks to the same width and height |
| OptionsPages.SaveKeepsAppLive | everything-plugin/src/ui/mod.rs:191-205 | the corrected save never empties the app slot; KILL afterwards gets back the config, edited exactly when the worker replied |
| OptionsPages.SavesAgreeOnReply | everything-plugin/src/ui/mod.rs:195-204 | whenever the worker receives and replies, the corrected save does what the code does |
| OptionsPages.SaveAfterKillLeavesApp | everything-plugin/src/ui/mod.rs:313-336 | after a page is killed its slot is empty, so a save on it sends nothing and leaves the app alone; the code as written and the corrected save give the same result |
| OptionsPages.LoadThenKill | everything-plugin/src/ui/mod.rs:147-149 | load then kill leaves the slots as before with that slot empty, and tells the worker to close when it still receives |
| OptionsPages.SaveForwardsTakenConfig | everything-plugin/src/ui/mod.rs:76-91 | as written, a save on a live page whose worker receives delivers, through `try_into`, exactly one `Save` carrying the config taken out of the app slot, makes no window call, and reaches no other page |
| OptionsPages.SizeResizesWindow | everything-plugin/src/ui/mod.rs:76-84 | WM_SIZE on a live page whose worker receives makes exactly one `SetWindowPos` on its window with the low and high words of lParam, and forwards nothing |
| OptionsPages.KillClosesWindow | everything-plugin/src/ui/mod.rs:85-88 | KILL_OPTIONS_PAGE on a live page whose worker receives makes exactly one close on its window and forwards nothing |
| PluginHandler.StringPtr | everything-plugin/src/lib.rs:306-309 | a getter returns null exactly when the string is unset, and the stored string otherwise |
| PluginHandler.Start | everything-plugin/src/lib.rs:339-345 | START succeeds exactly when loading succeeds and, in Debug, the slot is empty; it installs the app built from what was loaded, after the loading calls and one `start`, and returns 1 |
| PluginHandler.Kill | everything-plugin/src/lib.rs:361-367 | KILL succeeds exactly with a live app, empties the slot and returns 1; otherwise it panics "App not inited" |
| PluginHandler.SaveSettings | everything-plugin/src/lib.rs:375 | SAVE_SETTINGS returns 1 and the handler unchanged exactly when `save_settings` succeeds |
| PluginHandler.Handle | everything-plugin/src/lib.rs:283-381 | `handle` as written: every step keeps one slot per page, the identity and pages, and a host once set; only INIT changes the host or instance name, and only START, KILL and SAVE_OPTIONS_PAGE change the app slot |
| PluginHandler.Init | everything-plugin/src/lib.rs:285-295 | in a build without the `tracing` feature, INIT succeeds exactly when the instance-name lookup does, and then returns 1, fills an empty host cell from non-null data, keeps a host already set, records the instance name and changes nothing else; otherwise it panics with the locator's message |
| PluginHandler.HandleCorrected | everything-plugin/src/ui/mod.rs:178-215 | the state machine with the corrected save: the same as `handle` on every other message, keeping the setup, and a save never empties a live app slot |
| PluginHandler.InitRecordsHostInstance | everything-plugin/src/lib.rs:294-295 | with the C++ host's window first among the accepted ones, INIT records its instance name (`None` for the unnamed instance) exactly when the name is valid UTF-16, and panics otherwise |
| PluginHandler.HostRef | everything-plugin/src/lib.rs:246-254 | `host()` succeeds exactly when `get_host` is set, and returns that host |
| PluginHandler.UnhandledChangesNothing | everything-plugin/src/lib.rs:371-379 | unknown codes, GET_OPTIONS_PAGE_MINMAX and SIZE_OPTIONS_PAGE return 0 and change nothing |
| PluginHandler.GettersReturnIdentity | everything-plugin/src/lib.rs:304-338 | each identity getter returns the builder's string, or null when unset, and changes nothing |
| PluginHandler.StopAndUninstallChangeNothing | everything-plugin/src/lib.rs:346-359 | STOP and UNINSTALL return 1 and change nothing |
| PluginHandler.HostIsSetOnce | everything-plugin/src/lib.rs:290-295 | in a build without the `tracing` feature, INIT with non-null data sets an empty host cell and returns 1 whenever the instance-name lookup succeeds; a later INIT never replaces the host |
| PluginHandler.NullInitKeepsHost | everything-plugin/src/lib.rs:285-302 | in a build without the `tracing` feature, INIT with null data succeeds exactly when the instance-name lookup does; it keeps the host and app and records the looked-up instance name |
| PluginHandler.StartBuildsOneApp | everything-plugin/src/lib.rs:339-345 | START on an empty slot builds exactly one app from what `load_settings` gave, with one `start` call as its last event, and returns 1 |
| PluginHandler.StartTwicePanics | everything-plugin/src/lib.rs:387-392 | in Debug, START with a live app panics |
| PluginHandler.StartWithoutHost | everything-plugin/src/data/mod.rs:56-63 | START without host or app runs the app with the boxed config for non-null data and `Config::default()` for null data, reading nothing from a host |
| PluginHandler.KillConsumesApp | everything-plugin/src/lib.rs:394-400 | KILL succeeds exactly with a live app, which it consumes, and otherwise panics "App not inited" |
| PluginHandler.StartWithConfigRunsIt | everything-plugin/src/lib.rs:231-237 | `init_start_with_config(c)` without host or app succeeds exactly when INIT's lookup does, and then runs the app with c and starts it once |
| PluginHandler.StopKillTakesApp | everything-plugin/src/lib.rs:240-243 | `stop_kill` with a live app empties the slot and issues nothing |
| PluginHandler.ConfigSurvivesLifecycle | everything-plugin/src/lib.rs:225-243 | when INIT's lookup succeeds, `init_start_with_config(c)` then `stop_kill` takes out exactly c at KILL |
| PluginHandler.InitStartUsesDefault | everything-plugin/src/lib.rs:225-228 | `init_start` without a host succeeds exactly when INIT's lookup does, and runs the app with `Config::default()` |
| PluginHandler.NoPagesNoEffect | everything-plugin/src/ui/mod.rs:121-336 | with no pages, ADD_OPTIONS_PAGES, SAVE_OPTIONS_PAGE, OPTIONS_PAGE_PROC and KILL_OPTIONS_PAGE return 0 and do nothing |
| PluginHandler.PendingMessageDrainedOnce | everything-plugin/src/ui/mod.rs:303-308 | after one OPTIONS_PAGE_PROC nothing is pending, so a second one for an ordinary message calls nothing |
| PluginHandler.SaveThenProcEnablesApply | everything-plugin/src/ui/mod.rs:211-214 | a SAVE_OPTIONS_PAGE with pages makes the next OPTIONS_PAGE_PROC enable the Apply button exactly once |
| PluginHandler.CtlColorDlgEnablesApply | everything-plugin/src/ui/mod.rs:295-308 | WM_CTLCOLORDLG issues one enable call on item 1001, then the pending call if any, and leaves `Noop` |
| PluginHandler.SizeReachesLivePage | everything-plugin/src/ui/mod.rs:276-283 | WM_SIZE forwards the packed width and height to a live page whose worker receives, and sends nothing otherwise |
| PluginHandler.PagesRegisteredInOrder | everything-plugin/src/ui/mod.rs:126-130 | ADD_OPTIONS_PAGES issues exactly one registration per page, the i-th with index i and page i's name, and returns 1 |
| PluginHandler.LoadTouchesOneSlot | everything-plugin/src/ui/mod.rs:147-158 | LOAD_OPTIONS_PAGE sets only the named slot, and keeps the app and pending message |
| PluginHandler.KillAfterDroppedReplyPanics | everything-plugin/src/ui/mod.rs:193-206 | through `handle` as written, a save whose worker drops the reply sender leaves no app, and the KILL that follows panics |
| PluginHandler.KillAfterSaveSucceeds | everything-plugin/src/ui/mod.rs:178-215 | through the corrected `handle`, a SAVE_OPTIONS_PAGE with a live app leaves the app holding the edited or unchanged config, and the KILL after it succeeds |
| PluginHandler.CorrectionOnlyOnUnansweredSave | everything-plugin/src/ui/mod.rs:195-204 | the corrected and the written `handle` agree on every message except a SAVE_OPTIONS_PAGE whose worker does not receive or does not reply |

## Left out

- Win32 I/O and threads are not modelled: window creation, message loops, `wndproc` and the `WM_COPYDATA` copy-in, and the `SendMessage`/`PostMessage`/`FindWindow` calls. `EnumThreadWindows` is a list of windows, and `SendMessageW` in `get_version` is a function parameter.
- The promise/future rendezvous (`Everything::data_arrive`, `query_future`, `query_get`) and the `EverythingMT` mutex are concurrency. The id bookkeeping is modelled sequentially, and the first id is a parameter.
- Page workers, their channels, `winio` and the examples' UI are replaced by two answers in `Env`: whether the worker still receives, and the config it replies with or `None`. The debug-only join thread and the `'static` transmute of the config are left out; the config is passed as a value.
- serde_json is a pair of functions in `Codec`, and round-tripping is a hypothesis of the lemmas that need it.
- `PluginHost::get` is the host's set of exports. A missing export is undefined behaviour, modelled as `Failed(Undefined(..))`; so is `host()` before INIT in Release.
- utf8_buf, the app-data paths, `data/config.rs`, `handle_init_i18n`, the tracing macros and `macros.rs` are FFI and process glue. `tracing_init` is not glue: see the next line.
- PluginHandler.Init, PluginHandler.HostIsSetOnce and PluginHandler.NullInitKeepsHost model a build without the `tracing` feature. With that feature, every INIT first runs `log::tracing_init` (lib.rs:286-287), whose subscriber `init()` (log.rs:16-19) panics once a global subscriber is installed. A repeated INIT therefore panics in those builds, as `init_start` and `init_start_with_config` document ("Panics if already initialized", lib.rs:224 and :230). The model does not promise that panic, because the subscriber is process-wide state outside the handler.
- `PluginApp` is generic; the model fixes it to the documented app with `Config { s: String }`.
- `EVERYTHING_PLUGIN_VERSION` and the `EVERYTHING_PLUGIN_PM_*` numbers come from generated bindings that are not part of this model. Messages are a datatype, and `PmOther` stands for every other code.
- Message data pointers are typed payloads. The load, save and proc structs are reduced to the fields read: `user_data`, `msg`, `lParam` and `options_hwnd`.
- Panics across the `extern "system"` boundary are `Failed(Panic(..))`; process abort and unwinding are not modelled.
- QueryPacket.QuerySend: a search string so long that `data_len` wraps its DWORD is an error here. The source would write past its allocation.
- QueryPacket.EncodeQuery2: the two padding bytes after the NUL, which the source leaves uninitialised, are 0.
- Reads past the end of a reply, undefined in C++, are `Err(OutOfBounds)`. A null `get` result that is dereferenced is `Err(NullPointer)`.
- QueryItem.GetCStr: for a field the item does not carry, the source returns the unusable address null + 4 and dereferences nothing (Everything.hpp:180-182). The model gives `Err(NullPointer)` there, so it does not distinguish that address from a failed read.
- `Search` flag constants are not modelled: they are passed through unchanged.
- The C++ `Everything` (single-query) class and the tests need a running Everything and are left out.

## Findings

| source | as written | input that shows it | evidently intended | confidence | as-written member | corrected member |
|---|---|---|---|---|---|---|
| everything-plugin/src/ui/mod.rs:191-205 | SAVE_OPTIONS_PAGE takes the app out of its slot before sending Save. It rebuilds the app only when the page worker sends a reply, yet workers are told to drop the reply sender when nothing changed. | A live page handle and a live app, with the worker dropping the sender or no longer receiving. The slot is then empty, and the KILL that always follows, or a SAVE_SETTINGS, panics "App not inited". | The app is rebuilt on every path: from the edited config when the worker replies, otherwise from the config as it was. | not executed | OptionsPages.SaveOptionsPageAsWritten, PluginHandler.Handle, PluginHandler.KillAfterDroppedReplyPanics | OptionsPages.SaveOptionsPage, OptionsPages.SaveKeepsAppLive, PluginHandler.HandleCorrected, PluginHandler.KillAfterSaveSucceeds |

=== FILE: dwords.dfy ===
/**
 * Runs of little-endian `DWORD`s, the way the fixed-size parts of the IPC
 * records (`EVERYTHING_IPC_LIST2`, `EVERYTHING_IPC_ITEM2`,
 * `EVERYTHING_IPC_QUERY2`) lay out their members.
 */
module Dwords {
  import opened Ints
  import opened Seqs

  /** The bytes of `ds`, four per `DWORD`. */
  function DwordsBytes(ds: seq<u32>): (bs: seq<byte>)
    ensures |bs| == 4 * |ds|
  {
    if |ds| == 0 then [] else U32Bytes(ds[0]) + DwordsBytes(ds[1..])
  }

  /** The `DWORD`s `ds` sit four bytes each from `off` of `buf`. */
  ghost predicate DwordsAt(buf: seq<byte>, off: nat, ds: seq<u32>)
    decreases |ds|
  {
    if |ds| == 0 then off <= |buf|
    else U32At(buf, off, ds[0]) && DwordsAt(buf, off + 4, ds[1..])
  }

  /** The bytes of `ds`, wherever they are put, hold `ds`. */
  lemma {:induction false} DwordsWritten(pre: seq<byte>, ds: seq<u32>, post: seq<byte>)
    ensures DwordsAt(pre + DwordsBytes(ds) + post, |pre|, ds)
    decreases |ds|
  {
    if |ds| == 0 {
      assert |pre + DwordsBytes(ds) + post| >= |pre|;
    } else {
      var d := U32Bytes(ds[0]);
      var rest := DwordsBytes(ds[1..]);
      Regroup2(pre, d, rest, post);
      InMiddle(pre, d, rest + post, 4);
      DwordsWritten(pre + d, ds[1..], post);
      assert |pre + d| == |pre| + 4;
    }
  }

  /** Reading the `i`-th `DWORD` of a run gives it back. */
  lemma {:induction false} NthDword(buf: seq<byte>, off: nat, ds: seq<u32>, i: nat)
    requires DwordsAt(buf, off, ds) && i < |ds|
    ensures off + 4 * i + 4 <= |buf| && ReadU32(buf, off + 4 * i) == ds[i]
    decreases i
  {
    if i == 0 {
      ReadU32At(buf, off, ds[0]);
    } else {
      NthDword(buf, off + 4, ds[1..], i - 1);
      assert off + 4 + 4 * (i - 1) == off + 4 * i;
    }
  }

  /** A run written at the start of a buffer, read back `DWORD` by `DWORD`. */
  lemma LeadingDword(ds: seq<u32>, post: seq<byte>, i: nat)
    requires i < |ds|
    ensures 4 * i + 4 <= |DwordsBytes(ds) + post| && ReadU32(DwordsBytes(ds) + post, 4 * i) == ds[i]
  {
    DwordsWritten([], ds, post);
    assert [] + DwordsBytes(ds) + post == DwordsBytes(ds) + post;
    NthDword(DwordsBytes(ds) + post, 0, ds, i);
  }
}

=== FILE: everything_mt.dfy ===
/**
 * `EverythingMT`'s bookkeeping of queries in flight.  `query_send`
 * registers a promise under the current id, then increments the id;
 * the window procedure hands each reply to `data_arrive` with the id it
 * read from `dwData`, which finds that promise, fulfils it and erases it.
 * Both run under one mutex, so they are modelled as atomic steps; the
 * promises themselves are left out and only their ids are kept.
 */
module EverythingMt {
  import opened Wrappers
  import opened Ints

  /** The next id to hand out and the ids whose promise waits for a reply. */
  datatype Mt = Mt(nextId: u32, pending: set<u32>)

  /** `data_arrive` for an id with no promise: `find` returns `end()`, which the code dereferences. */
  datatype ArriveError = NoPendingQuery(id: u32)

  /** `++id` on a `DWORD`. */
  function Next(id: u32): u32 {
    if id + 1 == U32_LIMIT then 0 else id + 1
  }

  /** The id `k` increments after `start`. */
  function IdAfter(start: u32, k: nat): u32 {
    if k == 0 then start else Next(IdAfter(start, k - 1))
  }

  /** Fewer than 2^32 increments add `k`, wrapping past `0xFFFFFFFF` at most once. */
  lemma {:induction false} IdAfterWraps(start: u32, k: nat)
    requires k < U32_LIMIT
    ensures IdAfter(start, k) == if start + k < U32_LIMIT then start + k else start + k - U32_LIMIT
  {
    if k > 0 {
      IdAfterWraps(start, k - 1);
    }
  }

  /**
   * The bookkeeping of `EverythingMT::query_send`: the id the query is sent
   * with and the state after.  `promises[id] = ...` replaces a promise
   * still waiting under the same id.
   */
  function Register(s: Mt): (r: (u32, Mt))
    ensures r.0 in r.1.pending && r.1.pending - {r.0} == s.pending - {r.0}
    ensures r.1.nextId == IdAfter(r.0, 1)
  {
    (s.nextId, Mt(Next(s.nextId), s.pending + {s.nextId}))
  }

  /** `EverythingMT::data_arrive`: erases exactly the reply's id. */
  function Arrive(s: Mt, id: u32): (r: Result<Mt, ArriveError>)
    ensures r.Ok? <==> id in s.pending
    ensures r.Ok? ==> id !in r.value.pending && r.value.pending + {id} == s.pending && r.value.nextId == s.nextId
  {
    if id in s.pending then Ok(Mt(s.nextId, s.pending - {id})) else Err(NoPendingQuery(id))
  }

  /** A reply for the query just registered undoes the registration, when its id was free. */
  lemma ArriveUndoesRegister(s: Mt)
    requires s.nextId !in s.pending
    ensures var (id, s') := Register(s);
            Arrive(s', id) == Ok(Mt(Next(s.nextId), s.pending))
  {
    var (id, s') := Register(s);
    assert s'.pending - {id} == s.pending;
  }

  /** Fewer than 2^32 steps apart, the counter gives different ids. */
  lemma IdsDistinct(start: u32, i: nat, j: nat)
    requires i < j < U32_LIMIT
    ensures IdAfter(start, i) != IdAfter(start, j)
  {
    IdAfterWraps(start, i);
    IdAfterWraps(start, j);
  }

  /**
   * After 2^32 calls the counter is back where it started, so a query still
   * waiting since then has its promise replaced by the next registration.
   */
  lemma CounterComesBack(s: Mt)
    ensures IdAfter(s.nextId, U32_LIMIT) == s.nextId
    ensures s.nextId in s.pending ==> Register(s).1.pending == s.pending
  {
    IdAfterWraps(s.nextId, U32_LIMIT - 1);
  }

  /** The ids of a sequence, as a set. */
  function Elems(ids: seq<u32>): set<u32> {
    set x | x in ids
  }

  /** Ids without repetition make a set as large as their number. */
  lemma {:induction false} DistinctElems(ids: seq<u32>)
    requires forall i, j :: 0 <= i < j < |ids| ==> ids[i] != ids[j]
    ensures |Elems(ids)| == |ids|
  {
    if |ids| > 0 {
      var init := ids[..|ids| - 1];
      var last := ids[|ids| - 1];
      DistinctElems(init);
      assert Elems(ids) == Elems(init) + {last};
      assert last !in Elems(init);
    }
  }

  /** `cur` is `s` after sending with `ids`, one call of `query_send` each. */
  ghost predicate SentFrom(s: Mt, ids: seq<u32>, cur: Mt) {
    && (forall j :: 0 <= j < |ids| ==> ids[j] == IdAfter(s.nextId, j))
    && cur.nextId == IdAfter(s.nextId, |ids|)
    && cur.pending == s.pending + Elems(ids)
  }

  /** One more `query_send` extends the run. */
  lemma SendStep(s: Mt, ids: seq<u32>, cur: Mt)
    requires SentFrom(s, ids, cur)
    ensures SentFrom(s, ids + [Register(cur).0], Register(cur).1)
  {
    var n := |ids|;
    var id := Register(cur).0;
    assert id == IdAfter(s.nextId, n);
    var more := ids + [id];
    forall j | 0 <= j < n + 1
      ensures more[j] == IdAfter(s.nextId, j)
    {
      if j < n {
        assert more[j] == ids[j];
      } else {
        assert more[j] == id;
      }
    }
    assert Elems(more) == Elems(ids) + {id};
  }

  /** Fewer than 2^32 calls in a row send with different ids. */
  lemma SentIdsDistinct(s: Mt, ids: seq<u32>, cur: Mt)
    requires SentFrom(s, ids, cur) && |ids| <= U32_LIMIT
    ensures forall i, j :: 0 <= i < j < |ids| ==> ids[i] != ids[j]
    ensures s.pending == {} ==> |cur.pending| == |ids|
  {
    forall i, j | 0 <= i < j < |ids|
      ensures ids[i] != ids[j]
    {
      IdsDistinct(s.nextId, i, j);
    }
    DistinctElems(ids);
  }

  /** `k` calls of `query_send` in a row: the ids they send with and the state after. */
  method SendMany(s: Mt, k: nat) returns (ids: seq<u32>, s': Mt)
    ensures |ids| == k
    ensures forall j :: 0 <= j < k ==> ids[j] == IdAfter(s.nextId, j)
    ensures s'.nextId == IdAfter(s.nextId, k)
    ensures s'.pending == s.pending + Elems(ids)
    ensures k <= U32_LIMIT ==> forall i, j :: 0 <= i < j < k ==> ids[i] != ids[j]
    ensures k <= U32_LIMIT && s.pending == {} ==> |s'.pending| == k
  {
    ids := [];
    s' := s;
    while |ids| < k
      invariant |ids| <= k && SentFrom(s, ids, s')
    {
      SendStep(s, ids, s');
      var r := Register(s');
      ids := ids + [r.0];
      s' := r.1;
    }
    if k <= U32_LIMIT {
      SentIdsDistinct(s, ids, s');
    }
  }
}

=== FILE: ints.dfy ===
/**
 * Fixed-width integers of the Win32 and Rust interfaces and their
 * little-endian byte layout.  Dafny integers are unbounded, so every
 * truncating cast of the source is written out here.
 */
module Ints {

  const BYTE_LIMIT: nat := 0x100
  const U16_LIMIT: nat := 0x1_0000
  const U32_LIMIT: nat := 0x1_0000_0000
  const U64_LIMIT: nat := 0x1_0000_0000_0000_0000

  type byte = x: int | 0 <= x < 0x100
  type u16 = x: int | 0 <= x < 0x1_0000
  type u32 = x: int | 0 <= x < 0x1_0000_0000
  type u64 = x: int | 0 <= x < 0x1_0000_0000_0000_0000
  type i32 = x: int | -0x8000_0000 <= x < 0x8000_0000
  /** `isize`/`LPARAM`/`LRESULT` on a 64-bit target. */
  type i64 = x: int | -0x8000_0000_0000_0000 <= x < 0x8000_0000_0000_0000

  /** `x as u32`: keeps the low 32 bits of a two's-complement value. */
  function ToU32(x: int): (r: u32)
    ensures (x - r) % U32_LIMIT == 0
    ensures 0 <= x < U32_LIMIT ==> r == x
  {
    x % U32_LIMIT
  }

  /** `x as i32`: keeps the low 32 bits and reads them as signed. */
  function ToI32(x: int): (r: i32)
    ensures (x - r) % U32_LIMIT == 0
    ensures -0x8000_0000 <= x < 0x8000_0000 ==> r == x
  {
    var low := x % U32_LIMIT;
    if low < 0x8000_0000 then low else low - U32_LIMIT
  }

  /** 256 to the power `n`: the number of values `n` bytes can hold. */
  function Pow256(n: nat): (r: nat)
    ensures r >= 1
  {
    if n == 0 then 1 else 256 * Pow256(n - 1)
  }

  /** The `n` least significant bytes of `x`, least significant first. */
  function LeBytes(x: nat, n: nat): (bs: seq<byte>)
    ensures |bs| == n
  {
    if n == 0 then [] else [x % 256] + LeBytes(x / 256, n - 1)
  }

  /** The number whose little-endian representation is `bs`. */
  function LeValue(bs: seq<byte>): (v: nat)
    ensures v < Pow256(|bs|)
  {
    if |bs| == 0 then 0 else bs[0] + 256 * LeValue(bs[1..])
  }

  /** Writing `x` in `n` bytes and reading it back gives `x` when it fits. */
  lemma {:induction false} LeRoundTrip(x: nat, n: nat)
    requires x < Pow256(n)
    ensures LeValue(LeBytes(x, n)) == x
  {
    if n > 0 {
      var bs := LeBytes(x, n);
      assert bs[1..] == LeBytes(x / 256, n - 1);
      LeRoundTrip(x / 256, n - 1);
    }
  }

  /** Little-endian 16-, 32- and 64-bit encodings (`WCHAR`, `DWORD`, `uint64_t`). */
  function U16Bytes(x: u16): (bs: seq<byte>)
    ensures |bs| == 2
  {
    LeBytes(x, 2)
  }

  function U32Bytes(x: u32): (bs: seq<byte>)
    ensures |bs| == 4
  {
    LeBytes(x, 4)
  }

  function U64Bytes(x: u64): (bs: seq<byte>)
    ensures |bs| == 8
  {
    LeBytes(x, 8)
  }

  /** Reads a little-endian unsigned value of `n` bytes at byte offset `off`. */
  function ReadLe(buf: seq<byte>, off: nat, n: nat): (v: nat)
    requires off + n <= |buf|
    ensures v < Pow256(n)
  {
    LeValue(buf[off..off + n])
  }

  function ReadU16(buf: seq<byte>, off: nat): (v: u16)
    requires off + 2 <= |buf|
  {
    assert Pow256(2) == U16_LIMIT;
    ReadLe(buf, off, 2)
  }

  function ReadU32(buf: seq<byte>, off: nat): (v: u32)
    requires off + 4 <= |buf|
  {
    assert Pow256(4) == U32_LIMIT;
    ReadLe(buf, off, 4)
  }

  function ReadU64(buf: seq<byte>, off: nat): (v: u64)
    requires off + 8 <= |buf|
  {
    assert Pow256(8) == U64_LIMIT;
    ReadLe(buf, off, 8)
  }

  /** Where the little-endian bytes of `x` sit at `off`. */
  ghost predicate U16At(buf: seq<byte>, off: nat, x: u16) {
    off + 2 <= |buf| && buf[off..off + 2] == U16Bytes(x)
  }

  ghost predicate U32At(buf: seq<byte>, off: nat, x: u32) {
    off + 4 <= |buf| && buf[off..off + 4] == U32Bytes(x)
  }

  ghost predicate U64At(buf: seq<byte>, off: nat, x: u64) {
    off + 8 <= |buf| && buf[off..off + 8] == U64Bytes(x)
  }

  /** Reading where a value was written gives the value back. */
  lemma ReadU16At(buf: seq<byte>, off: nat, x: u16)
    requires U16At(buf, off, x)
    ensures ReadU16(buf, off) == x
  {
    assert Pow256(2) == U16_LIMIT;
    LeRoundTrip(x, 2);
  }

  lemma ReadU32At(buf: seq<byte>, off: nat, x: u32)
    requires U32At(buf, off, x)
    ensures ReadU32(buf, off) == x
  {
    assert Pow256(4) == U32_LIMIT;
    LeRoundTrip(x, 4);
  }

  lemma ReadU64At(buf: seq<byte>, off: nat, x: u64)
    requires U64At(buf, off, x)
    ensures ReadU64(buf, off) == x
  {
    assert Pow256(8) == U64_LIMIT;
    LeRoundTrip(x, 8);
  }

  /** Reading `n` bytes at `|pre|` of `pre + LeBytes(x, n) + post` gives `x` back. */
  lemma ReadLeOfWritten(pre: seq<byte>, x: nat, n: nat, post: seq<byte>)
    requires x < Pow256(n)
    ensures ReadLe(pre + LeBytes(x, n) + post, |pre|, n) == x
  {
    var buf := pre + LeBytes(x, n) + post;
    assert buf[|pre|..|pre| + n] == LeBytes(x, n);
    LeRoundTrip(x, n);
  }
  lemma ReadU32OfWritten(pre: seq<byte>, x: u32, post: seq<byte>)
    ensures ReadU32(pre + U32Bytes(x) + post, |pre|) == x
  {
    assert Pow256(4) == U32_LIMIT;
    ReadLeOfWritten(pre, x, 4, post);
  }

  lemma ReadU16OfWritten(pre: seq<byte>, x: u16, post: seq<byte>)
    ensures ReadU16(pre + U16Bytes(x) + post, |pre|) == x
  {
    assert Pow256(2) == U16_LIMIT;
    ReadLeOfWritten(pre, x, 2, post);
  }

  lemma ReadU64OfWritten(pre: seq<byte>, x: u64, post: seq<byte>)
    ensures ReadU64(pre + U64Bytes(x) + post, |pre|) == x
  {
    assert Pow256(8) == U64_LIMIT;
    ReadLeOfWritten(pre, x, 8, post);
  }
}

=== FILE: ipc_class.dfy ===
/**
 * The IPC class name the C++ client looks for (`EverythingBase`
 * constructor), built in UTF-16 from a `std::wstring_view` instance name,
 * and its agreement with the Rust locator: the class name built from an
 * instance name is found by the locator, read as a `String` and parsed
 * back to that instance name.
 */
module IpcClass {
  import opened Wrappers
  import opened Ints
  import U = Utf16
  import IW = IpcWindow

  /** `L"_("`. */
  const OPEN_UNITS: seq<u16> := [0x5F, 0x28]
  /** `L')'`. */
  const CLOSE_UNITS: seq<u16> := [0x29]

  /** `ipc_class`: the bare prefix, or prefix + `_(` + name + `)` for a named instance. */
  function IpcClass(instanceName: seq<u16>): (c: seq<u16>)
    ensures IW.IPC_CLASS_PREFIX_UNITS <= c
    ensures instanceName == [] ==> c == IW.IPC_CLASS_PREFIX_UNITS
    ensures |c| == |IW.IPC_CLASS_PREFIX_UNITS| + (if instanceName == [] then 0 else |instanceName| + 3)
    ensures instanceName != [] ==> c[|IW.IPC_CLASS_PREFIX_UNITS| + 2..|c| - 1] == instanceName
  {
    if instanceName == [] then IW.IPC_CLASS_PREFIX_UNITS
    else IW.IPC_CLASS_PREFIX_UNITS + OPEN_UNITS + instanceName + CLOSE_UNITS
  }

  /** The prefix units read back as the prefix. */
  lemma PrefixUnits()
    ensures U.Decode(IW.IPC_CLASS_PREFIX_UNITS) == Some(IW.IPC_CLASS_PREFIX)
  {
    IW.PrefixUnitsAreAscii();
    U.DecodeWidened(IW.IPC_CLASS_PREFIX_UNITS, IW.IPC_CLASS_PREFIX);
  }

  /**
   * A name wrapped in `_(` and `)` after units that decode on their own and
   * do not end in a high surrogate decodes exactly when the name does.
   */
  lemma WrappedDecodes(head: seq<u16>, headText: string, name: seq<u16>)
    requires U.Decode(head) == Some(headText)
    requires |head| > 0 && !U.IsHighSurrogate(head[|head| - 1])
    ensures U.Decode(head + OPEN_UNITS + name + CLOSE_UNITS)
            == if U.Decode(name).Some? then Some(headText + "_(" + U.Decode(name).value + ")") else None
  {
    U.DecodeWidened(OPEN_UNITS, "_(");
    U.DecodeWidened(CLOSE_UNITS, ")");
    var opening := head + OPEN_UNITS;
    U.DecodeAppend(head, OPEN_UNITS);
    U.DecodeAppend(opening, name);
    U.DecodeAppend(opening + name, CLOSE_UNITS);
  }

  /** `INSTANCE_PREFIX` is the IPC prefix followed by `_(`. */
  lemma InstancePrefixSpelled(s: string)
    ensures IW.IPC_CLASS_PREFIX + "_(" + s + ")" == IW.INSTANCE_PREFIX + s + ")"
  {
  }

  /** A named class reads as the prefix, `_(`, the decoded name and `)`, or not at all. */
  lemma NamedClassDecodes(instanceName: seq<u16>)
    requires instanceName != []
    ensures U.Decode(IpcClass(instanceName))
            == if U.Decode(instanceName).Some? then Some(IW.INSTANCE_PREFIX + U.Decode(instanceName).value + ")")
               else None
  {
    PrefixUnits();
    IW.PrefixUnitsAreAscii();
    WrappedDecodes(IW.IPC_CLASS_PREFIX_UNITS, IW.IPC_CLASS_PREFIX, instanceName);
    if U.Decode(instanceName).Some? {
      InstancePrefixSpelled(U.Decode(instanceName).value);
    }
  }

  /**
   * The Rust side reads the C++ class name as a `String` exactly when the
   * instance name is valid UTF-16, and then parses the instance name back
   * out of it; the unnamed instance has none.
   */
  lemma InstanceNameRoundTrip(instanceName: seq<u16>)
    ensures U.Decode(IpcClass(instanceName)).Some? <==> U.Decode(instanceName).Some?
    ensures U.Decode(instanceName).Some? ==>
              IW.InstanceName(U.Decode(IpcClass(instanceName)).value)
              == (if instanceName == [] then None else Some(U.Decode(instanceName).value))
  {
    if instanceName == [] {
      PrefixUnits();
      IW.InstanceNameNone(IW.IPC_CLASS_PREFIX);
    } else if U.Decode(instanceName).Some? {
      NamedClassDecodes(instanceName);
      var s := U.Decode(instanceName).value;
      IW.InstanceNameIff(IW.INSTANCE_PREFIX + s + ")", s);
    } else {
      NamedClassDecodes(instanceName);
    }
  }

  /**
   * A host window registered under `IpcClass(name)` after windows the
   * locator rejects is the one located when the class name fits the
   * 256-unit read buffer: its instance name reads back when the name is
   * valid UTF-16, and the locator panics when it is not.
   */
  lemma LocatorFindsNamedHost(before: seq<IW.ThreadWindow>, hwnd: nat, instanceName: seq<u16>,
                              after: seq<IW.ThreadWindow>)
    requires forall j :: 0 <= j < |before| ==> !IW.Accepts(before[j])
    requires |IpcClass(instanceName)| < IW.CLASS_NAME_BUFFER
    ensures var found := IW.FromCurrentThread(before + [IW.ThreadWindow(hwnd, IpcClass(instanceName))] + after);
            (found.Ok? <==> U.Decode(instanceName).Some?)
            && (found.Ok? ==>
                  found.value.Some? && found.value.value.hwnd == hwnd
                  && IW.InstanceName(found.value.value.className)
                     == (if instanceName == [] then None else Some(U.Decode(instanceName).value)))
            && (found.Err? ==> found.error == IW.UNWRAP_PANIC)
  {
    var ws := before + [IW.ThreadWindow(hwnd, IpcClass(instanceName))] + after;
    var k := |before|;
    assert ws[k] == IW.ThreadWindow(hwnd, IpcClass(instanceName));
    assert IW.ReadClassName(ws[k]) == IpcClass(instanceName);
    assert IW.Accepts(ws[k]);
    assert forall j :: 0 <= j < k ==> ws[j] == before[j];
    assert IW.FirstIpcIndex(ws) == k;
    InstanceNameRoundTrip(instanceName);
    var found := IW.FromCurrentThread(ws);
    if found.Ok? {
      U.DecodeEncode(found.value.value.className);
    }
  }
}

=== FILE: ipc_window.dfy ===
/**
 * Discovery of Everything's IPC window (crate `everything-ipc`).
 *
 * The windows of the calling thread are enumerated in the order the
 * system hands them over; the enumeration is an input list here, each
 * window with its registered class name in UTF-16 units.  The first
 * window whose class name, as read into a 256-unit buffer, starts with
 * the IPC class prefix is the host's window; its class name is then
 * converted to a `String`, which panics on units that are not valid
 * UTF-16.  An optional instance name is encoded in a `_(...)` suffix of
 * that class name, and the host's version is read with four IPC
 * messages.
 */
module IpcWindow {
  import opened Wrappers
  import opened Ints
  import U = Utf16

  /** Class-name prefix of every Everything IPC window. */
  const IPC_CLASS_PREFIX: string := "EVERYTHING_TASKBAR_NOTIFICATION"
  /** The prefix as the UTF-16 units the callback compares (`u16str!`): one unit per character. */
  const IPC_CLASS_PREFIX_UNITS: seq<u16> :=
    [0x45, 0x56, 0x45, 0x52, 0x59, 0x54, 0x48, 0x49, 0x4E, 0x47, 0x5F, 0x54, 0x41, 0x53, 0x4B, 0x42, 0x41, 0x52, 0x5F, 0x4E, 0x4F, 0x54, 0x49, 0x46, 0x49, 0x43, 0x41, 0x54, 0x49, 0x4F, 0x4E]
  /** What precedes the instance name in the class name of a named instance. */
  const INSTANCE_PREFIX: string := "EVERYTHING_TASKBAR_NOTIFICATION_("
  /** Size, in UTF-16 units, of the buffer the class name is read into. */
  const CLASS_NAME_BUFFER: nat := 256
  /** The panic of `to_string().unwrap()` on a class name that is not valid UTF-16. */
  const UNWRAP_PANIC: string := "called `Result::unwrap()` on an `Err` value"

  /** `EVERYTHING_WM_IPC` is `WM_USER`. */
  const EVERYTHING_WM_IPC: nat := 0x0400
  const EVERYTHING_IPC_GET_MAJOR_VERSION: nat := 0
  const EVERYTHING_IPC_GET_MINOR_VERSION: nat := 1
  const EVERYTHING_IPC_GET_REVISION: nat := 2
  const EVERYTHING_IPC_GET_BUILD_NUMBER: nat := 3

  /**
   * A top-level window owned by the calling thread.  `className` is the
   * registered class name in UTF-16 units; the empty name stands for a
   * window whose class name cannot be read (`GetClassNameW` returns 0).
   */
  datatype ThreadWindow = ThreadWindow(hwnd: nat, className: seq<u16>)

  /** A located IPC window: its handle and the class name as a `String`. */
  datatype IpcWindow = IpcWindow(hwnd: nat, className: string)

  /** The prefix units are the prefix's characters, one unit each, all ASCII. */
  lemma PrefixUnitsAreAscii()
    ensures |IPC_CLASS_PREFIX_UNITS| == |IPC_CLASS_PREFIX| == 31
    ensures forall i :: 0 <= i < 31 ==> IPC_CLASS_PREFIX_UNITS[i] < 0x80
    ensures forall i :: 0 <= i < 31 ==> IPC_CLASS_PREFIX[i] as int == IPC_CLASS_PREFIX_UNITS[i]
  {
  }

  /**
   * `GetClassNameW` into a 256-unit buffer: the name is truncated to the
   * 255 units that fit before the terminating NUL, whether or not that
   * cuts a surrogate pair.
   */
  function ReadClassName(w: ThreadWindow): (name: seq<u16>)
    ensures |name| < CLASS_NAME_BUFFER
    ensures name <= w.className
    ensures |w.className| < CLASS_NAME_BUFFER ==> name == w.className
    ensures |w.className| >= CLASS_NAME_BUFFER ==> |name| == CLASS_NAME_BUFFER - 1
  {
    if |w.className| < CLASS_NAME_BUFFER then w.className
    else w.className[..CLASS_NAME_BUFFER - 1]
  }

  /** A class name read with a non-zero length that starts with the IPC prefix, compared unit by unit. */
  predicate IsIpcClassName(name: seq<u16>) {
    |name| > 0 && IPC_CLASS_PREFIX_UNITS <= name
  }

  /** Whether the enumeration callback accepts window `w`. */
  predicate Accepts(w: ThreadWindow) {
    IsIpcClassName(ReadClassName(w))
  }

  /**
   * The index of the first window the callback accepts, or the number of
   * windows when it accepts none.
   */
  function FirstIpcIndex(ws: seq<ThreadWindow>): (k: nat)
    ensures k <= |ws|
    ensures forall j :: 0 <= j < k ==> !Accepts(ws[j])
    ensures k < |ws| ==> Accepts(ws[k])
  {
    if |ws| == 0 || Accepts(ws[0]) then 0
    else
      var rest := ws[1..];
      assert forall j :: 1 <= j < |ws| ==> ws[j] == rest[j - 1];
      1 + FirstIpcIndex(rest)
  }

  /**
   * What the callback makes of a window it accepts: the class name as
   * read, converted to a `String`, or the `unwrap` panic.
   */
  function Located(w: ThreadWindow): (r: Result<IpcWindow, string>)
    ensures r.Ok? <==> U.Decode(ReadClassName(w)).Some?
    ensures r.Ok? ==> r.value.hwnd == w.hwnd && U.Encode(r.value.className) == ReadClassName(w)
    ensures r.Err? ==> r.error == UNWRAP_PANIC
  {
    match U.Decode(ReadClassName(w))
    case Some(name) =>
      U.EncodeDecode(ReadClassName(w));
      Ok(IpcWindow(w.hwnd, name))
    case None => Err(UNWRAP_PANIC)
  }

  /**
   * `enum_windows_proc`: given the result slot and one window, returns the
   * new result slot and whether enumeration continues (`TRUE`), or the
   * panic of the class-name conversion.
   */
  function EnumWindowsProc(result: Option<IpcWindow>, w: ThreadWindow): (r: Result<(Option<IpcWindow>, bool), string>)
    ensures !Accepts(w) ==> r == Ok((result, true))
    ensures Accepts(w) ==> (r.Ok? <==> U.Decode(ReadClassName(w)).Some?)
    ensures Accepts(w) && r.Ok? ==> !r.value.1 && r.value.0.Some? && r.value.0.value.hwnd == w.hwnd
                                    && U.Encode(r.value.0.value.className) == ReadClassName(w)
    ensures r.Err? ==> r.error == UNWRAP_PANIC
  {
    var name := ReadClassName(w);
    if |name| > 0 && IPC_CLASS_PREFIX_UNITS <= name then
      match U.Decode(name)
      case Some(className) =>
        U.EncodeDecode(name);
        Ok((Some(IpcWindow(w.hwnd, className)), false))
      case None => Err(UNWRAP_PANIC)
    else
      Ok((result, true))
  }

  /**
   * `EnumThreadWindows`: runs the callback on each window in order until it
   * returns `FALSE` (or panics).  Returns the final result slot and the
   * number of callback invocations.
   */
  function EnumThreadWindows(ws: seq<ThreadWindow>, result: Option<IpcWindow>): (r: Result<(Option<IpcWindow>, nat), string>)
    ensures FirstIpcIndex(ws) == |ws| ==> r == Ok((result, |ws|))
    ensures FirstIpcIndex(ws) < |ws| ==>
              var k := FirstIpcIndex(ws);
              (r.Ok? <==> Located(ws[k]).Ok?)
              && (r.Ok? ==> r.value == (Some(Located(ws[k]).value), k + 1))
    ensures r.Err? ==> r.error == UNWRAP_PANIC
  {
    if |ws| == 0 then Ok((result, 0))
    else
      match EnumWindowsProc(result, ws[0])
      case Err(e) => Err(e)
      case Ok((result', more)) =>
        if !more then Ok((result', 1))
        else
          match EnumThreadWindows(ws[1..], result')
          case Err(e) => Err(e)
          case Ok((found, visited)) => Ok((found, visited + 1))
  }

  /**
   * `IpcWindow::from_current_thread`: the first enumerated window whose
   * class name, as read, has the IPC prefix, with that class name as a
   * `String`; enumeration stops there.
   */
  function FromCurrentThread(ws: seq<ThreadWindow>): (r: Result<Option<IpcWindow>, string>)
    ensures r == Ok(None) <==> forall j :: 0 <= j < |ws| ==> !Accepts(ws[j])
    ensures FirstIpcIndex(ws) < |ws| ==> (r.Ok? <==> U.Decode(ReadClassName(ws[FirstIpcIndex(ws)])).Some?)
    ensures r.Ok? && r.value.Some? ==>
              var k := FirstIpcIndex(ws);
              k < |ws| && r.value.value.hwnd == ws[k].hwnd
              && U.Encode(r.value.value.className) == ReadClassName(ws[k])
              && |U.Encode(r.value.value.className)| < CLASS_NAME_BUFFER
              && IsIpcClassName(U.Encode(r.value.value.className))
    ensures r.Err? ==> r.error == UNWRAP_PANIC
  {
    match EnumThreadWindows(ws, None)
    case Err(e) => Err(e)
    case Ok((found, _)) => Ok(found)
  }

  /**
   * A surrogate pair cut by the 255-unit read leaves a high surrogate at
   * the end of the read name, and the locator panics on an IPC window
   * whose name the host could register whole.
   */
  lemma TruncatedPairPanics(w: ThreadWindow)
    requires |w.className| >= CLASS_NAME_BUFFER && IPC_CLASS_PREFIX_UNITS <= w.className
    requires U.IsHighSurrogate(w.className[CLASS_NAME_BUFFER - 2])
    ensures FromCurrentThread([w]) == Err(UNWRAP_PANIC)
  {
    var name := ReadClassName(w);
    assert IPC_CLASS_PREFIX_UNITS <= name by {
      assert name == w.className[..CLASS_NAME_BUFFER - 1];
    }
    assert name == name[..CLASS_NAME_BUFFER - 2] + [name[CLASS_NAME_BUFFER - 2]];
    U.DecodeAppend(name[..CLASS_NAME_BUFFER - 2], [name[CLASS_NAME_BUFFER - 2]]);
  }

  /** Rust's `str::strip_prefix`. */
  function StripPrefix(s: string, prefix: string): (r: Option<string>)
    ensures r.Some? <==> prefix <= s
    ensures r.Some? ==> s == prefix + r.value
  {
    if prefix <= s then Some(s[|prefix|..]) else None
  }

  /** Rust's `str::strip_suffix` with a single character. */
  function StripSuffix(s: string, c: char): (r: Option<string>)
    ensures r.Some? <==> |s| > 0 && s[|s| - 1] == c
    ensures r.Some? ==> s == r.value + [c]
  {
    if |s| > 0 && s[|s| - 1] == c then Some(s[..|s| - 1]) else None
  }

  /** `IpcWindow::instance_name`, on the class name. */
  function InstanceName(className: string): Option<string> {
    match StripPrefix(className, INSTANCE_PREFIX)
    case Some(rest) => StripSuffix(rest, ')')
    case None => None
  }

  /** The instance name is `s` exactly when the class name is `..._(` + `s` + `)`. */
  lemma InstanceNameIff(className: string, s: string)
    ensures InstanceName(className) == Some(s) <==> className == INSTANCE_PREFIX + s + ")"
  {
    if className == INSTANCE_PREFIX + s + ")" {
      assert INSTANCE_PREFIX <= className;
      assert className[|INSTANCE_PREFIX|..] == s + ")";
    }
  }

  /** No instance name unless the class name has the `_(` prefix and a final `)`. */
  lemma InstanceNameNone(className: string)
    ensures InstanceName(className).None? <==>
              !(INSTANCE_PREFIX <= className && |className| > |INSTANCE_PREFIX|
                && className[|className| - 1] == ')')
  {
    if INSTANCE_PREFIX <= className && |className| > |INSTANCE_PREFIX|
       && className[|className| - 1] == ')' {
      var rest := className[|INSTANCE_PREFIX|..];
      assert rest[|rest| - 1] == ')';
    }
  }

  /** Version of the running Everything (`Version`). */
  datatype Version = Version(major: u32, minor: u32, revision: u32, build: u32)

  /** `Version::new`. */
  function NewVersion(major: u32, minor: u32, revision: u32, build: u32): (v: Version)
    ensures v.major == major && v.minor == minor && v.revision == revision && v.build == build
  {
    Version(major, minor, revision, build)
  }

  datatype Ordering = Less | Equal | Greater

  function CompareU32(a: u32, b: u32): Ordering {
    if a < b then Less else if a == b then Equal else Greater
  }

  /** The derived `Ord` of `Version`: fields compared in declaration order. */
  function Compare(a: Version, b: Version): Ordering {
    if a.major != b.major then CompareU32(a.major, b.major)
    else if a.minor != b.minor then CompareU32(a.minor, b.minor)
    else if a.revision != b.revision then CompareU32(a.revision, b.revision)
    else CompareU32(a.build, b.build)
  }

  /** The four fields read as one 128-bit number, most significant first. */
  function Key(v: Version): nat {
    ((v.major * U32_LIMIT + v.minor) * U32_LIMIT + v.revision) * U32_LIMIT + v.build
  }

  /** Comparing `hi * B + lo` numbers is lexicographic on `(hi, lo)` when `lo < B`. */
  lemma LexicographicPair(hi1: nat, lo1: nat, hi2: nat, lo2: nat, b: nat)
    requires lo1 < b && lo2 < b
    ensures hi1 * b + lo1 < hi2 * b + lo2 <==> hi1 < hi2 || (hi1 == hi2 && lo1 < lo2)
    ensures hi1 * b + lo1 == hi2 * b + lo2 <==> hi1 == hi2 && lo1 == lo2
  {
    if hi1 < hi2 {
      assert hi1 * b + lo1 < (hi1 + 1) * b <= hi2 * b + lo2;
    } else if hi2 < hi1 {
      assert hi2 * b + lo2 < (hi2 + 1) * b <= hi1 * b + lo1;
    }
  }

  /** `Key` of a version prefix stays below the next digit. */
  lemma PrefixKeys(v: Version)
    ensures v.major * U32_LIMIT + v.minor < U64_LIMIT
    ensures (v.major * U32_LIMIT + v.minor) * U32_LIMIT + v.revision < U64_LIMIT * U32_LIMIT
  {
    LexicographicPair(v.major, v.minor, U32_LIMIT, 0, U32_LIMIT);
    var m := v.major * U32_LIMIT + v.minor;
    LexicographicPair(m, v.revision, U64_LIMIT, 0, U32_LIMIT);
  }

  /** The derived order agrees with the numeric order of the 128-bit keys. */
  lemma CompareIsKeyOrder(a: Version, b: Version)
    ensures Compare(a, b) == Less <==> Key(a) < Key(b)
    ensures Compare(a, b) == Equal <==> Key(a) == Key(b)
    ensures Compare(a, b) == Equal <==> a == b
  {
    var a1, b1 := a.major * U32_LIMIT + a.minor, b.major * U32_LIMIT + b.minor;
    var a2, b2 := a1 * U32_LIMIT + a.revision, b1 * U32_LIMIT + b.revision;
    LexicographicPair(a.major, a.minor, b.major, b.minor, U32_LIMIT);
    LexicographicPair(a1, a.revision, b1, b.revision, U32_LIMIT);
    LexicographicPair(a2, a.build, b2, b.build, U32_LIMIT);
  }

  /** The derived order is a total order: antisymmetric and transitive. */
  lemma CompareIsTotalOrder(a: Version, b: Version, c: Version)
    ensures Compare(a, b) == Less <==> Compare(b, a) == Greater
    ensures Compare(a, b) == Less && Compare(b, c) == Less ==> Compare(a, c) == Less
  {
    CompareIsKeyOrder(a, b);
    CompareIsKeyOrder(b, a);
    CompareIsKeyOrder(b, c);
    CompareIsKeyOrder(a, c);
  }

  /**
   * `IpcWindow::get_version`.  `send(command)` is the `LRESULT` the host
   * window answers to `EVERYTHING_WM_IPC` with that command; each answer
   * is cast to `u32`.
   */
  function GetVersion(send: nat -> i64): Version {
    NewVersion(ToU32(send(EVERYTHING_IPC_GET_MAJOR_VERSION)), ToU32(send(EVERYTHING_IPC_GET_MINOR_VERSION)),
               ToU32(send(EVERYTHING_IPC_GET_REVISION)), ToU32(send(EVERYTHING_IPC_GET_BUILD_NUMBER)))
  }

  /** A host that answers each version command with the matching field of `v`. */
  function HostAnswers(v: Version): nat -> i64 {
    (command: nat) => HostAnswer(v, command)
  }

  function HostAnswer(v: Version, command: nat): i64 {
    if command == EVERYTHING_IPC_GET_MAJOR_VERSION then v.major
    else if command == EVERYTHING_IPC_GET_MINOR_VERSION then v.minor
    else if command == EVERYTHING_IPC_GET_REVISION then v.revision
    else if command == EVERYTHING_IPC_GET_BUILD_NUMBER then v.build
    else 0
  }

  /** Commands 0, 1, 2 and 3 fill major, minor, revision and build in that order. */
  lemma GetVersionReadsHostVersion(v: Version)
    ensures GetVersion(HostAnswers(v)) == v
  {
  }
}

=== FILE: item_layout.dfy ===
/**
 * The layout the Everything window writes for one reply item, as the
 * reader in `QueryItem` expects it: the requested fields back to back in
 * walk order, a string as its `DWORD` unit count, the units and a NUL
 * unit, a size as a `uint64_t`, a date as a `FILETIME` and a `DWORD` as
 * itself, all little-endian.  The writer side builds the bytes; the reader
 * side works from where those bytes sit.  Together they show that the
 * reader finds every field the writer put down.
 */
module ItemLayout {
  import opened Wrappers
  import opened Ints
  import opened Seqs
  import opened Request
  import opened QueryItem

  /** The value of one field. */
  datatype FieldValue =
    | StrValue(units: seq<u16>)
    | SizeValue(size: u64)
    | DateValue(time: FileTime)
    | DwordValue(dword: u32)

  function TypeOfValue(v: FieldValue): DataType {
    match v
    case StrValue(_) => Str
    case SizeValue(_) => Size
    case DateValue(_) => Date
    case DwordValue(_) => Dword
  }

  /** A string's unit count plus its NUL must fit the `DWORD` the reader adds them in. */
  predicate Fits(v: FieldValue) {
    v.StrValue? ==> |v.units| < 0xFFFF_FFFF
  }

  /** The number of bytes a field takes. */
  function FieldLength(v: FieldValue): nat {
    match v
    case StrValue(units) => 4 + 2 * |units| + 2
    case SizeValue(_) => 8
    case DateValue(_) => 8
    case DwordValue(_) => 4
  }

  function FieldsLength(vals: seq<FieldValue>): nat {
    if |vals| == 0 then 0 else FieldLength(vals[0]) + FieldsLength(vals[1..])
  }

  /** UTF-16 units, two little-endian bytes each. */
  function UnitsBytes(units: seq<u16>): (bs: seq<byte>)
    ensures |bs| == 2 * |units|
  {
    if |units| == 0 then [] else U16Bytes(units[0]) + UnitsBytes(units[1..])
  }

  /** The writer's bytes for one field. */
  function EncodeField(v: FieldValue): (bs: seq<byte>)
    ensures |bs| == FieldLength(v)
  {
    match v
    case StrValue(units) => U32Bytes(ToU32(|units|)) + UnitsBytes(units) + U16Bytes(0)
    case SizeValue(size) => U64Bytes(size)
    case DateValue(time) => U32Bytes(time.low) + U32Bytes(time.high)
    case DwordValue(dword) => U32Bytes(dword)
  }

  function EncodeFields(vals: seq<FieldValue>): (bs: seq<byte>)
    ensures |bs| == FieldsLength(vals)
  {
    if |vals| == 0 then [] else EncodeField(vals[0]) + EncodeFields(vals[1..])
  }

  /** The reply bytes of an item whose fields hold `vals`, between `pre` and `post`. */
  function ItemBuffer(pre: seq<byte>, vals: seq<FieldValue>, post: seq<byte>): seq<byte> {
    pre + EncodeFields(vals) + post
  }

  /** The values belong one to one, in walk order, to the requested positions `ps`, each of its position's type. */
  ghost predicate Matches(ps: seq<nat>, vals: seq<FieldValue>) {
    && ValidPositions(ps)
    && |ps| == |vals|
    && forall j :: 0 <= j < |vals| ==> TypeOfValue(vals[j]) == TypeAt(ps[j]) && Fits(vals[j])
  }

  /** The units sit two bytes each from `off` of `buf`. */
  ghost predicate UnitsAt(buf: seq<byte>, off: nat, units: seq<u16>)
    decreases |units|
  {
    if |units| == 0 then off <= |buf|
    else U16At(buf, off, units[0]) && UnitsAt(buf, off + 2, units[1..])
  }

  /** The field `v` sits at `off` of `buf` as the writer lays it out. */
  ghost predicate WrittenAt(buf: seq<byte>, off: nat, v: FieldValue) {
    match v
    case StrValue(units) =>
      && |units| < U32_LIMIT
      && U32At(buf, off, |units|)
      && UnitsAt(buf, off + 4, units)
      && U16At(buf, off + 4 + 2 * |units|, 0)
    case SizeValue(size) => U64At(buf, off, size)
    case DateValue(time) => U32At(buf, off, time.low) && U32At(buf, off + 4, time.high)
    case DwordValue(dword) => U32At(buf, off, dword)
  }

  /** The fields `vals` sit back to back from `off` of `buf`. */
  ghost predicate FieldsAt(buf: seq<byte>, off: nat, vals: seq<FieldValue>)
    decreases |vals|
  {
    |vals| > 0 ==> WrittenAt(buf, off, vals[0]) && FieldsAt(buf, off + FieldLength(vals[0]), vals[1..])
  }

  // ---- The writer's bytes hold the fields where the reader looks ----

  lemma {:induction false} UnitsWritten(pre: seq<byte>, units: seq<u16>, post: seq<byte>)
    ensures UnitsAt(pre + UnitsBytes(units) + post, |pre|, units)
    decreases |units|
  {
    if |units| == 0 {
      assert |pre + UnitsBytes(units) + post| >= |pre|;
    } else {
      var u := U16Bytes(units[0]);
      var rest := UnitsBytes(units[1..]);
      Regroup2(pre, u, rest, post);
      InMiddle(pre, u, rest + post, 2);
      UnitsWritten(pre + u, units[1..], post);
      assert |pre + u| == |pre| + 2;
    }
  }

  lemma FieldWritten(pre: seq<byte>, v: FieldValue, post: seq<byte>)
    requires Fits(v)
    ensures WrittenAt(pre + EncodeField(v) + post, |pre|, v)
  {
    match v
    case StrValue(units) =>
      StrWritten(pre, units, post);
    case SizeValue(size) =>
      InMiddle(pre, U64Bytes(size), post, 8);
    case DateValue(time) =>
      var lo, hi := U32Bytes(time.low), U32Bytes(time.high);
      Regroup2(pre, lo, hi, post);
      InMiddle(pre, lo, hi + post, 4);
      InMiddle(pre + lo, hi, post, 4);
    case DwordValue(dword) =>
      InMiddle(pre, U32Bytes(dword), post, 4);
  }

  lemma StrWritten(pre: seq<byte>, units: seq<u16>, post: seq<byte>)
    requires |units| < 0xFFFF_FFFF
    ensures WrittenAt(pre + EncodeField(StrValue(units)) + post, |pre|, StrValue(units))
  {
    var n: u32 := |units|;
    assert ToU32(n) == n;
    var w, u, z := U32Bytes(n), UnitsBytes(units), U16Bytes(0);
    assert EncodeField(StrValue(units)) == w + u + z;
    Regroup3(pre, w, u, z, post);
    InMiddle(pre, w, u + z + post, 4);
    UnitsWritten(pre + w, units, z + post);
    InMiddle(pre + w + u, z, post, 2);
    assert |pre + w| == |pre| + 4;
    assert |pre + w + u| == |pre| + 4 + 2 * n;
  }

  /** The writer's buffer holds each field where the one before it ends. */
  lemma {:induction false} ItemBufferHoldsFields(pre: seq<byte>, vals: seq<FieldValue>, post: seq<byte>)
    requires forall j :: 0 <= j < |vals| ==> Fits(vals[j])
    ensures FieldsAt(ItemBuffer(pre, vals, post), |pre|, vals)
    decreases |vals|
  {
    if |vals| > 0 {
      var buf := ItemBuffer(pre, vals, post);
      var v := vals[0];
      var e, rest := EncodeField(v), EncodeFields(vals[1..]);
      assert WrittenAt(buf, |pre|, v) by {
        Regroup2(pre, e, rest, post);
        FieldWritten(pre, v, rest + post);
      }
      assert FieldsAt(buf, |pre| + FieldLength(v), vals[1..]) by {
        Regroup2(pre, e, rest, post);
        FitsTail(vals);
        ItemBufferHoldsFields(pre + e, vals[1..], post);
        assert |pre + e| == |pre| + FieldLength(v);
      }
    }
  }

  lemma FitsTail(vals: seq<FieldValue>)
    requires |vals| > 0 && forall j :: 0 <= j < |vals| ==> Fits(vals[j])
    ensures forall j :: 0 <= j < |vals[1..]| ==> Fits(vals[1..][j])
  {
    forall j | 0 <= j < |vals[1..]| ensures Fits(vals[1..][j]) {
      assert vals[1..][j] == vals[j + 1];
    }
  }

  // ---- The reader finds them ----

  /** The length of the first `n` fields is the first field's plus that of the next `n - 1`. */
  lemma PrefixLength(vals: seq<FieldValue>, n: nat)
    requires 0 < n <= |vals|
    ensures FieldsLength(vals[..n]) == FieldLength(vals[0]) + FieldsLength(vals[1..][..n - 1])
  {
    assert vals[..n][0] == vals[0];
    assert vals[..n][1..] == vals[1..][..n - 1];
  }

  /** The values after the first still match the positions after the first. */
  lemma MatchesTail(ps: seq<nat>, vals: seq<FieldValue>)
    requires Matches(ps, vals) && |ps| > 0
    ensures Matches(ps[1..], vals[1..])
    ensures TypeOfValue(vals[0]) == TypeAt(ps[0]) && Fits(vals[0])
  {
    forall j | 0 <= j < |vals[1..]|
      ensures TypeOfValue(vals[1..][j]) == TypeAt(ps[1..][j]) && Fits(vals[1..][j])
    {
      assert vals[1..][j] == vals[j + 1] && ps[1..][j] == ps[j + 1];
    }
  }

  /** The `n`-th field sits where the fields before it end. */
  lemma {:induction false} NthFieldAt(buf: seq<byte>, off: nat, vals: seq<FieldValue>, n: nat) returns (at: nat)
    requires FieldsAt(buf, off, vals) && n < |vals|
    ensures at == off + FieldsLength(vals[..n])
    ensures WrittenAt(buf, at, vals[n])
    decreases n
  {
    at := off + FieldsLength(vals[..n]);
    if n == 0 {
      assert vals[..0] == [];
    } else {
      var rest := NthFieldAt(buf, off + FieldLength(vals[0]), vals[1..], n - 1);
      PrefixLength(vals, n);
      assert vals[1..][n - 1] == vals[n];
    }
  }

  /** Units written at `off` are read back whole. */
  lemma {:induction false} UnitsReadBack(buf: seq<byte>, off: nat, units: seq<u16>)
    requires UnitsAt(buf, off, units)
    ensures off + 2 * |units| <= |buf| && ReadU16s(buf, off, |units|) == units
    decreases |units|
  {
    if |units| > 0 {
      var rest := units[1..];
      ReadU16At(buf, off, units[0]);
      UnitsReadBack(buf, off + 2, rest);
      var read := ReadU16s(buf, off, |units|);
      var read' := ReadU16s(buf, off + 2, |rest|);
      forall k | 0 <= k < |units|
        ensures read[k] == units[k]
      {
        if k == 0 {
          assert read[0] == ReadU16(buf, off);
        } else {
          assert off + 2 + 2 * (k - 1) == off + 2 * k;
          assert read[k] == read'[k - 1];
        }
      }
      assert read == units;
    }
  }

  /** The walker moves past a written field by exactly its length. */
  lemma AdvanceOverField(buf: seq<byte>, off: nat, v: FieldValue)
    requires Fits(v) && WrittenAt(buf, off, v)
    ensures Advance(TypeOfValue(v), buf, off) == Ok(FieldLength(v))
  {
    if v.StrValue? {
      var n := |v.units|;
      ReadU32At(buf, off, n);
      assert ToU32(n + 1) == n + 1;
    }
  }

  /** Over fields written back to back, the cursor after `n` of them stands where they end. */
  lemma {:induction false} CursorOverFields(ps: seq<nat>, buf: seq<byte>, off: nat, vals: seq<FieldValue>, n: nat)
    requires Matches(ps, vals) && n <= |ps| && FieldsAt(buf, off, vals)
    ensures CursorAfter(ps, buf, off, n) == Ok(off + FieldsLength(vals[..n]))
    decreases n
  {
    if n == 0 {
      assert vals[..0] == [];
    } else {
      var a := FieldLength(vals[0]);
      MatchesTail(ps, vals);
      AdvanceOverField(buf, off, vals[0]);
      CursorOverFields(ps[1..], buf, off + a, vals[1..], n - 1);
      PrefixLength(vals, n);
    }
  }

  /** The `n`-th of the fields written back to back: where the cursor stops before it, and what is written there. */
  lemma NthField(ps: seq<nat>, buf: seq<byte>, off: nat, vals: seq<FieldValue>, n: nat) returns (at: nat)
    requires Matches(ps, vals) && FieldsAt(buf, off, vals) && n < |vals|
    ensures CursorAfter(ps, buf, off, n) == Ok(at)
    ensures WrittenAt(buf, at, vals[n])
  {
    at := NthFieldAt(buf, off, vals, n);
    CursorOverFields(ps, buf, off, vals, n);
  }

  /**
   * The getters of `v`'s type, asked for `flag`, return `v`: `get_str` the
   * UTF-16 units and `get_cstr_len` their count, `get_size`, `get_date` and
   * `get_dword` the number.
   */
  ghost predicate ReadsBack(item: QueryItem, buf: seq<byte>, flag: u32, v: FieldValue) {
    match v
    case StrValue(units) =>
      GetStr(item, buf, flag) == Ok(units) && GetCStrLen(item, buf, flag) == Ok(|units|)
    case SizeValue(size) => GetSize(item, buf, flag) == Ok(size)
    case DateValue(time) => GetDate(item, buf, flag) == Ok(time)
    case DwordValue(dword) => GetDword(item, buf, flag) == Ok(dword)
  }

  /** Every getter of a field's type reads back the value written where `get` finds the field. */
  lemma FieldReadBack(item: QueryItem, buf: seq<byte>, flag: u32, off: nat, v: FieldValue)
    requires FieldAt(item, buf, flag) == Ok(off) && WrittenAt(buf, off, v)
    ensures ReadsBack(item, buf, flag, v)
  {
    match v
    case StrValue(units) =>
      ReadU32At(buf, off, |units|);
      UnitsReadBack(buf, off + 4, units);
    case SizeValue(size) =>
      ReadU64At(buf, off, size);
    case DateValue(time) =>
      ReadU32At(buf, off, time.low);
      ReadU32At(buf, off + 4, time.high);
    case DwordValue(dword) =>
      ReadU32At(buf, off, dword);
  }

  /**
   * Reading back: for the `n`-th requested field of fields written back to
   * back, `get_str`, `get_cstr_len`, `get_size`, `get_date` and `get_dword`
   * return what was written.
   */
  lemma GettersReadWrittenFields(request: u32, buf: seq<byte>, off: nat, vals: seq<FieldValue>, n: nat)
    requires Matches(Positions(request), vals) && FieldsAt(buf, off, vals) && n < |vals|
    ensures ReadsBack(QueryItem(request, off), buf, FlagAt(Positions(request)[n]), vals[n])
  {
    var at := NthField(Positions(request), buf, off, vals, n);
    GetFindsCursor(request, buf, off, n, at);
    FieldReadBack(QueryItem(request, off), buf, FlagAt(Positions(request)[n]), at, vals[n]);
  }

  /** The same for the bytes the writer builds. */
  lemma GettersReadItemBuffer(request: u32, pre: seq<byte>, vals: seq<FieldValue>, post: seq<byte>, n: nat)
    requires Matches(Positions(request), vals) && n < |vals|
    ensures ReadsBack(QueryItem(request, |pre|), ItemBuffer(pre, vals, post), FlagAt(Positions(request)[n]), vals[n])
  {
    ItemBufferHoldsFields(pre, vals, post);
    GettersReadWrittenFields(request, ItemBuffer(pre, vals, post), |pre|, vals, n);
  }
}

=== FILE: options_pages.dfy ===
/**
 * The options-page messages: registering the pages, loading one into its
 * slot, the Save handshake with the page worker, the page's window
 * procedure hook and killing a page.  The worker and its channels are
 * replaced by the answers in `Env`: whether the worker still receives,
 * and what it replies to Save.
 */
module OptionsPages {
  import opened Wrappers
  import opened Ints
  import opened PluginTypes

  const WM_CREATE: nat := 0x0001
  const WM_MOVE: nat := 0x0003
  const WM_SIZE: nat := 0x0005
  const WM_CLOSE: nat := 0x0010
  const WM_CTLCOLORDLG: nat := 0x0136
  const WM_PARENTNOTIFY: nat := 0x0210

  /** `OptionsDlgItem::ApplyButton`, a control of the options window. */
  const APPLY_BUTTON: int := 1001

  const ADD_PLUGIN_PAGE: string := "ui_options_add_plugin_page"
  const ENABLE_DLG_ITEM: string := "os_enable_or_disable_dlg_item"

  /** What `try_into` does to the page window besides forwarding. */
  datatype WindowCall = SetWindowPos(window: nat, width: i32, height: i32) | CloseWindow(window: nat)

  /**
   * `OptionsPageInternalMessage::try_into`, run by the page worker: a page
   * message is forwarded; `Size` resizes the window and `Kill` closes it,
   * and neither is forwarded.
   */
  function TryInto(m: InternalMessage, window: nat): (r: (Option<PageMessage>, seq<WindowCall>))
    ensures r.0.Some? <==> m.Msg?
    ensures m.Msg? ==> r.0.value == m.msg && r.1 == []
    ensures m.Size? ==> r.1 == [SetWindowPos(window, m.width, m.height)]
    ensures m.Kill? ==> r.1 == [CloseWindow(window)]
  {
    match m
    case Msg(msg) => (Some(msg), [])
    case Size(width, height) => (None, [SetWindowPos(window, width, height)])
    case Kill => (None, [CloseWindow(window)])
  }

  /** `ui_options_add_plugin_page` for pages `i..`, in order, each after `host()`. */
  function RegisterPages(mode: Profile, host: Option<Host>, data: nat, pages: seq<string>, i: nat): (r: Step<()>)
    requires i <= |pages|
    ensures i < |pages| ==>
              (r.Done? <==> host.Some? && ADD_PLUGIN_PAGE in host.value.exports
                            && forall j :: i <= j < |pages| ==> NulFree(pages[j]))
    ensures r.Done? ==> |r.events| == |pages| - i
                        && forall j :: 0 <= j < |r.events| ==> r.events[j] == AddPluginPage(data, i + j, pages[i + j])
    decreases |pages| - i
  {
    if i == |pages| then Done((), [])
    else
      match HostOf(mode, host)
      case Err(f) => Failed(f)
      case Ok(ho) =>
        if ADD_PLUGIN_PAGE !in ho.exports then Failed(Undefined("missing export " + ADD_PLUGIN_PAGE))
        else if !NulFree(pages[i]) then Failed(Panic("nul byte found in provided data"))
        else
          match RegisterPages(mode, host, data, pages, i + 1)
          case Failed(f) => Failed(f)
          case Done(_, rest) => Done((), [AddPluginPage(data, i, pages[i])] + rest)
  }

  /**
   * ADD_OPTIONS_PAGES: 0 without pages; otherwise one registration per
   * page, page `i` with correlation index `i`, and 1.
   */
  function AddOptionsPages(mode: Profile, h: Handler, data: nat): (r: Step<Reply>)
    ensures |h.pages| == 0 ==> r == Done(Reply(NULL, h), [])
    ensures |h.pages| > 0 ==>
              (r.Done? <==> h.host.Some? && ADD_PLUGIN_PAGE in h.host.value.exports
                            && forall j :: 0 <= j < |h.pages| ==> NulFree(h.pages[j]))
    ensures |h.pages| > 0 && r.Done? ==>
              r.value == Reply(Code(1), h) && |r.events| == |h.pages|
              && forall i :: 0 <= i < |h.pages| ==> r.events[i] == AddPluginPage(data, i, h.pages[i])
  {
    if |h.pages| == 0 then Done(Reply(NULL, h), [])
    else
      match RegisterPages(mode, h.host, data, h.pages, 0)
      case Failed(f) => Failed(f)
      case Done(_, events) => Done(Reply(Code(1), h), events)
  }

  /**
   * LOAD_OPTIONS_PAGE: slot `userData` takes the handle the page's `load`
   * returns.  Without pages, `debug_assert!` panics in Debug; an index
   * past the pages panics in either build.
   */
  function LoadOptionsPage(mode: Profile, h: Handler, userData: nat, env: Env): (r: Step<Reply>)
    requires Valid(h)
    ensures r.Done? <==> userData < |h.pages|
    ensures r.Done? ==> r.value.ret == Code(1) && r.events == []
                        && r.value.handler == h.(handles := h.handles[userData := Some(env.loaded)])
  {
    if mode == Debug && |h.pages| == 0 then Failed(Panic("assertion failed: !self.options_pages.is_empty()"))
    else if userData >= |h.pages| then Failed(Panic("index out of bounds"))
    else Done(Reply(Code(1), h.(handles := h.handles[userData := Some(env.loaded)])), [])
  }

  /**
   * SAVE_OPTIONS_PAGE as the code has it.  With a handle, the app is taken
   * out of its slot and its config sent to the worker; the app is rebuilt
   * only when the worker replies.  A worker that no longer receives, or one
   * that drops the reply sender (as it is told to when nothing changed),
   * leaves the slot empty.
   */
  function SaveOptionsPageAsWritten(mode: Profile, h: Handler, userData: nat, env: Env): (r: Step<Reply>)
    requires Valid(h)
    ensures |h.pages| == 0 ==> r == Done(Reply(NULL, h), [])
    ensures 0 < |h.pages| <= userData ==> r.Failed?
    ensures r.Done? && |h.pages| > 0 ==>
              r.value.ret == Code(1) && r.value.handler.message == EnableApply(true)
              && r.value.handler.handles == h.handles && SameSetup(h, r.value.handler)
    ensures 0 < |h.pages| && userData < |h.pages| && h.handles[userData].None? ==>
              r.Done? && r.value.handler.app == h.app && r.events == []
    ensures 0 < |h.pages| && userData < |h.pages| && h.handles[userData].Some? && h.app.None? ==>
              r == Failed(Panic("App not inited"))
    ensures 0 < |h.pages| && userData < |h.pages| && h.handles[userData].Some? && h.app.Some? ==>
              r.Done? && r.value.handler.app == (if env.open && env.reply.Some? then Some(App(env.reply.value)) else None)
  {
    if |h.pages| == 0 then Done(Reply(NULL, h), [])
    else if userData >= |h.pages| then Failed(Panic("index out of bounds"))
    else
      match h.handles[userData]
      case None => Done(Reply(Code(1), h.(message := EnableApply(true))), [])
      case Some(_) =>
        match AppIntoConfig(h)
        case Err(f) => Failed(f)
        case Ok((config, taken)) =>
          if !env.open then Done(Reply(Code(1), taken.(message := EnableApply(true))), [])
          else
            var sent := [PageReceives(userData, Msg(Save(config)))];
            match env.reply
            case None => Done(Reply(Code(1), taken.(message := EnableApply(true))), sent)
            case Some(edited) =>
              match AppNew(mode, taken, Some(edited))
              case Failed(f) => Failed(f)
              case Done(rebuilt, started) => Done(Reply(Code(1), rebuilt.(message := EnableApply(true))), sent + started)
  }

  /** The config the app is rebuilt with after Save: the worker's edit, or the config as it was. */
  function Edited(config: Config, env: Env): Config {
    if env.open && env.reply.Some? then env.reply.value else config
  }

  /**
   * SAVE_OPTIONS_PAGE with the app rebuilt on every path once it was taken
   * out: from the worker's edited config when it replies, from the config
   * as it was otherwise.
   */
  function SaveOptionsPage(mode: Profile, h: Handler, userData: nat, env: Env): (r: Step<Reply>)
    requires Valid(h)
    ensures |h.pages| == 0 ==> r == Done(Reply(NULL, h), [])
    ensures 0 < |h.pages| <= userData ==> r.Failed?
    ensures r.Done? && |h.pages| > 0 ==>
              r.value.ret == Code(1) && r.value.handler.message == EnableApply(true)
              && r.value.handler.handles == h.handles && SameSetup(h, r.value.handler)
    ensures 0 < |h.pages| && userData < |h.pages| && h.handles[userData].None? ==>
              r.Done? && r.value.handler.app == h.app && r.events == []
    ensures 0 < |h.pages| && userData < |h.pages| && h.handles[userData].Some? ==>
              (r.Done? <==> h.app.Some?)
              && (r.Done? ==> r.value.handler.app == Some(App(Edited(h.app.value.config, env)))
                              && AppStart(Edited(h.app.value.config, env)) in r.events)
  {
    if |h.pages| == 0 then Done(Reply(NULL, h), [])
    else if userData >= |h.pages| then Failed(Panic("index out of bounds"))
    else
      match h.handles[userData]
      case None => Done(Reply(Code(1), h.(message := EnableApply(true))), [])
      case Some(_) =>
        match AppIntoConfig(h)
        case Err(f) => Failed(f)
        case Ok((config, taken)) =>
          var sent := if env.open then [PageReceives(userData, Msg(Save(config)))] else [];
          match AppNew(mode, taken, Some(Edited(config, env)))
          case Failed(f) => Failed(f)
          case Done(rebuilt, started) => Done(Reply(Code(1), rebuilt.(message := EnableApply(true))), sent + started)
  }

  /** `(l_param & 0xFFFF) as i32`: the low 16 bits of the two's-complement value. */
  function LoWord(lParam: i64): (w: i32)
    ensures 0 <= w < 0x1_0000
  {
    lParam % 0x1_0000
  }

  /** `(l_param >> 16) as i32`: an arithmetic shift, then the low 32 bits read as signed. */
  function HiWord(lParam: i64): i32 {
    ToI32(lParam / 0x1_0000)
  }

  /** `ui_options_enable_or_disable_apply_button`: item 1001 of the options window. */
  function EnableApplyButton(mode: Profile, host: Option<Host>, optionsHwnd: nat, enable: bool): (r: Step<()>)
    ensures r.Done? <==> host.Some? && ENABLE_DLG_ITEM in host.value.exports
    ensures r.Done? ==> r.events == [EnableDlgItem(optionsHwnd, APPLY_BUTTON, enable)]
  {
    CallHost(mode, host, ENABLE_DLG_ITEM, EnableDlgItem(optionsHwnd, APPLY_BUTTON, enable))
  }

  /** What OPTIONS_PAGE_PROC does for the window message itself. */
  function ProcMessage(mode: Profile, h: Handler, userData: nat, msg: nat, lParam: i64, optionsHwnd: nat, env: Env): (r: Step<()>)
    requires Valid(h) && userData < |h.pages|
    ensures msg == WM_SIZE ==> r.Done?
    ensures msg == WM_SIZE && r.Done? ==>
              r.events == (if h.handles[userData].Some? && env.open
                           then [PageReceives(userData, Size(LoWord(lParam), HiWord(lParam)))] else [])
    ensures msg == WM_CTLCOLORDLG ==> r == EnableApplyButton(mode, h.host, optionsHwnd, true)
    ensures msg != WM_SIZE && msg != WM_CTLCOLORDLG ==> r == Done((), [])
  {
    if msg == WM_SIZE then
      if h.handles[userData].Some? && env.open
      then Done((), [PageReceives(userData, Size(LoWord(lParam), HiWord(lParam)))])
      else Done((), [])
    else if msg == WM_CTLCOLORDLG then EnableApplyButton(mode, h.host, optionsHwnd, true)
    else Done((), [])
  }

  /**
   * OPTIONS_PAGE_PROC: the window message's own effect, then the pending
   * options message is taken and carried out; 1.
   */
  function OptionsPageProc(mode: Profile, h: Handler, userData: nat, msg: nat, lParam: i64, optionsHwnd: nat, env: Env): (r: Step<Reply>)
    requires Valid(h)
    ensures |h.pages| == 0 ==> r == Done(Reply(NULL, h), [])
    ensures 0 < |h.pages| <= userData ==> r.Failed?
    ensures r.Done? && |h.pages| > 0 ==> r.value == Reply(Code(1), h.(message := Noop))
    ensures r.Done? && |h.pages| > 0 ==>
              var own := ProcMessage(mode, h, userData, msg, lParam, optionsHwnd, env);
              own.Done? && r.events == own.events + (if h.message.EnableApply? then [EnableDlgItem(optionsHwnd, APPLY_BUTTON, h.message.enable)] else [])
  {
    if |h.pages| == 0 then Done(Reply(NULL, h), [])
    else if userData >= |h.pages| then Failed(Panic("index out of bounds"))
    else
      match ProcMessage(mode, h, userData, msg, lParam, optionsHwnd, env)
      case Failed(f) => Failed(f)
      case Done(_, own) =>
        var drained := h.(message := Noop);
        match h.message
        case Noop => Done(Reply(Code(1), drained), own)
        case EnableApply(enable) =>
          match EnableApplyButton(mode, h.host, optionsHwnd, enable)
          case Failed(f) => Failed(f)
          case Done(_, pending) => Done(Reply(Code(1), drained), own + pending)
  }

  /**
   * KILL_OPTIONS_PAGE, indexed by the data value itself: the slot is left
   * empty and its worker told to close; 1 even when the slot was empty.
   */
  function KillOptionsPage(h: Handler, data: nat, env: Env): (r: Step<Reply>)
    requires Valid(h)
    ensures |h.pages| == 0 ==> r == Done(Reply(NULL, h), [])
    ensures 0 < |h.pages| ==> (r.Done? <==> data < |h.pages|)
    ensures r.Done? && |h.pages| > 0 ==>
              r.value == Reply(Code(1), h.(handles := h.handles[data := None]))
              && r.events == (if h.handles[data].Some? && env.open then [PageReceives(data, Kill)] else [])
  {
    if |h.pages| == 0 then Done(Reply(NULL, h), [])
    else if data >= |h.pages| then Failed(Panic("index out of bounds"))
    else
      var cleared := h.(handles := h.handles[data := None]);
      match h.handles[data]
      case Some(_) => Done(Reply(Code(1), cleared), if env.open then [PageReceives(data, Kill)] else [])
      case None => Done(Reply(Code(1), cleared), [])
  }

  // ---- Properties ----

  /** A window size packed into `lParam` the way `WM_SIZE` packs it unpacks to the same width and height. */
  lemma SizeUnpacks(width: nat, height: nat)
    requires width < 0x1_0000 && height < 0x1_0000
    ensures LoWord(width + height * 0x1_0000) == width
    ensures HiWord(width + height * 0x1_0000) == height
  {
    var lParam := width + height * 0x1_0000;
    assert lParam / 0x1_0000 == height && lParam % 0x1_0000 == width by {
      assert lParam == height * 0x1_0000 + width;
    }
  }

  /**
   * As written, a worker that drops the reply sender (its way of saying
   * nothing changed) leaves the app slot empty after SAVE_OPTIONS_PAGE.
   */
  lemma DroppedReplyLosesApp(mode: Profile, h: Handler, userData: nat, env: Env)
    requires Valid(h) && userData < |h.pages| && h.handles[userData].Some? && h.app.Some?
    requires env.open && env.reply.None?
    ensures var r := SaveOptionsPageAsWritten(mode, h, userData, env);
            r.Done? && r.value.handler.app.None?
            && AppIntoConfig(r.value.handler) == Err(Panic("App not inited"))
            && AppRef(r.value.handler) == Err(Panic("App not inited"))
  {
  }

  /**
   * With the app rebuilt on every path, SAVE_OPTIONS_PAGE never leaves the
   * slot empty: KILL afterwards gets the saved config back, edited by the
   * worker exactly when it replied.
   */
  lemma SaveKeepsAppLive(mode: Profile, h: Handler, userData: nat, env: Env)
    requires Valid(h) && h.app.Some?
    requires userData < |h.pages| || |h.pages| == 0
    ensures var r := SaveOptionsPage(mode, h, userData, env);
            r.Done? && r.value.handler.app.Some?
            && AppIntoConfig(r.value.handler).Ok?
            && AppIntoConfig(r.value.handler).value.0
               == (if |h.pages| > 0 && h.handles[userData].Some? then Edited(h.app.value.config, env) else h.app.value.config)
  {
    var r := SaveOptionsPage(mode, h, userData, env);
    if |h.pages| > 0 && h.handles[userData].Some? {
      assert r.value.handler.app == Some(App(Edited(h.app.value.config, env)));
    }
  }

  /** The two SAVE_OPTIONS_PAGE agree whenever the worker replies. */
  lemma SavesAgreeOnReply(mode: Profile, h: Handler, userData: nat, env: Env)
    requires Valid(h) && env.open && env.reply.Some?
    ensures SaveOptionsPage(mode, h, userData, env) == SaveOptionsPageAsWritten(mode, h, userData, env)
  {
  }

  /**
   * After a page is killed its slot is empty, so SAVE on it, as written
   * and corrected alike, leaves the app alone and sends nothing.
   */
  lemma SaveAfterKillLeavesApp(mode: Profile, h: Handler, i: nat, env: Env, env': Env)
    requires Valid(h) && i < |h.pages|
    ensures var k := KillOptionsPage(h, i, env);
            k.Done? && Valid(k.value.handler)
            && var s := SaveOptionsPageAsWritten(mode, k.value.handler, i, env');
               s.Done? && s.events == [] && s.value.handler.app == h.app
               && SaveOptionsPage(mode, k.value.handler, i, env') == s
  {
    var k := KillOptionsPage(h, i, env);
    assert k.value.handler.handles[i].None?;
  }

  /** A page loaded and then killed: its worker is told to close when it still receives. */
  lemma LoadThenKill(mode: Profile, h: Handler, i: nat, env: Env)
    requires Valid(h) && i < |h.pages|
    ensures var l := LoadOptionsPage(mode, h, i, env);
            l.Done? && Valid(l.value.handler)
            && var k := KillOptionsPage(l.value.handler, i, env);
               k.Done? && k.value.handler.handles == h.handles[i := None]
               && k.events == (if env.open then [PageReceives(i, Kill)] else [])
  {
    var l := LoadOptionsPage(mode, h, i, env);
    assert l.value.handler.handles[i] == Some(env.loaded);
    assert l.value.handler.handles[i := None] == h.handles[i := None];
  }

  /**
   * What the worker of page `page`, showing window `window`, makes of a
   * step's events: the messages `try_into` forwards to the page and the
   * calls it makes on the window, each in order.
   */
  function WorkerSees(events: seq<Event>, page: nat, window: nat): (r: (seq<PageMessage>, seq<WindowCall>))
    ensures (forall i :: 0 <= i < |events| ==> !(events[i].PageReceives? && events[i].page == page)) ==> r == ([], [])
    decreases |events|
  {
    if |events| == 0 then ([], [])
    else
      var rest := WorkerSees(events[1..], page, window);
      if events[0].PageReceives? && events[0].page == page then
        var t := TryInto(events[0].msg, window);
        ((if t.0.Some? then [t.0.value] else []) + rest.0, t.1 + rest.1)
      else rest
  }

  /**
   * As written, SAVE_OPTIONS_PAGE on a live page whose worker receives
   * hands that page exactly one `Save`, carrying the config taken out of
   * the app slot, and makes no window call; no other page hears anything.
   */
  lemma SaveForwardsTakenConfig(mode: Profile, h: Handler, userData: nat, env: Env, window: nat)
    requires Valid(h) && userData < |h.pages| && h.handles[userData].Some? && h.app.Some? && env.open
    ensures var r := SaveOptionsPageAsWritten(mode, h, userData, env);
            r.Done? && AppIntoConfig(h).Ok?
            && WorkerSees(r.events, userData, window) == ([Save(AppIntoConfig(h).value.0)], [])
            && forall q :: q != userData ==> WorkerSees(r.events, q, window) == ([], [])
  {
    var r := SaveOptionsPageAsWritten(mode, h, userData, env);
    var sent := PageReceives(userData, Msg(Save(h.app.value.config)));
    assert r.events == [sent] || r.events == [sent, AppStart(env.reply.value)];
    assert WorkerSees([], userData, window) == ([], []);
    assert TryInto(sent.msg, window) == (Some(Save(h.app.value.config)), []);
    assert WorkerSees(r.events[1..], userData, window) == ([], []) by {
      if |r.events| == 2 {
        assert r.events[1..] == [AppStart(env.reply.value)];
      }
    }
    assert [Save(h.app.value.config)] + [] == [Save(h.app.value.config)];
    var noCalls: seq<WindowCall> := [];
    assert noCalls + noCalls == noCalls;
  }

  /**
   * `WM_SIZE` on a live page whose worker receives makes that worker
   * resize its window once, to the low and high words of `lParam`, and
   * forwards nothing to the page.
   */
  lemma SizeResizesWindow(mode: Profile, h: Handler, userData: nat, lParam: i64, optionsHwnd: nat, env: Env, window: nat)
    requires Valid(h) && userData < |h.pages| && h.handles[userData].Some? && env.open
    ensures var r := ProcMessage(mode, h, userData, WM_SIZE, lParam, optionsHwnd, env);
            r.Done? && WorkerSees(r.events, userData, window) == ([], [SetWindowPos(window, LoWord(lParam), HiWord(lParam))])
  {
    var r := ProcMessage(mode, h, userData, WM_SIZE, lParam, optionsHwnd, env);
    var call := SetWindowPos(window, LoWord(lParam), HiWord(lParam));
    assert WorkerSees(r.events[1..], userData, window) == ([], []);
    assert TryInto(r.events[0].msg, window) == (None, [call]);
    var noMsgs: seq<PageMessage> := [];
    assert noMsgs + noMsgs == noMsgs && [call] + [] == [call];
  }

  /**
   * KILL_OPTIONS_PAGE on a live page whose worker receives makes that
   * worker close its window once and forwards nothing to the page.
   */
  lemma KillClosesWindow(h: Handler, data: nat, env: Env, window: nat)
    requires Valid(h) && data < |h.pages| && h.handles[data].Some? && env.open
    ensures var r := KillOptionsPage(h, data, env);
            r.Done? && WorkerSees(r.events, data, window) == ([], [CloseWindow(window)])
  {
    var r := KillOptionsPage(h, data, env);
    assert WorkerSees(r.events[1..], data, window) == ([], []);
    assert TryInto(r.events[0].msg, window) == (None, [CloseWindow(window)]);
    var noMsgs: seq<PageMessage> := [];
    assert noMsgs + noMsgs == noMsgs && [CloseWindow(window)] + [] == [CloseWindow(window)];
  }
}

=== FILE: plugin_handler.dfy ===
/**
 * `PluginHandler::handle`: one message from Everything, its return value,
 * the handler after it and what it did to the host, the app and the page
 * workers.  Also the standalone drivers `init_start`,
 * `init_start_with_config` and `stop_kill`.
 */
module PluginHandler {
  import opened Wrappers
  import opened Ints
  import opened PluginTypes
  import U = Utf16
  import IW = IpcWindow
  import IC = IpcClass
  import S = Settings
  import OP = OptionsPages

  /** The `EVERYTHING_PLUGIN_PM_*` messages with their data; `PmOther` is every other code. */
  datatype PluginMessage =
    | PmInit(data: nat)
    | PmGetPluginVersion
    | PmGetName
    | PmGetDescription
    | PmGetAuthor
    | PmGetVersion
    | PmGetLink
    | PmStart(data: nat)
    | PmStop
    | PmUninstall
    | PmKill
    | PmAddOptionsPages(data: nat)
    | PmLoadOptionsPage(userData: nat, pageHwnd: nat)
    | PmSaveOptionsPage(userData: nat)
    | PmGetOptionsPageMinmax(data: nat)
    | PmSizeOptionsPage(data: nat)
    | PmOptionsPageProc(userData: nat, msg: nat, wParam: int, lParam: i64, optionsHwnd: nat)
    | PmKillOptionsPage(data: nat)
    | PmSaveSettings(data: nat)
    | PmOther(code: nat)

  /** The pointer a getter returns: the stored string, or null. */
  function StringPtr(s: Option<string>): (r: Ret)
    ensures r == NULL <==> s.None?
    ensures s.Some? ==> r == Text(s.value)
  {
    match s
    case Some(v) => Text(v)
    case None => NULL
  }

  /**
   * INIT: the host once-cell is set from a non-null data unless already
   * set, then the instance name is looked up again; the locator's panic
   * ends the step.  This is the build without the `tracing` feature, whose
   * subscriber setup panics on a repeated INIT.
   */
  function Init(h: Handler, data: nat, env: Env): (r: Step<Reply>)
    ensures r.Done? <==> InstanceNameFromMainThread(env.windows).Ok?
    ensures r.Failed? ==> r.failure == Panic(IW.UNWRAP_PANIC)
    ensures r.Done? ==>
              var h' := r.value.handler;
              r.value.ret == Code(1) && r.events == []
              && h'.(host := h.host, instanceName := h.instanceName) == h
              && (h.host.Some? || data == 0 ==> h'.host == h.host)
              && (h.host.None? && data != 0 ==> h'.host == Some(Host(data, env.exports)))
              && h'.instanceName == InstanceNameFromMainThread(env.windows).value
  {
    var host := if data != 0 && h.host.None? then Some(Host(data, env.exports)) else h.host;
    match InstanceNameFromMainThread(env.windows)
    case Err(f) => Failed(f)
    case Ok(name) => Done(Reply(Code(1), h.(host := host, instanceName := name)), [])
  }

  /** START: a new app from `load_settings`, then its `start` hook. */
  function Start(mode: Profile, codec: Codec, h: Handler, data: nat, env: Env): (r: Step<Reply>)
    ensures r.Done? <==> S.LoadSettings(h, codec, data, env).Done? && (mode == Debug ==> h.app.None?)
    ensures r.Done? ==>
              var loaded := S.LoadSettings(h, codec, data, env);
              r.value == Reply(Code(1), h.(app := Some(NewApp(loaded.value))))
              && r.events == loaded.events + [AppStart(NewApp(loaded.value).config)]
  {
    match S.LoadSettings(h, codec, data, env)
    case Failed(f) => Failed(f)
    case Done(config, loading) =>
      match AppNew(mode, h, config)
      case Failed(f) => Failed(f)
      case Done(started, hook) => Done(Reply(Code(1), started), loading + hook)
  }

  /** KILL: the app is consumed into its config, which is dropped. */
  function Kill(h: Handler): (r: Step<Reply>)
    ensures r.Done? <==> h.app.Some?
    ensures r.Failed? ==> r.failure == Panic("App not inited")
    ensures r.Done? ==> r == Done(Reply(Code(1), h.(app := None)), [])
  {
    match AppIntoConfig(h)
    case Err(f) => Failed(f)
    case Ok((_, emptied)) => Done(Reply(Code(1), emptied), [])
  }

  /** SAVE_SETTINGS: the handler is returned as it was. */
  function SaveSettings(mode: Profile, codec: Codec, h: Handler, data: nat): (r: Step<Reply>)
    ensures r.Done? <==> S.SaveSettings(mode, codec, h, data).Done?
    ensures r.Done? ==> r.value == Reply(Code(1), h) && r.events == S.SaveSettings(mode, codec, h, data).events
  {
    match S.SaveSettings(mode, codec, h, data)
    case Failed(f) => Failed(f)
    case Done(ret, events) => Done(Reply(ret, h), events)
  }

  /**
   * `handle`.  Every step keeps the handler's setup (the host once set,
   * the identity, the pages and one slot per page) except that INIT may
   * fill the empty host cell and refreshes the instance name.
   * SAVE_OPTIONS_PAGE is the save as the code has it.
   */
  function Handle(mode: Profile, codec: Codec, h: Handler, m: PluginMessage, env: Env): (r: Step<Reply>)
    requires Valid(h)
    ensures r.Done? ==> Valid(r.value.handler)
    ensures r.Done? ==> r.value.handler.identity == h.identity && r.value.handler.pages == h.pages
    ensures r.Done? && h.host.Some? ==> r.value.handler.host == h.host
    ensures r.Done? && !m.PmInit? ==> SameSetup(h, r.value.handler)
    ensures r.Done? && !(m.PmStart? || m.PmKill? || m.PmSaveOptionsPage?) ==> r.value.handler.app == h.app
  {
    match m
    case PmInit(data) => Init(h, data, env)
    case PmGetPluginVersion => Done(Reply(PluginVersion, h), [])
    case PmGetName => Done(Reply(StringPtr(h.identity.name), h), [])
    case PmGetDescription => Done(Reply(StringPtr(h.identity.description), h), [])
    case PmGetAuthor => Done(Reply(StringPtr(h.identity.author), h), [])
    case PmGetVersion => Done(Reply(StringPtr(h.identity.version), h), [])
    case PmGetLink => Done(Reply(StringPtr(h.identity.link), h), [])
    case PmStart(data) => Start(mode, codec, h, data, env)
    case PmStop => Done(Reply(Code(1), h), [])
    case PmUninstall => Done(Reply(Code(1), h), [])
    case PmKill => Kill(h)
    case PmAddOptionsPages(data) => OP.AddOptionsPages(mode, h, data)
    case PmLoadOptionsPage(userData, _) => OP.LoadOptionsPage(mode, h, userData, env)
    case PmSaveOptionsPage(userData) => OP.SaveOptionsPageAsWritten(mode, h, userData, env)
    case PmGetOptionsPageMinmax(_) => Done(Reply(NULL, h), [])
    case PmSizeOptionsPage(_) => Done(Reply(NULL, h), [])
    case PmOptionsPageProc(userData, msg, _, lParam, optionsHwnd) =>
      OP.OptionsPageProc(mode, h, userData, msg, lParam, optionsHwnd, env)
    case PmKillOptionsPage(data) => OP.KillOptionsPage(h, data, env)
    case PmSaveSettings(data) => SaveSettings(mode, codec, h, data)
    case PmOther(_) => Done(Reply(NULL, h), [])
  }

  /**
   * `handle` with the corrected SAVE_OPTIONS_PAGE, which rebuilds the app
   * on every path; every other message is handled as the code has it.
   */
  function HandleCorrected(mode: Profile, codec: Codec, h: Handler, m: PluginMessage, env: Env): (r: Step<Reply>)
    requires Valid(h)
    ensures r.Done? ==> Valid(r.value.handler)
    ensures r.Done? && !m.PmInit? ==> SameSetup(h, r.value.handler)
    ensures !m.PmSaveOptionsPage? ==> r == Handle(mode, codec, h, m, env)
    ensures m.PmSaveOptionsPage? && r.Done? && h.app.Some? ==> r.value.handler.app.Some?
  {
    match m
    case PmSaveOptionsPage(userData) => OP.SaveOptionsPage(mode, h, userData, env)
    case _ => Handle(mode, codec, h, m, env)
  }

  // ---- Standalone drivers ----

  /** `init_start`: INIT and START, both with null data. */
  function InitStart(mode: Profile, codec: Codec, h: Handler, env: Env): Step<Handler>
    requires Valid(h)
  {
    match Handle(mode, codec, h, PmInit(0), env)
    case Failed(f) => Failed(f)
    case Done(inited, _) =>
      match Handle(mode, codec, inited.handler, PmStart(0), env)
      case Failed(f) => Failed(f)
      case Done(started, events) => Done(started.handler, events)
  }

  /**
   * `init_start_with_config`: INIT with null data, then START with the
   * address of a boxed `config`.
   */
  function InitStartWithConfig(mode: Profile, codec: Codec, h: Handler, config: Config, boxed: nat, env: Env): Step<Handler>
    requires Valid(h) && boxed != 0
  {
    match Handle(mode, codec, h, PmInit(0), env)
    case Failed(f) => Failed(f)
    case Done(inited, _) =>
      match Handle(mode, codec, inited.handler, PmStart(boxed), env.(boxed := config))
      case Failed(f) => Failed(f)
      case Done(started, events) => Done(started.handler, events)
  }

  /** `stop_kill`: STOP, then KILL. */
  function StopKill(mode: Profile, codec: Codec, h: Handler, env: Env): Step<Handler>
    requires Valid(h)
  {
    match Handle(mode, codec, h, PmStop, env)
    case Failed(f) => Failed(f)
    case Done(stopped, _) =>
      match Handle(mode, codec, stopped.handler, PmKill, env)
      case Failed(f) => Failed(f)
      case Done(killed, events) => Done(killed.handler, events)
  }

  /** `host()` as a public accessor. */
  function HostRef(mode: Profile, h: Handler): (r: Result<Host, Failure>)
    ensures r.Ok? <==> GetHost(h).Some?
    ensures r.Ok? ==> r.value == GetHost(h).value
  {
    HostOf(mode, h.host)
  }

  // ---- Properties ----

  /** The identity field a getter message returns. */
  function Field(id: Identity, m: PluginMessage): Option<string>
    requires m.PmGetName? || m.PmGetDescription? || m.PmGetAuthor? || m.PmGetVersion? || m.PmGetLink?
  {
    match m
    case PmGetName => id.name
    case PmGetDescription => id.description
    case PmGetAuthor => id.author
    case PmGetVersion => id.version
    case PmGetLink => id.link
  }

  /** Unknown codes, GET_OPTIONS_PAGE_MINMAX and SIZE_OPTIONS_PAGE return 0 and change nothing. */
  lemma UnhandledChangesNothing(mode: Profile, codec: Codec, h: Handler, m: PluginMessage, env: Env)
    requires Valid(h) && (m.PmOther? || m.PmGetOptionsPageMinmax? || m.PmSizeOptionsPage?)
    ensures Handle(mode, codec, h, m, env) == Done(Reply(NULL, h), [])
  {
  }

  /** Each getter returns the string the builder was given, or null, and changes nothing. */
  lemma GettersReturnIdentity(mode: Profile, codec: Codec, h: Handler, m: PluginMessage, env: Env)
    requires Valid(h) && (m.PmGetName? || m.PmGetDescription? || m.PmGetAuthor? || m.PmGetVersion? || m.PmGetLink?)
    ensures var r := Handle(mode, codec, h, m, env);
            r.Done? && r.value.handler == h && r.events == []
            && (r.value.ret == NULL <==> Field(h.identity, m).None?)
            && (forall s :: r.value.ret == Text(s) <==> Field(h.identity, m) == Some(s))
  {
  }

  /** STOP and UNINSTALL return 1 and change nothing. */
  lemma StopAndUninstallChangeNothing(mode: Profile, codec: Codec, h: Handler, env: Env)
    requires Valid(h)
    ensures Handle(mode, codec, h, PmStop, env) == Done(Reply(Code(1), h), [])
    ensures Handle(mode, codec, h, PmUninstall, env) == Done(Reply(Code(1), h), [])
  {
  }

  /**
   * INIT returns 1 and sets the host from a non-null data only while the
   * cell is empty: a second INIT never replaces the host.
   */
  lemma HostIsSetOnce(mode: Profile, codec: Codec, h: Handler, d1: nat, e1: Env, d2: nat, e2: Env)
    requires Valid(h) && h.host.None? && d1 != 0
    ensures var first := Handle(mode, codec, h, PmInit(d1), e1);
            (first.Done? <==> InstanceNameFromMainThread(e1.windows).Ok?)
            && (first.Done? ==>
                  first.value.ret == Code(1)
                  && first.value.handler.host == Some(Host(d1, e1.exports))
                  && var second := Handle(mode, codec, first.value.handler, PmInit(d2), e2);
                     (second.Done? <==> InstanceNameFromMainThread(e2.windows).Ok?)
                     && (second.Done? ==> second.value.handler.host == Some(Host(d1, e1.exports))))
  {
    var first := Handle(mode, codec, h, PmInit(d1), e1);
    if first.Done? {
      assert Valid(first.value.handler);
    }
  }

  /** INIT with null data leaves the host cell as it was. */
  lemma NullInitKeepsHost(mode: Profile, codec: Codec, h: Handler, env: Env)
    requires Valid(h)
    ensures var r := Handle(mode, codec, h, PmInit(0), env);
            (r.Done? <==> InstanceNameFromMainThread(env.windows).Ok?)
            && (r.Done? ==> r.value.handler.host == h.host && r.value.handler.app == h.app
                            && r.value.handler.instanceName == InstanceNameFromMainThread(env.windows).value)
  {
  }

  /**
   * INIT in a process whose first IPC window is the host registered by the
   * C++ client for an instance name: the name is recorded when it is valid
   * UTF-16 (and `None` for the unnamed instance); otherwise INIT panics.
   */
  lemma InitRecordsHostInstance(mode: Profile, codec: Codec, h: Handler, data: nat, env: Env,
                                before: seq<IW.ThreadWindow>, hwnd: nat, instanceName: seq<u16>,
                                after: seq<IW.ThreadWindow>)
    requires Valid(h)
    requires env.windows == before + [IW.ThreadWindow(hwnd, IC.IpcClass(instanceName))] + after
    requires forall j :: 0 <= j < |before| ==> !IW.Accepts(before[j])
    requires |IC.IpcClass(instanceName)| < IW.CLASS_NAME_BUFFER
    ensures var r := Handle(mode, codec, h, PmInit(data), env);
            (r.Done? <==> U.Decode(instanceName).Some?)
            && (r.Done? ==> r.value.handler.instanceName
                            == (if instanceName == [] then None else Some(U.Decode(instanceName).value)))
            && (r.Failed? ==> r.failure == Panic(IW.UNWRAP_PANIC))
  {
    IC.LocatorFindsNamedHost(before, hwnd, instanceName, after);
  }

  /**
   * START on an empty slot builds exactly one app, from what
   * `load_settings` gave, runs its `start` hook once and returns 1.
   */
  lemma StartBuildsOneApp(mode: Profile, codec: Codec, h: Handler, data: nat, env: Env)
    requires Valid(h) && h.app.None? && S.LoadSettings(h, codec, data, env).Done?
    ensures var r := Handle(mode, codec, h, PmStart(data), env);
            var loaded := S.LoadSettings(h, codec, data, env).value;
            r.Done? && r.value.ret == Code(1) && r.value.handler.app == Some(NewApp(loaded))
            && |r.events| > 0 && r.events[|r.events| - 1] == AppStart(NewApp(loaded).config)
            && forall i :: 0 <= i < |r.events| - 1 ==> !r.events[i].AppStart?
  {
    var loading := S.LoadSettings(h, codec, data, env).events;
    assert forall i :: 0 <= i < |loading| ==> loading[i].GetSettingString?;
  }

  /**
   * START without a host and without an app: the app runs with the boxed
   * config a non-null data points at, and with `Config::default()` for
   * null data; nothing is read from the host.
   */
  lemma StartWithoutHost(mode: Profile, codec: Codec, h: Handler, data: nat, env: Env)
    requires Valid(h) && h.host.None? && h.app.None?
    ensures var c := if data != 0 then env.boxed else DEFAULT_CONFIG;
            Handle(mode, codec, h, PmStart(data), env) == Done(Reply(Code(1), h.(app := Some(App(c)))), [AppStart(c)])
  {
    assert S.LoadSettings(h, codec, data, env) == Done(if data != 0 then Some(env.boxed) else None, []);
  }

  /** In Debug, START with an app already live panics. */
  lemma StartTwicePanics(codec: Codec, h: Handler, data: nat, env: Env)
    requires Valid(h) && h.app.Some?
    ensures Handle(Debug, codec, h, PmStart(data), env).Failed?
  {
  }

  /** KILL empties the app slot; with no app it panics. */
  lemma KillConsumesApp(mode: Profile, codec: Codec, h: Handler, env: Env)
    requires Valid(h)
    ensures var r := Handle(mode, codec, h, PmKill, env);
            (r.Done? <==> h.app.Some?)
            && (r.Done? ==> r.value == Reply(Code(1), h.(app := None)))
            && (r.Failed? ==> r.failure == Panic("App not inited"))
  {
  }

  /** `init_start_with_config(c)` on a handler without host or app: the app runs with `c`. */
  lemma StartWithConfigRunsIt(mode: Profile, codec: Codec, h: Handler, c: Config, boxed: nat, env: Env)
    requires Valid(h) && h.host.None? && h.app.None? && boxed != 0
    ensures var started := InitStartWithConfig(mode, codec, h, c, boxed, env);
            (started.Done? <==> InstanceNameFromMainThread(env.windows).Ok?)
            && (started.Done? ==>
                  started.value.app == Some(App(c)) && started.events == [AppStart(c)]
                  && started.value.host.None? && Valid(started.value))
  {
    NullInitKeepsHost(mode, codec, h, env);
    var init := Handle(mode, codec, h, PmInit(0), env);
    if init.Done? {
      StartWithoutHost(mode, codec, init.value.handler, boxed, env.(boxed := c));
    }
  }

  /** `stop_kill` on a live app: STOP does nothing and KILL takes the app out. */
  lemma StopKillTakesApp(mode: Profile, codec: Codec, h: Handler, env: Env)
    requires Valid(h) && h.app.Some?
    ensures StopKill(mode, codec, h, env) == Done(h.(app := None), [])
  {
    assert Handle(mode, codec, h, PmStop, env) == Done(Reply(Code(1), h), []);
  }

  /**
   * `init_start_with_config(c)` on a handler without host or app, then
   * `stop_kill`: the app runs with `c`, and KILL takes out exactly `c`.
   */
  lemma ConfigSurvivesLifecycle(mode: Profile, codec: Codec, h: Handler, c: Config, boxed: nat, env: Env)
    requires Valid(h) && h.host.None? && h.app.None? && boxed != 0
    ensures var started := InitStartWithConfig(mode, codec, h, c, boxed, env);
            (started.Done? <==> InstanceNameFromMainThread(env.windows).Ok?)
            && (started.Done? ==>
                  started.value.app == Some(App(c)) && started.events == [AppStart(c)]
                  && AppIntoConfig(started.value) == Ok((c, started.value.(app := None)))
                  && StopKill(mode, codec, started.value, env) == Done(started.value.(app := None), []))
  {
    StartWithConfigRunsIt(mode, codec, h, c, boxed, env);
    var started := InitStartWithConfig(mode, codec, h, c, boxed, env);
    if started.Done? {
      StopKillTakesApp(mode, codec, started.value, env);
    }
  }

  /** `init_start` without a host: the app runs with `Config::default()`. */
  lemma InitStartUsesDefault(mode: Profile, codec: Codec, h: Handler, env: Env)
    requires Valid(h) && h.host.None? && h.app.None?
    ensures var started := InitStart(mode, codec, h, env);
            (started.Done? <==> InstanceNameFromMainThread(env.windows).Ok?)
            && (started.Done? ==>
                  started.value.app == Some(App(DEFAULT_CONFIG)) && started.events == [AppStart(DEFAULT_CONFIG)])
  {
    NullInitKeepsHost(mode, codec, h, env);
    var init := Handle(mode, codec, h, PmInit(0), env);
    if init.Done? {
      StartWithoutHost(mode, codec, init.value.handler, 0, env);
    }
  }

  /** With no pages, the four page messages that check for pages return 0 and do nothing. */
  lemma NoPagesNoEffect(mode: Profile, codec: Codec, h: Handler, m: PluginMessage, env: Env)
    requires Valid(h) && |h.pages| == 0
    requires m.PmAddOptionsPages? || m.PmSaveOptionsPage? || m.PmOptionsPageProc? || m.PmKillOptionsPage?
    ensures Handle(mode, codec, h, m, env) == Done(Reply(NULL, h), [])
  {
  }

  /**
   * The pending options message is carried out once: after one
   * OPTIONS_PAGE_PROC nothing is pending, and a second one for a message
   * other than `WM_SIZE` and `WM_CTLCOLORDLG` calls nothing.
   */
  lemma PendingMessageDrainedOnce(mode: Profile, codec: Codec, h: Handler, u1: nat, msg1: nat, w1: int, l1: i64,
                                  hwnd1: nat, u2: nat, msg2: nat, w2: int, l2: i64, hwnd2: nat, env: Env)
    requires Valid(h) && u1 < |h.pages| && u2 < |h.pages|
    requires Handle(mode, codec, h, PmOptionsPageProc(u1, msg1, w1, l1, hwnd1), env).Done?
    requires msg2 != OP.WM_SIZE && msg2 != OP.WM_CTLCOLORDLG
    ensures var first := Handle(mode, codec, h, PmOptionsPageProc(u1, msg1, w1, l1, hwnd1), env).value.handler;
            first.message == Noop
            && Handle(mode, codec, first, PmOptionsPageProc(u2, msg2, w2, l2, hwnd2), env) == Done(Reply(Code(1), first), [])
  {
    var first := Handle(mode, codec, h, PmOptionsPageProc(u1, msg1, w1, l1, hwnd1), env).value.handler;
    assert first == h.(message := Noop);
  }

  /**
   * Every SAVE_OPTIONS_PAGE with pages leaves `EnableApply(true)` pending,
   * so the next OPTIONS_PAGE_PROC enables the Apply button once.
   */
  lemma SaveThenProcEnablesApply(mode: Profile, codec: Codec, h: Handler, u: nat, env: Env,
                                 u2: nat, msg: nat, w: int, l: i64, hwnd: nat)
    requires Valid(h) && |h.pages| > 0 && Handle(mode, codec, h, PmSaveOptionsPage(u), env).Done?
    requires u2 < |h.pages| && msg != OP.WM_SIZE && msg != OP.WM_CTLCOLORDLG
    requires h.host.Some? && OP.ENABLE_DLG_ITEM in h.host.value.exports
    ensures var saved := Handle(mode, codec, h, PmSaveOptionsPage(u), env).value;
            saved.ret == Code(1)
            && var proc := Handle(mode, codec, saved.handler, PmOptionsPageProc(u2, msg, w, l, hwnd), env);
               proc.Done? && proc.events == [EnableDlgItem(hwnd, OP.APPLY_BUTTON, true)]
  {
    var saved := Handle(mode, codec, h, PmSaveOptionsPage(u), env).value;
    assert saved.handler.message == EnableApply(true);
    assert saved.handler.host == h.host && |saved.handler.pages| == |h.pages|;
  }

  /** `WM_CTLCOLORDLG` enables the Apply button, then any pending call follows. */
  lemma CtlColorDlgEnablesApply(mode: Profile, codec: Codec, h: Handler, u: nat, w: int, l: i64, hwnd: nat, env: Env)
    requires Valid(h) && u < |h.pages|
    requires h.host.Some? && OP.ENABLE_DLG_ITEM in h.host.value.exports
    ensures var r := Handle(mode, codec, h, PmOptionsPageProc(u, OP.WM_CTLCOLORDLG, w, l, hwnd), env);
            r.Done? && r.value.handler.message == Noop
            && r.events == [EnableDlgItem(hwnd, OP.APPLY_BUTTON, true)]
                           + (if h.message.EnableApply? then [EnableDlgItem(hwnd, OP.APPLY_BUTTON, h.message.enable)] else [])
  {
  }

  /** `WM_SIZE` forwards the packed size to a live page whose worker receives, and nothing otherwise. */
  lemma SizeReachesLivePage(mode: Profile, codec: Codec, h: Handler, u: nat, w: int, width: nat, height: nat, hwnd: nat, env: Env)
    requires Valid(h) && u < |h.pages| && h.message == Noop
    requires width < 0x1_0000 && height < 0x1_0000
    ensures var r := Handle(mode, codec, h, PmOptionsPageProc(u, OP.WM_SIZE, w, width + height * 0x1_0000, hwnd), env);
            r.Done? && r.events == (if h.handles[u].Some? && env.open then [PageReceives(u, Size(width, height))] else [])
  {
    OP.SizeUnpacks(width, height);
  }

  /** ADD_OPTIONS_PAGES registers the pages in order, page `i` under index `i`. */
  lemma PagesRegisteredInOrder(mode: Profile, codec: Codec, h: Handler, data: nat, env: Env)
    requires Valid(h) && |h.pages| > 0
    requires h.host.Some? && OP.ADD_PLUGIN_PAGE in h.host.value.exports
    requires forall j :: 0 <= j < |h.pages| ==> NulFree(h.pages[j])
    ensures var r := Handle(mode, codec, h, PmAddOptionsPages(data), env);
            r.Done? && r.value == Reply(Code(1), h) && |r.events| == |h.pages|
            && forall i :: 0 <= i < |h.pages| ==> r.events[i] == AddPluginPage(data, i, h.pages[i])
  {
  }

  /** LOAD_OPTIONS_PAGE changes only the slot it names. */
  lemma LoadTouchesOneSlot(mode: Profile, codec: Codec, h: Handler, u: nat, hwnd: nat, env: Env)
    requires Valid(h) && u < |h.pages|
    ensures var r := Handle(mode, codec, h, PmLoadOptionsPage(u, hwnd), env);
            r.Done? && r.value.ret == Code(1) && r.value.handler.handles[u] == Some(env.loaded)
            && (forall j :: 0 <= j < |h.pages| && j != u ==> r.value.handler.handles[j] == h.handles[j])
            && r.value.handler.app == h.app && r.value.handler.message == h.message
  {
  }

  /**
   * As the code has it, SAVE_OPTIONS_PAGE answered by a dropped reply
   * sender leaves no app, and the KILL that always follows panics.
   */
  lemma KillAfterDroppedReplyPanics(mode: Profile, codec: Codec, h: Handler, u: nat, env: Env)
    requires Valid(h) && u < |h.pages| && h.handles[u].Some? && h.app.Some?
    requires env.open && env.reply.None?
    ensures var saved := Handle(mode, codec, h, PmSaveOptionsPage(u), env);
            saved.Done? && Valid(saved.value.handler)
            && Handle(mode, codec, saved.value.handler, PmKill, env) == Failed(Panic("App not inited"))
  {
    OP.DroppedReplyLosesApp(mode, h, u, env);
  }

  /** With the corrected save, KILL after any SAVE_OPTIONS_PAGE succeeds and takes out the saved or edited config. */
  lemma KillAfterSaveSucceeds(mode: Profile, codec: Codec, h: Handler, u: nat, env: Env)
    requires Valid(h) && h.app.Some? && (u < |h.pages| || |h.pages| == 0)
    ensures var saved := HandleCorrected(mode, codec, h, PmSaveOptionsPage(u), env);
            saved.Done?
            && var killed := HandleCorrected(mode, codec, saved.value.handler, PmKill, env);
               killed.Done? && killed.value.handler.app.None?
               && saved.value.handler.app == Some(App(if |h.pages| > 0 && h.handles[u].Some?
                                                      then OP.Edited(h.app.value.config, env)
                                                      else h.app.value.config))
  {
    OP.SaveKeepsAppLive(mode, h, u, env);
  }

  /**
   * The corrected `handle` differs from the code's only on a
   * SAVE_OPTIONS_PAGE whose worker no longer receives or drops the reply.
   */
  lemma CorrectionOnlyOnUnansweredSave(mode: Profile, codec: Codec, h: Handler, m: PluginMessage, env: Env)
    requires Valid(h)
    requires !m.PmSaveOptionsPage? || (env.open && env.reply.Some?)
    ensures HandleCorrected(mode, codec, h, m, env) == Handle(mode, codec, h, m, env)
  {
    if m.PmSaveOptionsPage? {
      OP.SavesAgreeOnReply(mode, h, m.userData, env);
    }
  }
}

=== FILE: plugin_ipc.dfy ===
/**
 * The copy of the IPC window locator inside `everything-plugin`
 * (`src/ipc.rs`).  It carries its own prefix literal, callback and
 * instance-name parser; this module restates them and proves that they
 * agree with `IpcWindow` on every input.
 */
module PluginIpc {
  import opened Wrappers
  import opened Ints
  import U = Utf16
  import IW = IpcWindow

  /** The copy's own `u16str!` prefix: "EVERYTHING_TASKBAR_NOTIFICATION", one unit per character. */
  const IPC_CLASS_PREFIX: seq<u16> :=
    [0x45, 0x56, 0x45, 0x52, 0x59, 0x54, 0x48, 0x49, 0x4E, 0x47, 0x5F, 0x54, 0x41, 0x53, 0x4B, 0x42,
     0x41, 0x52, 0x5F, 0x4E, 0x4F, 0x54, 0x49, 0x46, 0x49, 0x43, 0x41, 0x54, 0x49, 0x4F, 0x4E]

  /** `enum_windows_proc` of the plugin copy, on the class name as read. */
  predicate Accepts(w: IW.ThreadWindow) {
    var name := IW.ReadClassName(w);
    |name| > 0 && IPC_CLASS_PREFIX <= name
  }

  /**
   * `IpcWindow::from_current_thread` of the plugin copy: the enumeration
   * loop runs the callback until it returns `FALSE`, or until the
   * class-name conversion panics.  `visited` is the number of windows the
   * callback saw.
   */
  method FromCurrentThread(ws: seq<IW.ThreadWindow>) returns (r: Result<Option<IW.IpcWindow>, string>, visited: nat)
    ensures visited == if IW.FirstIpcIndex(ws) < |ws| then IW.FirstIpcIndex(ws) + 1 else |ws|
    ensures r == IW.FromCurrentThread(ws)
  {
    r := Ok(None);
    visited := 0;
    var more := true;
    while more && visited < |ws|
      invariant visited <= |ws|
      invariant more ==> visited <= IW.FirstIpcIndex(ws) && r == Ok(None)
      invariant !more ==> 0 < visited && visited - 1 == IW.FirstIpcIndex(ws) && r == Found(ws[visited - 1])
      decreases |ws| - visited, more
    {
      var w := ws[visited];
      var name := IW.ReadClassName(w);
      SamePrefix(w);
      visited := visited + 1;
      if Accepts(w) {
        more := false;
        match U.Decode(name)
        case Some(className) =>
          r := Ok(Some(IW.IpcWindow(w.hwnd, className)));
        case None =>
          r := Err(IW.UNWRAP_PANIC);
        assert r == Found(w);
      }
    }
    LibraryResult(ws);
  }

  /** The result slot after the callback accepted `w`: that window, or the `unwrap` panic. */
  function Found(w: IW.ThreadWindow): Result<Option<IW.IpcWindow>, string> {
    match IW.Located(w)
    case Ok(found) => Ok(Some(found))
    case Err(e) => Err(e)
  }

  /** The library locator's result: the first accepted window as `Found` makes it, or `Ok(None)`. */
  lemma LibraryResult(ws: seq<IW.ThreadWindow>)
    ensures IW.FromCurrentThread(ws) == if IW.FirstIpcIndex(ws) < |ws| then Found(ws[IW.FirstIpcIndex(ws)]) else Ok(None)
  {
    var k := IW.FirstIpcIndex(ws);
    if k < |ws| {
      var e := IW.EnumThreadWindows(ws, None);
      assert e.Ok? <==> IW.Located(ws[k]).Ok?;
    }
  }

  /** `IpcWindow::instance_name` of the plugin copy. */
  function InstanceName(className: string): (r: Option<string>)
    ensures r.Some? ==> className == "EVERYTHING_TASKBAR_NOTIFICATION_(" + r.value + ")"
    ensures ("EVERYTHING_TASKBAR_NOTIFICATION_(" <= className
             && |className| > |"EVERYTHING_TASKBAR_NOTIFICATION_("|
             && className[|className| - 1] == ')') ==> r.Some?
  {
    var prefix := "EVERYTHING_TASKBAR_NOTIFICATION_(";
    if prefix <= className && |className| > |prefix| && className[|className| - 1] == ')' then
      Some(className[|prefix|..|className| - 1])
    else
      None
  }

  /** Both copies accept exactly the same windows. */
  lemma SamePrefix(w: IW.ThreadWindow)
    ensures Accepts(w) <==> IW.Accepts(w)
  {
    assert IPC_CLASS_PREFIX == IW.IPC_CLASS_PREFIX_UNITS;
  }

  /** Both copies parse the same instance name from every class name. */
  lemma InstanceNamesAgree(className: string)
    ensures InstanceName(className) == IW.InstanceName(className)
  {
    IW.InstanceNameNone(className);
    var r := InstanceName(className);
    if r.Some? {
      IW.InstanceNameIff(className, r.value);
    }
  }
}

=== FILE: plugin_types.dfy ===
/**
 * The state `PluginHandler` keeps between the messages Everything sends
 * to the plugin, and the vocabulary its steps share: the host calls and
 * page messages a step issues, and the ways a step can fail.
 *
 * The plugin's `PluginApp` is the one its documentation spells out: an
 * app that holds a `Config { s: String }` and whose `new` falls back to
 * `Config::default()`.  serde_json is a `Codec` given as a parameter.
 */
module PluginTypes {
  import opened Wrappers
  import opened Ints
  import IW = IpcWindow

  /** The documented example `Config`. */
  datatype Config = Config(s: string)

  /** `Config::default()`. */
  const DEFAULT_CONFIG: Config := Config("")

  /** The documented example `App`: it owns its config. */
  datatype App = App(config: Config)

  /** `App::new`: the given config, or the default one. */
  function NewApp(config: Option<Config>): (app: App)
    ensures config.Some? ==> app.config == config.value
    ensures config.None? ==> app.config == DEFAULT_CONFIG
  {
    App(config.UnwrapOr(DEFAULT_CONFIG))
  }

  /** `App::into_config`. */
  function IntoConfig(app: App): Config {
    app.config
  }

  /**
   * serde_json for `Config`: `to_string` (which cannot fail for this
   * struct) and `from_slice`, `None` standing for a parse error.
   */
  datatype Codec = Codec(serialize: Config -> string, parse: string -> Option<Config>)

  /** Parsing what was serialized gives the config back. */
  ghost predicate RoundTrips(codec: Codec) {
    forall c: Config :: codec.parse(codec.serialize(c)) == Some(c)
  }

  /** Whether `debug_assert!` is compiled in. */
  datatype Profile = Debug | Release

  /**
   * `PluginHost`, made from INIT's data: the procedures the host's
   * `get_proc_address` can find.
   */
  datatype Host = Host(getProcAddress: nat, exports: set<string>)

  /** The strings the builder was given; `CString::new(..).unwrap()` keeps NUL out of each. */
  datatype Identity = Identity(
    name: Option<string>,
    description: Option<string>,
    author: Option<string>,
    version: Option<string>,
    link: Option<string>)

  /** The message a page worker receives (`OptionsPageMessage`): the config to edit. */
  datatype PageMessage = Save(config: Config)

  /** `OptionsPageInternalMessage`. */
  datatype InternalMessage = Msg(msg: PageMessage) | Size(width: i32, height: i32) | Kill

  /** A live page: its worker thread and the sending half of its channel. */
  datatype PageHandle = PageHandle(worker: nat)

  /** `OptionsMessage`: what the next OPTIONS_PAGE_PROC is to do to the Apply button. */
  datatype OptionsMessage = Noop | EnableApply(enable: bool)

  /** What a step does outside the handler. */
  datatype Event =
    | AddPluginPage(data: nat, userData: nat, name: string)
    | EnableDlgItem(hwnd: nat, item: int, enable: bool)
    | GetSettingString(list: nat, key: string)
    | SetSettingString(stream: nat, key: string, value: string)
    | AppStart(config: Config)
    | PageReceives(page: nat, msg: InternalMessage)

  /**
   * How a step can end without returning: a Rust panic (which aborts the
   * host process across the `extern "system"` boundary) or undefined
   * behaviour (`unwrap_unchecked` on `None`).
   */
  datatype Failure = Panic(message: string) | Undefined(cause: string)

  /** A step's result and the events it issued, in order, or its failure. */
  datatype Step<T> = Done(value: T, events: seq<Event>) | Failed(failure: Failure)

  /** What `handle` returns: a number, `EVERYTHING_PLUGIN_VERSION`, or a pointer to a stored string. */
  datatype Ret = Code(n: nat) | PluginVersion | Text(s: string)

  /** The null pointer. */
  const NULL: Ret := Code(0)

  /**
   * `PluginHandler`: the host once-cell, the identity, the app slot, the
   * options pages (their names) and their handle slots, the pending
   * options message, and the instance name found at INIT.
   */
  datatype Handler = Handler(
    host: Option<Host>,
    identity: Identity,
    app: Option<App>,
    pages: seq<string>,
    handles: seq<Option<PageHandle>>,
    message: OptionsMessage,
    instanceName: Option<string>)

  /** What `handle` returns to Everything and the handler after the message. */
  datatype Reply = Reply(ret: Ret, handler: Handler)

  /** Every page has its one handle slot. */
  predicate Valid(h: Handler) {
    |h.handles| == |h.pages|
  }

  /** `h'` has the host, identity, pages and instance name of `h`. */
  predicate SameSetup(h: Handler, h': Handler) {
    h'.host == h.host && h'.identity == h.identity && h'.pages == h.pages
    && |h'.handles| == |h.handles| && h'.instanceName == h.instanceName
  }

  /**
   * What the world outside the handler answers during a step: the host's
   * exports at INIT, the main thread's windows at INIT, the host's value
   * of setting "_", the `Box<Config>` a non-null START data points at when
   * there is no host, the handle a page's `load` returns, whether a page
   * worker still receives, and the worker's answer to Save (the edited
   * config, or `None` when it drops the reply sender).
   */
  datatype Env = Env(
    exports: set<string>,
    windows: seq<IW.ThreadWindow>,
    setting: Option<string>,
    boxed: Config,
    loaded: PageHandle,
    open: bool,
    reply: Option<Config>)

  /**
   * `PluginHandler::builder()...build()`: no host, no app, one empty
   * handle slot per page, `Noop` pending.  An identity string with a NUL
   * makes `CString::new(..).unwrap()` panic.
   */
  function Build(identity: Identity, pages: seq<string>): (r: Result<Handler, Failure>)
    ensures r.Ok? <==> NulFreeIdentity(identity)
    ensures r.Ok? ==> Valid(r.value) && r.value.host.None? && r.value.app.None?
                      && r.value.pages == pages && r.value.identity == identity
                      && (forall i :: 0 <= i < |pages| ==> r.value.handles[i].None?)
                      && r.value.message == Noop && r.value.instanceName.None?
  {
    if !NulFreeIdentity(identity) then Err(Panic("nul byte found in provided data"))
    else Ok(Handler(None, identity, None, pages, seq(|pages|, _ => None), Noop, None))
  }

  predicate NulFree(s: string) {
    '\0' !in s
  }

  predicate NulFreeOption(s: Option<string>) {
    s.None? || NulFree(s.value)
  }

  predicate NulFreeIdentity(id: Identity) {
    NulFreeOption(id.name) && NulFreeOption(id.description) && NulFreeOption(id.author)
    && NulFreeOption(id.version) && NulFreeOption(id.link)
  }

  // ---- The host ----

  /** `host()`: checked by `debug_assert!` only; `unwrap_unchecked` otherwise. */
  function HostOf(mode: Profile, host: Option<Host>): (r: Result<Host, Failure>)
    ensures r.Ok? <==> host.Some?
    ensures r.Ok? ==> r.value == host.value
    ensures host.None? && mode == Debug ==> r == Err(Panic("Plugin host not inited"))
    ensures host.None? && mode == Release ==> r.Err? && r.error.Undefined?
  {
    match host
    case Some(ho) => Ok(ho)
    case None =>
      if mode == Debug then Err(Panic("Plugin host not inited"))
      else Err(Undefined("host() before INIT"))
  }

  /** A call through a procedure found by `get(..).unwrap_unchecked()`. */
  function CallExport(ho: Host, symbol: string, e: Event): (r: Step<()>)
    ensures r.Done? <==> symbol in ho.exports
    ensures r.Done? ==> r.events == [e]
    ensures !r.Done? ==> r.failure.Undefined?
  {
    if symbol in ho.exports then Done((), [e]) else Failed(Undefined("missing export " + symbol))
  }

  /** `host()` followed by a call through one of its exports. */
  function CallHost(mode: Profile, host: Option<Host>, symbol: string, e: Event): (r: Step<()>)
    ensures r.Done? <==> host.Some? && symbol in host.value.exports
    ensures r.Done? ==> r.events == [e]
  {
    match HostOf(mode, host)
    case Err(f) => Failed(f)
    case Ok(ho) => CallExport(ho, symbol, e)
  }

  // ---- The app slot ----

  /**
   * `app_new`: `debug_assert!` that the slot is empty, then a new app from
   * `config` whose `start` hook runs once.  Without the assertion an app
   * already there is dropped.
   */
  function AppNew(mode: Profile, h: Handler, config: Option<Config>): (r: Step<Handler>)
    ensures r.Failed? <==> mode == Debug && h.app.Some?
    ensures r.Done? ==> r.value == h.(app := Some(NewApp(config)))
                        && r.events == [AppStart(NewApp(config).config)]
  {
    if mode == Debug && h.app.Some? then Failed(Panic("App already inited"))
    else
      var app := NewApp(config);
      Done(h.(app := Some(app)), [AppStart(app.config)])
  }

  /** `app_into_config`: takes the app out of its slot; an empty slot is `unreachable!`. */
  function AppIntoConfig(h: Handler): (r: Result<(Config, Handler), Failure>)
    ensures r.Ok? <==> h.app.Some?
    ensures r.Ok? ==> r.value.0 == h.app.value.config && r.value.1 == h.(app := None)
  {
    match h.app
    case Some(app) => Ok((IntoConfig(app), h.(app := None)))
    case None => Err(Panic("App not inited"))
  }

  /** `app()`: the live app, or a panic. */
  function AppRef(h: Handler): (r: Result<App, Failure>)
    ensures r.Ok? <==> h.app.Some?
    ensures r.Ok? ==> r.value == h.app.value
    ensures r.Err? ==> r.error == Panic("App not inited")
  {
    match h.app
    case Some(app) => Ok(app)
    case None => Err(Panic("App not inited"))
  }

  /** `with_app(f)`: `f` applied to the live app. */
  function WithApp<T>(h: Handler, f: App -> T): (r: Result<T, Failure>)
    ensures r.Ok? <==> h.app.Some?
    ensures r.Ok? ==> r.value == f(h.app.value)
  {
    match AppRef(h)
    case Ok(app) => Ok(f(app))
    case Err(e) => Err(e)
  }

  /** `get_host`: `None` before INIT brought one. */
  function GetHost(h: Handler): Option<Host> {
    h.host
  }

  /**
   * `instance_name_from_main_thread`: the instance name of the first IPC
   * window among the main thread's windows, `None` when there is none or
   * it is unnamed, or the locator's `unwrap` panic.
   */
  function InstanceNameFromMainThread(windows: seq<IW.ThreadWindow>): (r: Result<Option<string>, Failure>)
    ensures (forall j :: 0 <= j < |windows| ==> !IW.Accepts(windows[j])) ==> r == Ok(None)
    ensures r.Err? <==> IW.FromCurrentThread(windows).Err?
    ensures r.Err? ==> r.error == Panic(IW.UNWRAP_PANIC)
    ensures IW.FromCurrentThread(windows).Ok? && IW.FromCurrentThread(windows).value.Some? ==>
              r == Ok(IW.InstanceName(IW.FromCurrentThread(windows).value.value.className))
  {
    match IW.FromCurrentThread(windows)
    case Err(e) => Err(Panic(e))
    case Ok(Some(w)) => Ok(IW.InstanceName(w.className))
    case Ok(None) => Ok(None)
  }
}

=== FILE: query_item.dfy ===
/**
 * One item of an Everything IPC query reply (`QueryItem`).
 *
 * An item is a cursor into the reply buffer plus the reply's request
 * flags.  Its fields follow one another in the fixed walk order of the
 * request flags, and only requested flags have a field.  Addresses are
 * byte offsets into the reply buffer; a read the C++ code would make past
 * the end of the buffer is the error `OutOfBounds`, and a dereference of
 * the null pointer `get` returns for an absent field is `NullPointer`.
 */
module QueryItem {
  import opened Wrappers
  import opened Ints
  import opened Request

  datatype ReadError = OutOfBounds(offset: nat) | NullPointer

  /** `QueryItem`: the reply's request flags and the offset of the item's data. */
  datatype QueryItem = QueryItem(request: u32, p: nat)

  /** One callback invocation of the walk: walk position, flag and cursor. */
  datatype Visit = Visit(index: nat, flag: u32, offset: nat)

  /**
   * Bytes the walker moves past a field of type `t` at cursor `p`.  A
   * string's length `n` is read from the buffer; `n + 1` is a `DWORD`
   * sum and wraps.
   */
  function Advance(t: DataType, buf: seq<byte>, p: nat): Result<nat, ReadError> {
    match t
    case Str => if p + 4 <= |buf| then Ok(4 + ToU32(ReadU32(buf, p) + 1) * 2) else Err(OutOfBounds(p))
    case Size => Ok(8)
    case Date => Ok(8)
    case Dword => Ok(4)
  }

  /**
   * A string of `n` units occupies `4 + 2(n+1)` bytes, except that a
   * length of 0xFFFFFFFF wraps `n + 1` to 0 and moves only past the
   * length; the fixed fields take 8, 8 and 4.
   */
  lemma AdvanceSizes(t: DataType, buf: seq<byte>, p: nat)
    ensures t.Size? || t.Date? ==> Advance(t, buf, p) == Ok(8)
    ensures t.Dword? ==> Advance(t, buf, p) == Ok(4)
    ensures t.Str? && p + 4 <= |buf| && ReadU32(buf, p) < 0xFFFF_FFFF ==>
              Advance(t, buf, p) == Ok(4 + 2 * (ReadU32(buf, p) + 1))
    ensures t.Str? && p + 4 <= |buf| && ReadU32(buf, p) == 0xFFFF_FFFF ==> Advance(t, buf, p) == Ok(4)
    ensures t.Str? && p + 4 > |buf| ==> Advance(t, buf, p).Err?
  {
  }

  /** Every listed position names one of the 16 request flags. */
  ghost predicate ValidPositions(ps: seq<nat>) {
    forall j :: 0 <= j < |ps| ==> ps[j] < FIELD_COUNT
  }

  /** The walk positions from `i` on whose flag the request carries, in walk order. */
  function RequestedFrom(request: u32, i: nat): (ps: seq<nat>)
    requires i <= FIELD_COUNT
    ensures forall j :: 0 <= j < |ps| ==> i <= ps[j] < FIELD_COUNT
    decreases FIELD_COUNT - i
  {
    if i == FIELD_COUNT then []
    else if Requested(request, i) then [i] + RequestedFrom(request, i + 1)
    else RequestedFrom(request, i + 1)
  }

  /** The walk positions of all requested flags: the fields an item holds, in layout order. */
  function Positions(request: u32): seq<nat> {
    RequestedFrom(request, 0)
  }

  /** A position is listed exactly when it is at or after `i` and requested. */
  lemma {:induction false} RequestedFromExactly(request: u32, i: nat, k: nat)
    requires i <= FIELD_COUNT
    ensures k in RequestedFrom(request, i) <==> i <= k < FIELD_COUNT && Requested(request, k)
    decreases FIELD_COUNT - i
  {
    if i < FIELD_COUNT {
      RequestedFromExactly(request, i + 1, k);
    }
  }

  /** Strictly increasing positions. */
  ghost predicate Ascending(ps: seq<nat>) {
    forall j, l :: 0 <= j < l < |ps| ==> ps[j] < ps[l]
  }

  lemma AscendingCons(i: nat, rest: seq<nat>)
    requires Ascending(rest) && forall j :: 0 <= j < |rest| ==> i < rest[j]
    ensures Ascending([i] + rest)
  {
    var ps := [i] + rest;
    forall j, l | 0 <= j < l < |ps|
      ensures ps[j] < ps[l]
    {
      assert ps[l] == rest[l - 1];
      if j > 0 {
        assert ps[j] == rest[j - 1];
      }
    }
  }

  /** The listed positions strictly increase. */
  lemma {:induction false} RequestedFromAscending(request: u32, i: nat)
    requires i <= FIELD_COUNT
    ensures Ascending(RequestedFrom(request, i))
    decreases FIELD_COUNT - i
  {
    if i < FIELD_COUNT {
      RequestedFromAscending(request, i + 1);
      var ps := RequestedFrom(request, i);
      var rest := RequestedFrom(request, i + 1);
      if Requested(request, i) {
        assert ps == [i] + rest;
        AscendingCons(i, rest);
      } else {
        assert ps == rest;
      }
    }
  }

  /** The number of requested positions in `[i, k)`. */
  function RankFrom(request: u32, i: nat, k: nat): nat
    requires i <= k <= FIELD_COUNT
    decreases k - i
  {
    if i == k then 0
    else (if Requested(request, i) then 1 else 0) + RankFrom(request, i + 1, k)
  }

  /** A requested position `k` stands at index `RankFrom(request, i, k)` of the list from `i`, after exactly the lower requested positions. */
  lemma {:induction false} RankIndexesPosition(request: u32, i: nat, k: nat)
    requires i <= k < FIELD_COUNT && Requested(request, k)
    ensures RankFrom(request, i, k) < |RequestedFrom(request, i)|
    ensures RequestedFrom(request, i)[RankFrom(request, i, k)] == k
    decreases k - i
  {
    if i < k {
      RankIndexesPosition(request, i + 1, k);
    }
  }

  /**
   * The body of `all_until` over the requested positions `ps`: the 16
   * `read` steps with the flags the request lacks already skipped.  The
   * callback `f` sees each flag with the cursor; the walk ends when it
   * returns false and otherwise moves the cursor past the field.
   * Returns the callback invocations.
   */
  function Walk(ps: seq<nat>, buf: seq<byte>, p: nat, f: (u32, nat) -> bool): Result<seq<Visit>, ReadError>
    requires ValidPositions(ps)
    decreases |ps|
  {
    if |ps| == 0 then Ok([])
    else if !f(FlagAt(ps[0]), p) then Ok([Visit(ps[0], FlagAt(ps[0]), p)])
    else
      match Advance(TypeAt(ps[0]), buf, p)
      case Err(e) => Err(e)
      case Ok(a) =>
        match Walk(ps[1..], buf, p + a, f)
        case Err(e) => Err(e)
        case Ok(rest) => Ok([Visit(ps[0], FlagAt(ps[0]), p)] + rest)
  }

  /** The walk calls back at a prefix of the positions, with each position's flag. */
  lemma {:induction false} WalkFollowsPositions(ps: seq<nat>, buf: seq<byte>, p: nat, f: (u32, nat) -> bool)
    requires ValidPositions(ps)
    requires Walk(ps, buf, p, f).Ok?
    ensures var vs := Walk(ps, buf, p, f).value;
            && |vs| <= |ps|
            && forall j :: 0 <= j < |vs| ==> vs[j].index == ps[j] && vs[j].flag == FlagAt(ps[j])
    decreases |ps|
  {
    if |ps| > 0 && f(FlagAt(ps[0]), p) {
      var a := Advance(TypeAt(ps[0]), buf, p).value;
      WalkFollowsPositions(ps[1..], buf, p + a, f);
      var rest := Walk(ps[1..], buf, p + a, f).value;
      var vs := Walk(ps, buf, p, f).value;
      assert vs == [Visit(ps[0], FlagAt(ps[0]), p)] + rest;
      forall j | 0 <= j < |vs|
        ensures vs[j].index == ps[j] && vs[j].flag == FlagAt(ps[j])
      {
        if j > 0 {
          assert vs[j] == rest[j - 1];
        }
      }
    }
  }

  /**
   * Every callback but the last returned true, and the walk ends before
   * the last position only because the callback returned false.
   */
  lemma {:induction false} WalkEndsWhenToldOrDone(ps: seq<nat>, buf: seq<byte>, p: nat, f: (u32, nat) -> bool)
    requires ValidPositions(ps)
    requires Walk(ps, buf, p, f).Ok?
    ensures var vs := Walk(ps, buf, p, f).value;
            && (forall j :: 0 <= j < |vs| - 1 ==> f(vs[j].flag, vs[j].offset))
            && (|vs| == |ps| || (|vs| > 0 && !f(vs[|vs| - 1].flag, vs[|vs| - 1].offset)))
    decreases |ps|
  {
    if |ps| > 0 && f(FlagAt(ps[0]), p) {
      var a := Advance(TypeAt(ps[0]), buf, p).value;
      WalkEndsWhenToldOrDone(ps[1..], buf, p + a, f);
      var rest := Walk(ps[1..], buf, p + a, f).value;
      var vs := Walk(ps, buf, p, f).value;
      assert vs == [Visit(ps[0], FlagAt(ps[0]), p)] + rest;
      forall j | 0 <= j < |vs| - 1
        ensures f(vs[j].flag, vs[j].offset)
      {
        if j > 0 {
          assert vs[j] == rest[j - 1];
        }
      }
      assert |vs| == |rest| + 1 && |ps[1..]| == |ps| - 1;
      if |rest| > 0 {
        assert vs[|vs| - 1] == rest[|rest| - 1];
      }
    }
  }

  /** The first cursor is `p`, and each next cursor is the previous one moved past its field. */
  ghost predicate CursorsAdvance(buf: seq<byte>, p: nat, vs: seq<Visit>)
    decreases |vs|
  {
    |vs| > 0 ==>
      && vs[0].offset == p
      && (|vs| > 1 ==> Follows(buf, vs[0], vs[1]) && CursorsAdvance(buf, vs[1].offset, vs[1..]))
  }

  /** Visit `w` stands where the cursor lands after moving past the field of visit `v`. */
  ghost predicate Follows(buf: seq<byte>, v: Visit, w: Visit) {
    && v.index < FIELD_COUNT
    && Advance(TypeAt(v.index), buf, v.offset).Ok?
    && w.offset == v.offset + Advance(TypeAt(v.index), buf, v.offset).value
  }

  /** The walk hands the callback a cursor that starts at `p` and moves past exactly the fields it visited. */
  lemma {:induction false} WalkCursorsAdvance(ps: seq<nat>, buf: seq<byte>, p: nat, f: (u32, nat) -> bool)
    requires ValidPositions(ps)
    requires Walk(ps, buf, p, f).Ok?
    ensures CursorsAdvance(buf, p, Walk(ps, buf, p, f).value)
    decreases |ps|
  {
    if |ps| > 0 && f(FlagAt(ps[0]), p) {
      var a := Advance(TypeAt(ps[0]), buf, p).value;
      WalkCursorsAdvance(ps[1..], buf, p + a, f);
      var rest := Walk(ps[1..], buf, p + a, f).value;
      var vs := Walk(ps, buf, p, f).value;
      assert vs == [Visit(ps[0], FlagAt(ps[0]), p)] + rest;
      assert vs[1..] == rest;
    }
  }

  /** `QueryItem::all_until`. */
  function AllUntil(item: QueryItem, buf: seq<byte>, f: (u32, nat) -> bool): Result<seq<Visit>, ReadError> {
    Walk(Positions(item.request), buf, item.p, f)
  }

  function Always(flag: u32, p: nat): bool {
    true
  }

  /** `QueryItem::all`: `all_until` with a callback that always continues. */
  function All(item: QueryItem, buf: seq<byte>): Result<seq<Visit>, ReadError> {
    AllUntil(item, buf, Always)
  }

  /** `all` calls back exactly at the requested flags, in walk order. */
  lemma AllVisitsExactlyTheRequestedFlags(item: QueryItem, buf: seq<byte>)
    requires All(item, buf).Ok?
    ensures var vs := All(item, buf).value;
            && |vs| == |Positions(item.request)|
            && forall j :: 0 <= j < |vs| ==> vs[j].index == Positions(item.request)[j] && vs[j].flag == FlagAt(vs[j].index)
  {
    var ps := Positions(item.request);
    WalkFollowsPositions(ps, buf, item.p, Always);
    WalkEndsWhenToldOrDone(ps, buf, item.p, Always);
  }

  /** A flag's field is visited by `all` exactly when the item's request carries it. */
  lemma AllVisitsEveryRequestedFlag(item: QueryItem, buf: seq<byte>, k: nat)
    requires All(item, buf).Ok?
    requires k < FIELD_COUNT
    ensures Requested(item.request, k) <==> exists j :: 0 <= j < |All(item, buf).value| && All(item, buf).value[j].index == k
  {
    var ps := Positions(item.request);
    AllVisitsExactlyTheRequestedFlags(item, buf);
    RequestedFromExactly(item.request, 0, k);
    var vs := All(item, buf).value;
    if k in ps {
      var j :| 0 <= j < |ps| && ps[j] == k;
      assert vs[j].index == k;
    }
  }

  /** Where the cursor stands after moving past the first `n` fields at positions `ps`. */
  function CursorAfter(ps: seq<nat>, buf: seq<byte>, p: nat, n: nat): Result<nat, ReadError>
    requires ValidPositions(ps) && n <= |ps|
    decreases n
  {
    if n == 0 then Ok(p)
    else
      match Advance(TypeAt(ps[0]), buf, p)
      case Err(e) => Err(e)
      case Ok(a) => CursorAfter(ps[1..], buf, p + a, n - 1)
  }

  /** The offset of the field of requested position `k`: the item's start plus the sizes of the lower requested fields. */
  function FieldCursor(item: QueryItem, buf: seq<byte>, k: nat): Result<nat, ReadError>
    requires k < FIELD_COUNT && Requested(item.request, k)
  {
    RankIndexesPosition(item.request, 0, k);
    CursorAfter(Positions(item.request), buf, item.p, RankFrom(item.request, 0, k))
  }

  /** The callback of `get`: continue until the sought flag comes up. */
  function Seeking(flag: u32): (u32, nat) -> bool {
    (flag': u32, p: nat) => flag' != flag
  }

  /** `QueryItem::get`: the cursor at the sought field, or null when it is not in the item. */
  function Get(item: QueryItem, buf: seq<byte>, flag: u32): Result<Option<nat>, ReadError> {
    match AllUntil(item, buf, Seeking(flag))
    case Err(e) => Err(e)
    case Ok(vs) =>
      if |vs| > 0 && vs[|vs| - 1].flag == flag then Ok(Some(vs[|vs| - 1].offset)) else Ok(None)
  }

  /** The last callback invocation of a successful walk. */
  function LastVisit(r: Result<seq<Visit>, ReadError>): Option<Visit> {
    if r.Ok? && |r.value| > 0 then Some(r.value[|r.value| - 1]) else None
  }

  /**
   * A walk whose callback continues at the first `n` positions and stops
   * at position `n` ends exactly where `CursorAfter` puts field `n`.
   */
  lemma {:induction false} WalkStopsAtCursor(ps: seq<nat>, buf: seq<byte>, p: nat, n: nat, f: (u32, nat) -> bool)
    requires ValidPositions(ps) && n < |ps|
    requires forall j, q :: 0 <= j < n ==> f(FlagAt(ps[j]), q)
    requires forall q :: !f(FlagAt(ps[n]), q)
    ensures CursorAfter(ps, buf, p, n).Err? ==> Walk(ps, buf, p, f) == Err(CursorAfter(ps, buf, p, n).error)
    ensures CursorAfter(ps, buf, p, n).Ok? ==>
              LastVisit(Walk(ps, buf, p, f)) == Some(Visit(ps[n], FlagAt(ps[n]), CursorAfter(ps, buf, p, n).value))
    decreases n
  {
    if n > 0 {
      assert f(FlagAt(ps[0]), p);
      match Advance(TypeAt(ps[0]), buf, p)
      case Err(e) =>
      case Ok(a) =>
        var ps' := ps[1..];
        forall j, q | 0 <= j < n - 1
          ensures f(FlagAt(ps'[j]), q)
        {
          assert ps'[j] == ps[j + 1];
        }
        WalkStopsAtCursor(ps', buf, p + a, n - 1, f);
        var rest := Walk(ps', buf, p + a, f);
        if rest.Ok? && |rest.value| > 0 {
          var vs := [Visit(ps[0], FlagAt(ps[0]), p)] + rest.value;
          assert Walk(ps, buf, p, f) == Ok(vs);
          assert vs[|vs| - 1] == rest.value[|rest.value| - 1];
        }
    }
  }

  /** `get` of a requested flag returns the offset of its field. */
  lemma GetRequestedIsCursor(item: QueryItem, buf: seq<byte>, k: nat)
    requires k < FIELD_COUNT && Requested(item.request, k)
    ensures match FieldCursor(item, buf, k)
            case Err(e) => Get(item, buf, FlagAt(k)) == Err(e)
            case Ok(c) => Get(item, buf, FlagAt(k)) == Ok(Some(c))
  {
    var ps := Positions(item.request);
    var seek := Seeking(FlagAt(k));
    RankIndexesPosition(item.request, 0, k);
    RequestedFromAscending(item.request, 0);
    var n := RankFrom(item.request, 0, k);
    forall j, q | 0 <= j < n
      ensures seek(FlagAt(ps[j]), q)
    {
      FlagsIncrease(ps[j], k);
    }
    WalkStopsAtCursor(ps, buf, item.p, n, seek);
  }

  /** `get` of the `n`-th requested flag returns where the cursor stands after the `n` fields before it. */
  lemma GetFindsCursor(request: u32, buf: seq<byte>, off: nat, n: nat, at: nat)
    requires n < |Positions(request)| && CursorAfter(Positions(request), buf, off, n) == Ok(at)
    ensures FieldAt(QueryItem(request, off), buf, FlagAt(Positions(request)[n])) == Ok(at)
  {
    var ps := Positions(request);
    var k := ps[n];
    RequestedFromExactly(request, 0, k);
    RequestedFromAscending(request, 0);
    RankIndexesPosition(request, 0, k);
    assert RankFrom(request, 0, k) == n;
    var item := QueryItem(request, off);
    assert FieldCursor(item, buf, k) == Ok(at);
    GetRequestedIsCursor(item, buf, k);
    assert Get(item, buf, FlagAt(k)) == Ok(Some(at));
  }

  /** `get` of a flag the item does not carry, or of a value that is no request flag, is null. */
  lemma GetAbsentIsNull(item: QueryItem, buf: seq<byte>, flag: u32)
    requires forall k :: 0 <= k < FIELD_COUNT && FlagAt(k) == flag ==> !Requested(item.request, k)
    requires Get(item, buf, flag).Ok?
    ensures Get(item, buf, flag) == Ok(None)
  {
    var ps := Positions(item.request);
    WalkFollowsPositions(ps, buf, item.p, Seeking(flag));
    var vs := AllUntil(item, buf, Seeking(flag)).value;
    if |vs| > 0 {
      var k := ps[|vs| - 1];
      RequestedFromExactly(item.request, 0, k);
      assert Requested(item.request, k);
    }
  }

  /** `get` for a flag not found, as a total result: a null pointer dereference. */
  function FieldAt(item: QueryItem, buf: seq<byte>, flag: u32): Result<nat, ReadError> {
    match Get(item, buf, flag)
    case Err(e) => Err(e)
    case Ok(None) => Err(NullPointer)
    case Ok(Some(off)) => Ok(off)
  }

  /** `n` UTF-16 units read from offset `off`. */
  function ReadU16s(buf: seq<byte>, off: nat, n: nat): (units: seq<u16>)
    requires off + 2 * n <= |buf|
    ensures |units| == n
    ensures forall k :: 0 <= k < n ==> units[k] == ReadU16(buf, off + 2 * k)
  {
    seq(n, k requires 0 <= k < n => ReadU16(buf, off + 2 * k))
  }

  /** `get_str`: the `n` units after the field's leading `DWORD` length `n`. */
  function GetStr(item: QueryItem, buf: seq<byte>, flag: u32): Result<seq<u16>, ReadError> {
    match FieldAt(item, buf, flag)
    case Err(e) => Err(e)
    case Ok(off) =>
      if off + 4 > |buf| then Err(OutOfBounds(off))
      else
        var n := ReadU32(buf, off);
        if off + 4 + 2 * n > |buf| then Err(OutOfBounds(off + 4))
        else Ok(ReadU16s(buf, off + 4, n))
  }

  /** The units `get_str` returns lie inside the field the walk skips, leaving room for the NUL. */
  lemma GetStrWithinField(item: QueryItem, buf: seq<byte>, flag: u32)
    requires GetStr(item, buf, flag).Ok?
    requires TypeOf(flag) == Ok(Str)
    ensures var off := FieldAt(item, buf, flag).value;
            off + 4 <= |buf| && |GetStr(item, buf, flag).value| == ReadU32(buf, off)
            && (ReadU32(buf, off) < 0xFFFF_FFFF ==>
                  off + 4 + 2 * |GetStr(item, buf, flag).value| + 2 == off + Advance(Str, buf, off).value)
  {
  }

  /** `get_cstr`: the address of the units, 4 bytes into the field. */
  function GetCStr(item: QueryItem, buf: seq<byte>, flag: u32): (r: Result<nat, ReadError>)
    ensures r.Ok? <==> FieldAt(item, buf, flag).Ok?
    ensures r.Ok? ==> r.value == FieldAt(item, buf, flag).value + 4
  {
    match FieldAt(item, buf, flag)
    case Err(e) => Err(e)
    case Ok(off) => Ok(off + 4)
  }

  /** `get_cstr_len`: the field's leading `DWORD`. */
  function GetCStrLen(item: QueryItem, buf: seq<byte>, flag: u32): Result<u32, ReadError> {
    match FieldAt(item, buf, flag)
    case Err(e) => Err(e)
    case Ok(off) => if off + 4 <= |buf| then Ok(ReadU32(buf, off)) else Err(OutOfBounds(off))
  }

  /** `get_cstr_len` is the length of the string `get_str` returns. */
  lemma CStrLenIsStrLength(item: QueryItem, buf: seq<byte>, flag: u32)
    requires GetStr(item, buf, flag).Ok?
    ensures GetCStrLen(item, buf, flag) == Ok(|GetStr(item, buf, flag).value|)
  {
  }

  /** `get_size`, whose flag defaults to `Request::Size`. */
  function GetSize(item: QueryItem, buf: seq<byte>, flag: u32 := SIZE): Result<u64, ReadError> {
    match FieldAt(item, buf, flag)
    case Err(e) => Err(e)
    case Ok(off) => if off + 8 <= |buf| then Ok(ReadU64(buf, off)) else Err(OutOfBounds(off))
  }

  /** `FILETIME`: two `DWORD`s, low part first. */
  datatype FileTime = FileTime(low: u32, high: u32)

  /** `get_date`. */
  function GetDate(item: QueryItem, buf: seq<byte>, flag: u32): Result<FileTime, ReadError> {
    match FieldAt(item, buf, flag)
    case Err(e) => Err(e)
    case Ok(off) =>
      if off + 8 <= |buf| then Ok(FileTime(ReadU32(buf, off), ReadU32(buf, off + 4))) else Err(OutOfBounds(off))
  }

  /** `get_dword`. */
  function GetDword(item: QueryItem, buf: seq<byte>, flag: u32): Result<u32, ReadError> {
    match FieldAt(item, buf, flag)
    case Err(e) => Err(e)
    case Ok(off) => if off + 4 <= |buf| then Ok(ReadU32(buf, off)) else Err(OutOfBounds(off))
  }
}

=== FILE: query_packet.dfy ===
/**
 * The query `query_send` hands to Everything: an `EVERYTHING_IPC_QUERY2`
 * record in a `WM_COPYDATA` block with `dwData` 18
 * (`EVERYTHING_IPC_COPYDATA_QUERY2W`).  The record is seven `DWORD`s and
 * the search string's UTF-16 units followed by a NUL unit; the block is
 * `sizeof(EVERYTHING_IPC_QUERY2) + 2 * len` bytes, computed as a `DWORD`.
 * The decoder is the reading Everything gives the record: the seven
 * `DWORD`s, then the units up to the first NUL.
 */
module QueryPacket {
  import opened Wrappers
  import opened Ints
  import opened Seqs
  import opened Dwords
  import opened Request
  import opened QueryItem
  import opened ItemLayout

  /** `sizeof(EVERYTHING_IPC_QUERY2)`: seven `DWORD`s and one `WCHAR`, padded to a multiple of 4. */
  const QUERY2_SIZE: nat := 32
  /** Where `search_string` starts. */
  const SEARCH_OFFSET: nat := 28
  /** `EVERYTHING_IPC_COPYDATA_QUERY2W`. */
  const COPYDATA_QUERY2W: nat := 18
  /** The legacy default of `max_results`. */
  const ALL_RESULTS: u32 := 0xFFFF_FFFF

  /** `EVERYTHING_IPC_QUERY2`, its string without the NUL. */
  datatype Query2 = Query2(
    replyHwnd: u32,
    replyCopydataMessage: u32,
    searchFlags: u32,
    offset: u32,
    maxResults: u32,
    requestFlags: u32,
    sortType: u32,
    search: seq<u16>)

  /** `COPYDATASTRUCT`. */
  datatype CopyData = CopyData(dwData: nat, cbData: u32, data: seq<byte>)

  /**
   * `LengthWraps`: `data_len` does not fit its `DWORD`, so the allocation
   * would be smaller than the record written into it.
   */
  datatype PacketError = LengthWraps

  datatype DecodeError = Truncated | Unterminated

  /**
   * The record `query_send` fills in.  `reply_hwnd` keeps the low 32 bits
   * of the window handle, and the id travels in `reply_copydata_message`.
   */
  function MakeQuery2(hwnd: nat, search: seq<u16>, searchFlags: u32, requestFlags: u32, sort: Sort,
                      id: u32, offset: u32, maxResults: u32): Query2
  {
    Query2(ToU32(hwnd), id, searchFlags, offset, maxResults, requestFlags, SortValue(sort), search)
  }

  function HeaderDwords(q: Query2): seq<u32> {
    [q.replyHwnd, q.replyCopydataMessage, q.searchFlags, q.offset, q.maxResults, q.requestFlags, q.sortType]
  }

  /**
   * The record's bytes: the `DWORD`s, the units, the NUL at index `len`,
   * and the two bytes of padding, which `query_send` leaves unwritten and
   * are 0 here.
   */
  function EncodeQuery2(q: Query2): (bs: seq<byte>)
    ensures |bs| == QUERY2_SIZE + 2 * |q.search|
  {
    DwordsBytes(HeaderDwords(q)) + UnitsBytes(q.search + [0]) + [0, 0]
  }

  /** `query_send`'s `COPYDATASTRUCT`. */
  function QuerySend(hwnd: nat, search: seq<u16>, searchFlags: u32, requestFlags: u32, sort: Sort,
                     id: u32, offset: u32, maxResults: u32): (r: Result<CopyData, PacketError>)
    ensures r.Ok? <==> QUERY2_SIZE + 2 * |search| < U32_LIMIT
    ensures r.Ok? ==> r.value.dwData == COPYDATA_QUERY2W
                      && r.value.cbData == |r.value.data| == QUERY2_SIZE + 2 * |search|
  {
    var dataLen := QUERY2_SIZE + 2 * |search|;
    if dataLen >= U32_LIMIT then Err(LengthWraps)
    else Ok(CopyData(COPYDATA_QUERY2W, dataLen,
                     EncodeQuery2(MakeQuery2(hwnd, search, searchFlags, requestFlags, sort, id, offset, maxResults))))
  }

  /** The legacy `query_send` with its defaults: `Name_Ascending`, id 0, offset 0, every result. */
  function QuerySendDefaults(hwnd: nat, search: seq<u16>, searchFlags: u32, requestFlags: u32): Result<CopyData, PacketError> {
    QuerySend(hwnd, search, searchFlags, requestFlags, NameAscending, 0, 0, ALL_RESULTS)
  }

  // ---- Reading the record ----

  /** The units from `off` up to the first NUL unit. */
  function SearchFrom(buf: seq<byte>, off: nat): Result<seq<u16>, DecodeError>
    decreases |buf| - off
  {
    if off + 2 > |buf| then Err(Unterminated)
    else
      var u := ReadU16(buf, off);
      if u == 0 then Ok([])
      else
        match SearchFrom(buf, off + 2)
        case Err(e) => Err(e)
        case Ok(rest) => Ok([u] + rest)
  }

  function DecodeQuery2(data: seq<byte>): Result<Query2, DecodeError> {
    if |data| < SEARCH_OFFSET then Err(Truncated)
    else
      match SearchFrom(data, SEARCH_OFFSET)
      case Err(e) => Err(e)
      case Ok(search) =>
        Ok(Query2(ReadU32(data, 0), ReadU32(data, 4), ReadU32(data, 8), ReadU32(data, 12),
                  ReadU32(data, 16), ReadU32(data, 20), ReadU32(data, 24), search))
  }

  /** No NUL among the first `j` units. */
  ghost predicate NulFree(units: seq<u16>, j: nat) {
    forall k :: 0 <= k < j && k < |units| ==> units[k] != 0
  }

  /** Reading units written at `off` stops at the first NUL among them. */
  lemma {:induction false} SearchStopsAtFirstNul(buf: seq<byte>, off: nat, units: seq<u16>, j: nat)
    requires UnitsAt(buf, off, units) && j < |units| && units[j] == 0 && NulFree(units, j)
    ensures SearchFrom(buf, off) == Ok(units[..j])
    decreases j
  {
    ReadU16At(buf, off, units[0]);
    if j > 0 {
      SearchStopsAtFirstNul(buf, off + 2, units[1..], j - 1);
      assert units[..j] == [units[0]] + units[1..][..j - 1];
    }
  }

  /** Where the record's parts sit in its bytes. */
  lemma Query2Layout(q: Query2)
    ensures DwordsAt(EncodeQuery2(q), 0, HeaderDwords(q))
    ensures UnitsAt(EncodeQuery2(q), SEARCH_OFFSET, q.search + [0])
  {
    var head := DwordsBytes(HeaderDwords(q));
    var units := UnitsBytes(q.search + [0]);
    var pad: seq<byte> := [0, 0];
    DwordsWritten([], HeaderDwords(q), units + pad);
    assert [] + head + (units + pad) == head + units + pad;
    UnitsWritten(head, q.search + [0], pad);
  }

  /** The seven `DWORD`s read back from where the record puts them. */
  lemma HeaderReadBack(q: Query2)
    ensures var bs := EncodeQuery2(q);
            && SEARCH_OFFSET <= |bs|
            && ReadU32(bs, 0) == q.replyHwnd && ReadU32(bs, 4) == q.replyCopydataMessage
            && ReadU32(bs, 8) == q.searchFlags && ReadU32(bs, 12) == q.offset
            && ReadU32(bs, 16) == q.maxResults && ReadU32(bs, 20) == q.requestFlags
            && ReadU32(bs, 24) == q.sortType
  {
    var bs := EncodeQuery2(q);
    var hd := HeaderDwords(q);
    Query2Layout(q);
    NthDword(bs, 0, hd, 0);
    NthDword(bs, 0, hd, 1);
    NthDword(bs, 0, hd, 2);
    NthDword(bs, 0, hd, 3);
    NthDword(bs, 0, hd, 4);
    NthDword(bs, 0, hd, 5);
    NthDword(bs, 0, hd, 6);
  }

  /** A search string without NUL units survives the trip: Everything reads the record `query_send` wrote. */
  lemma DecodeEncode(q: Query2)
    requires NulFree(q.search, |q.search|)
    ensures DecodeQuery2(EncodeQuery2(q)) == Ok(q)
  {
    var bs := EncodeQuery2(q);
    HeaderReadBack(q);
    Query2Layout(q);
    var units := q.search + [0];
    SearchStopsAtFirstNul(bs, SEARCH_OFFSET, units, |q.search|);
    assert units[..|q.search|] == q.search;
  }

  /** A NUL inside the search string ends the search Everything reads there. */
  lemma EmbeddedNulTruncates(q: Query2, j: nat)
    requires j < |q.search| && q.search[j] == 0 && NulFree(q.search, j)
    ensures DecodeQuery2(EncodeQuery2(q)) == Ok(q.(search := q.search[..j]))
  {
    var bs := EncodeQuery2(q);
    HeaderReadBack(q);
    Query2Layout(q);
    var units := q.search + [0];
    SearchStopsAtFirstNul(bs, SEARCH_OFFSET, units, j);
    assert units[..j] == q.search[..j];
  }

  /** The NUL sits at index `len` of the string, inside the block `cbData` bounds. */
  lemma TerminatorInsideBlock(q: Query2)
    ensures var n := |q.search|;
            SEARCH_OFFSET + 2 * n + 2 <= |EncodeQuery2(q)| && ReadU16(EncodeQuery2(q), SEARCH_OFFSET + 2 * n) == 0
  {
    var bs := EncodeQuery2(q);
    var units := q.search + [0];
    Query2Layout(q);
    UnitsReadBack(bs, SEARCH_OFFSET, units);
    assert ReadU16s(bs, SEARCH_OFFSET, |units|)[|q.search|] == units[|q.search|];
  }

  /**
   * The block `query_send` builds carries its arguments: Everything reads
   * back the low `DWORD` of the reply window, the id, the flags, offset,
   * limit and the sort order's value, and the search string.
   */
  lemma QuerySendCarriesArguments(hwnd: nat, search: seq<u16>, searchFlags: u32, requestFlags: u32, sort: Sort,
                                  id: u32, offset: u32, maxResults: u32)
    requires QUERY2_SIZE + 2 * |search| < U32_LIMIT && NulFree(search, |search|)
    ensures var r := QuerySend(hwnd, search, searchFlags, requestFlags, sort, id, offset, maxResults);
            r.Ok? && DecodeQuery2(r.value.data)
                     == Ok(Query2(ToU32(hwnd), id, searchFlags, offset, maxResults, requestFlags, SortValue(sort), search))
  {
    DecodeEncode(MakeQuery2(hwnd, search, searchFlags, requestFlags, sort, id, offset, maxResults));
  }

  /** The legacy defaults as Everything reads them: sort value 1, id 0, offset 0, limit `0xFFFFFFFF`. */
  lemma DefaultsOnTheWire(hwnd: nat, search: seq<u16>, searchFlags: u32, requestFlags: u32)
    requires QUERY2_SIZE + 2 * |search| < U32_LIMIT && NulFree(search, |search|)
    ensures var r := QuerySendDefaults(hwnd, search, searchFlags, requestFlags);
            r.Ok? && DecodeQuery2(r.value.data)
                     == Ok(Query2(ToU32(hwnd), 0, searchFlags, 0, 0xFFFF_FFFF, requestFlags, 1, search))
  {
    QuerySendCarriesArguments(hwnd, search, searchFlags, requestFlags, NameAscending, 0, 0, ALL_RESULTS);
  }
}

=== FILE: request.dfy ===
/**
 * Request flags, search flags and sort orders of the Everything IPC query
 * (`Request`, `Search`, `Sort`, `RequestData::type`).
 */
module Request {
  import opened Wrappers
  import opened Ints

  const FILE_NAME: u32 := 0x0000_0001
  const PATH: u32 := 0x0000_0002
  const FULL_PATH_AND_FILE_NAME: u32 := 0x0000_0004
  const EXTENSION: u32 := 0x0000_0008
  const SIZE: u32 := 0x0000_0010
  const DATE_CREATED: u32 := 0x0000_0020
  const DATE_MODIFIED: u32 := 0x0000_0040
  const DATE_ACCESSED: u32 := 0x0000_0080
  const ATTRIBUTES: u32 := 0x0000_0100
  const FILE_LIST_FILE_NAME: u32 := 0x0000_0200
  const RUN_COUNT: u32 := 0x0000_0400
  const DATE_RUN: u32 := 0x0000_0800
  const DATE_RECENTLY_CHANGED: u32 := 0x0000_1000
  const HIGHLIGHTED_FILE_NAME: u32 := 0x0000_2000
  const HIGHLIGHTED_PATH: u32 := 0x0000_4000
  const HIGHLIGHTED_FULL_PATH_AND_FILE_NAME: u32 := 0x0000_8000

  /** The number of request flags a reply item can carry. */
  const FIELD_COUNT: nat := 16

  /** The request flags in the order the reply lays their fields out. */
  const FLAGS: seq<u32> := [
    FILE_NAME, PATH, FULL_PATH_AND_FILE_NAME, EXTENSION, SIZE, DATE_CREATED, DATE_MODIFIED,
    DATE_ACCESSED, ATTRIBUTES, FILE_LIST_FILE_NAME, RUN_COUNT, DATE_RUN, DATE_RECENTLY_CHANGED,
    HIGHLIGHTED_FILE_NAME, HIGHLIGHTED_PATH, HIGHLIGHTED_FULL_PATH_AND_FILE_NAME]

  const MATCH_CASE: u32 := 0x0000_0001
  const MATCH_WHOLE_WORD: u32 := 0x0000_0002
  const MATCH_PATH: u32 := 0x0000_0004
  const REGEX: u32 := 0x0000_0008
  const MATCH_ACCENTS: u32 := 0x0000_0010

  /** 2 to the power `n`. */
  function Pow2(n: nat): (r: nat)
    ensures r >= 1
  {
    if n == 0 then 1 else 2 * Pow2(n - 1)
  }

  /** Powers of two grow strictly. */
  lemma {:induction false} Pow2Grows(i: nat, j: nat)
    requires i < j
    ensures Pow2(i) < Pow2(j)
    decreases j
  {
    if i < j - 1 {
      Pow2Grows(i, j - 1);
    }
  }

  /** 2 to the power 15 is the highest request flag, 0x8000. */
  lemma Pow2Of15()
    ensures Pow2(15) == 0x8000
  {
    assert Pow2(2) == 0x4;
    assert Pow2(4) == 0x10;
    assert Pow2(6) == 0x40;
    assert Pow2(8) == 0x100;
    assert Pow2(10) == 0x400;
    assert Pow2(12) == 0x1000;
    assert Pow2(14) == 0x4000;
  }

  /** The request flag at walk position `i`: bit `i`. */
  function FlagAt(i: nat): u32
    requires i < FIELD_COUNT
  {
    Pow2Of15();
    if i < 15 then Pow2Grows(i, 15); Pow2(i) else Pow2(i)
  }

  /** The flag table lists the 16 single bits 0x1 to 0x8000 in walk order. */
  lemma FlagsAreSingleBits()
    ensures |FLAGS| == FIELD_COUNT
    ensures forall i :: 0 <= i < FIELD_COUNT ==> FLAGS[i] == FlagAt(i)
  {
    assert Pow2(1) == 0x2;
    assert Pow2(2) == 0x4;
    assert Pow2(3) == 0x8;
    assert Pow2(4) == 0x10;
    assert Pow2(5) == 0x20;
    assert Pow2(6) == 0x40;
    assert Pow2(7) == 0x80;
    assert Pow2(8) == 0x100;
    assert Pow2(9) == 0x200;
    assert Pow2(10) == 0x400;
    assert Pow2(11) == 0x800;
    assert Pow2(12) == 0x1000;
    assert Pow2(13) == 0x2000;
    assert Pow2(14) == 0x4000;
    assert Pow2(15) == 0x8000;
  }

  /** Flags later in the walk are numerically larger, so no flag comes up twice. */
  lemma FlagsIncrease(i: nat, j: nat)
    requires i < j < FIELD_COUNT
    ensures FlagAt(i) < FlagAt(j)
  {
    Pow2Grows(i, j);
  }

  /** How a field is stored in a reply item. */
  datatype DataType =
    | Str    // DWORD length n, then n + 1 UTF-16 units including the NUL
    | Size   // uint64_t
    | Date   // FILETIME
    | Dword  // DWORD

  /** `std::invalid_argument("Invalid request flag")`. */
  datatype InvalidArgument = InvalidRequestFlag(flag: u32)

  /** `RequestData::type`: the storage type of each request flag. */
  function TypeOf(flag: u32): Result<DataType, InvalidArgument> {
    if flag == FILE_NAME then Ok(Str)
    else if flag == PATH then Ok(Str)
    else if flag == FULL_PATH_AND_FILE_NAME then Ok(Str)
    else if flag == EXTENSION then Ok(Str)
    else if flag == SIZE then Ok(Size)
    else if flag == DATE_CREATED then Ok(Date)
    else if flag == DATE_MODIFIED then Ok(Date)
    else if flag == DATE_ACCESSED then Ok(Date)
    else if flag == ATTRIBUTES then Ok(Dword)
    else if flag == FILE_LIST_FILE_NAME then Ok(Str)
    else if flag == RUN_COUNT then Ok(Dword)
    else if flag == DATE_RUN then Ok(Date)
    else if flag == DATE_RECENTLY_CHANGED then Ok(Date)
    else if flag == HIGHLIGHTED_FILE_NAME then Ok(Str)
    else if flag == HIGHLIGHTED_PATH then Ok(Str)
    else if flag == HIGHLIGHTED_FULL_PATH_AND_FILE_NAME then Ok(Str)
    else Err(InvalidRequestFlag(flag))
  }

  /** The field type at each walk position. */
  const TYPES: seq<DataType> := [
    Str, Str, Str, Str, Size, Date, Date, Date, Dword, Str, Dword, Date, Date, Str, Str, Str]

  /** The type of the field at walk position `i`. */
  function TypeAt(i: nat): DataType
    requires i < FIELD_COUNT
  {
    TYPES[i]
  }

  /** Exactly the 16 request flags have a type; any other value throws. */
  lemma TypeOfDefinedExactlyOnFlags(flag: u32)
    ensures TypeOf(flag).Ok? <==> flag in FLAGS
    ensures TypeOf(flag).Err? ==> TypeOf(flag).error == InvalidRequestFlag(flag)
  {
  }

  /** The positional table agrees with `type` on every flag. */
  lemma TypeAtIsTypeOf(i: nat)
    requires i < FIELD_COUNT
    ensures TypeOf(FlagAt(i)) == Ok(TypeAt(i))
  {
    FlagsAreSingleBits();
  }

  /** Bit `i` of `x`. */
  predicate Bit(x: nat, i: nat) {
    if i == 0 then x % 2 == 1 else Bit(x / 2, i - 1)
  }

  /** `request & FLAGS[i]` is non-zero: bit `i` of the request is set. */
  predicate Requested(request: u32, i: nat)
    requires i < FIELD_COUNT
  {
    Bit(request, i)
  }

  /** The number of requested flags at walk positions `i` to 15. */
  function CountRequested(request: u32, i: nat): (n: nat)
    requires i <= FIELD_COUNT
    ensures n <= FIELD_COUNT - i
    decreases FIELD_COUNT - i
  {
    if i == FIELD_COUNT then 0
    else (if Requested(request, i) then 1 else 0) + CountRequested(request, i + 1)
  }

  /** Sort orders (`enum class Sort : DWORD`); `Default` is an alias of `Name_Ascending`. */
  datatype Sort =
    | Default
    | NameAscending | NameDescending | PathAscending | PathDescending
    | SizeAscending | SizeDescending | ExtensionAscending | ExtensionDescending
    | TypeNameAscending | TypeNameDescending | DateCreatedAscending | DateCreatedDescending
    | DateModifiedAscending | DateModifiedDescending | AttributesAscending | AttributesDescending
    | FileListFilenameAscending | FileListFilenameDescending | RunCountAscending | RunCountDescending
    | DateRecentlyChangedAscending | DateRecentlyChangedDescending
    | DateAccessedAscending | DateAccessedDescending | DateRunAscending | DateRunDescending

  /** The `DWORD` each sort order is sent as. */
  function SortValue(s: Sort): (v: u32)
    ensures 1 <= v <= 26
  {
    match s
    case Default => 1
    case NameAscending => 1
    case NameDescending => 2
    case PathAscending => 3
    case PathDescending => 4
    case SizeAscending => 5
    case SizeDescending => 6
    case ExtensionAscending => 7
    case ExtensionDescending => 8
    case TypeNameAscending => 9
    case TypeNameDescending => 10
    case DateCreatedAscending => 11
    case DateCreatedDescending => 12
    case DateModifiedAscending => 13
    case DateModifiedDescending => 14
    case AttributesAscending => 15
    case AttributesDescending => 16
    case FileListFilenameAscending => 17
    case FileListFilenameDescending => 18
    case RunCountAscending => 19
    case RunCountDescending => 20
    case DateRecentlyChangedAscending => 21
    case DateRecentlyChangedDescending => 22
    case DateAccessedAscending => 23
    case DateAccessedDescending => 24
    case DateRunAscending => 25
    case DateRunDescending => 26
  }

  /** Two sort orders are sent alike only if they are equal or are `Default` and `Name_Ascending`. */
  lemma SortValuesDistinctExceptDefault(a: Sort, b: Sort)
    ensures SortValue(a) == SortValue(b) <==>
              a == b || (a.Default? && b.NameAscending?) || (a.NameAscending? && b.Default?)
  {
  }
}

=== FILE: results.dfy ===
/**
 * The results of one query (`QueryResults`): a private copy of the reply
 * bytes, the reply id the window procedure took from `dwData`, and the
 * header fields the constructor copies out of `EVERYTHING_IPC_LIST2`.
 * The reply starts with that header, five `DWORD`s, and an array of
 * `EVERYTHING_IPC_ITEM2` entries, two `DWORD`s each, follows it; each
 * entry's `data_offset` locates its item's fields in the same bytes.
 * The legacy class has no id and calls the available count `query_num`;
 * it is otherwise the same.
 */
module Results {
  import opened Wrappers
  import opened Ints
  import opened Dwords
  import opened Request
  import opened QueryItem
  import opened ItemLayout

  /** `sizeof(EVERYTHING_IPC_LIST2)`. */
  const LIST2_SIZE: nat := 20
  /** `sizeof(EVERYTHING_IPC_ITEM2)`. */
  const ITEM2_SIZE: nat := 8

  /** `EVERYTHING_IPC_LIST2`. */
  datatype List2 = List2(totItems: u32, numItems: u32, offset: u32, requestFlags: u32, sortType: u32)

  /** `EVERYTHING_IPC_ITEM2`. */
  datatype Item2 = Item2(flags: u32, dataOffset: u32)

  /**
   * `QueryResults`.  `buffer` is `None` for a default-constructed value,
   * whose pointer is null.
   */
  datatype QueryResults = QueryResults(
    buffer: Option<seq<byte>>,
    id: u32,
    foundNum: u32,
    availableNum: u32,
    requestFlags: u32,
    sort: u32)

  /** The default constructor: null pointer, every number 0. */
  const DEFAULT: QueryResults := QueryResults(None, 0, 0, 0, 0, 0)

  /** `empty()`: the pointer is null. */
  predicate Empty(r: QueryResults) {
    r.buffer.None?
  }

  /** `size()`, and the legacy `length()`: the number of items the reply carries. */
  function Size(r: QueryResults): nat {
    r.availableNum
  }

  /**
   * The constructor from a reply: `totitems`, `numitems`, `request_flags`
   * and `sort_type` are read from the header.  A reply shorter than the
   * header is read past its end.
   */
  function FromReply(id: u32, buf: seq<byte>): (r: Result<QueryResults, ReadError>)
    ensures r.Ok? <==> LIST2_SIZE <= |buf|
    ensures r.Ok? ==> !Empty(r.value) && r.value.buffer == Some(buf) && r.value.id == id
  {
    if |buf| < LIST2_SIZE then Err(OutOfBounds(0))
    else Ok(QueryResults(Some(buf), id, ReadU32(buf, 0), ReadU32(buf, 4), ReadU32(buf, 12), ReadU32(buf, 16)))
  }

  /**
   * `operator[]`: item `i` carries the reply's request flags and starts at
   * its entry's `data_offset`.  The index is not checked against `size()`;
   * an entry past the end of the bytes is read out of bounds, and a
   * default value dereferences its null pointer.
   */
  function At(r: QueryResults, i: nat): (item: Result<QueryItem, ReadError>)
    ensures item.Ok? ==> item.value.request == r.requestFlags
    ensures Empty(r) ==> item == Err(NullPointer)
  {
    match r.buffer
    case None => Err(NullPointer)
    case Some(buf) =>
      var entry := LIST2_SIZE + ITEM2_SIZE * i;
      if entry + ITEM2_SIZE > |buf| then Err(OutOfBounds(entry + 4))
      else Ok(QueryItem(r.requestFlags, ReadU32(buf, entry + 4)))
  }

  // ---- The bytes Everything sends ----

  function HeaderDwords(h: List2): seq<u32> {
    [h.totItems, h.numItems, h.offset, h.requestFlags, h.sortType]
  }

  /** The entries' `DWORD`s, `flags` then `data_offset` for each. */
  function EntriesDwords(es: seq<Item2>): (ds: seq<u32>)
    ensures |ds| == 2 * |es|
  {
    if |es| == 0 then [] else [es[0].flags, es[0].dataOffset] + EntriesDwords(es[1..])
  }

  /** A reply: the header, the entries right after it, then the item data. */
  function EncodeReply(h: List2, es: seq<Item2>, data: seq<byte>): (bs: seq<byte>)
    ensures |bs| == LIST2_SIZE + ITEM2_SIZE * |es| + |data|
  {
    DwordsBytes(HeaderDwords(h) + EntriesDwords(es)) + data
  }

  /** Entry `i` occupies `DWORD`s `2i` and `2i + 1` of the entry array. */
  lemma {:induction false} EntryDwords(es: seq<Item2>, i: nat)
    requires i < |es|
    ensures EntriesDwords(es)[2 * i] == es[i].flags && EntriesDwords(es)[2 * i + 1] == es[i].dataOffset
    decreases i
  {
    var ds := EntriesDwords(es);
    var rest := EntriesDwords(es[1..]);
    assert ds == [es[0].flags, es[0].dataOffset] + rest;
    if i > 0 {
      EntryDwords(es[1..], i - 1);
      assert es[1..][i - 1] == es[i];
      assert ds[2 * i] == rest[2 * i - 2] && ds[2 * i + 1] == rest[2 * i - 1];
    }
  }

  /** The constructor reads back the header Everything wrote. */
  lemma FromReplyReadsHeader(id: u32, h: List2, es: seq<Item2>, data: seq<byte>)
    ensures var buf := EncodeReply(h, es, data);
            FromReply(id, buf) == Ok(QueryResults(Some(buf), id, h.totItems, h.numItems, h.requestFlags, h.sortType))
  {
    var ds := HeaderDwords(h) + EntriesDwords(es);
    assert ds[0] == h.totItems && ds[1] == h.numItems && ds[3] == h.requestFlags && ds[4] == h.sortType;
    LeadingDword(ds, data, 0);
    LeadingDword(ds, data, 1);
    LeadingDword(ds, data, 3);
    LeadingDword(ds, data, 4);
  }

  /** Item `i` of the results is where entry `i` of the reply points. */
  lemma AtReadsEntry(id: u32, h: List2, es: seq<Item2>, data: seq<byte>, i: nat)
    requires i < |es|
    ensures var r := FromReply(id, EncodeReply(h, es, data));
            r.Ok? && At(r.value, i) == Ok(QueryItem(h.requestFlags, es[i].dataOffset))
  {
    FromReplyReadsHeader(id, h, es, data);
    var ds := HeaderDwords(h) + EntriesDwords(es);
    EntryDwords(es, i);
    assert ds[5 + 2 * i + 1] == es[i].dataOffset;
    LeadingDword(ds, data, 5 + 2 * i + 1);
    assert 4 * (5 + 2 * i + 1) == LIST2_SIZE + ITEM2_SIZE * i + 4;
  }

  /**
   * When the header counts the entries that follow it, every index below
   * `size()` names an item.
   */
  lemma EveryCountedItemExists(id: u32, h: List2, es: seq<Item2>, data: seq<byte>)
    requires h.numItems == |es|
    ensures var r := FromReply(id, EncodeReply(h, es, data));
            r.Ok? && Size(r.value) == |es| && forall i :: 0 <= i < |es| ==> At(r.value, i) == Ok(QueryItem(h.requestFlags, es[i].dataOffset))
  {
    FromReplyReadsHeader(id, h, es, data);
    forall i | 0 <= i < |es|
      ensures At(FromReply(id, EncodeReply(h, es, data)).value, i) == Ok(QueryItem(h.requestFlags, es[i].dataOffset))
    {
      AtReadsEntry(id, h, es, data, i);
    }
  }

  /**
   * End to end: when entry `i` points at fields written for the reply's
   * request flags, the getters of item `i` read those fields back.
   */
  lemma ResultFieldReadsBack(id: u32, h: List2, es: seq<Item2>, data: seq<byte>, i: nat, vals: seq<FieldValue>, n: nat)
    requires i < |es| && n < |vals|
    requires Matches(Positions(h.requestFlags), vals)
    requires FieldsAt(EncodeReply(h, es, data), es[i].dataOffset, vals)
    ensures var buf := EncodeReply(h, es, data);
            var r := FromReply(id, buf);
            r.Ok? && At(r.value, i).Ok?
            && ReadsBack(At(r.value, i).value, buf, FlagAt(Positions(h.requestFlags)[n]), vals[n])
  {
    AtReadsEntry(id, h, es, data, i);
    GettersReadWrittenFields(h.requestFlags, EncodeReply(h, es, data), es[i].dataOffset, vals, n);
  }
}

=== FILE: seqs.dfy ===
/** Facts about concatenations and slices, stated once for every element type. */
module Seqs {

  lemma Assoc<T>(a: seq<T>, b: seq<T>, c: seq<T>)
    ensures a + (b + c) == a + b + c
  {
  }

  /** A run split in two, seen from the front and from the back. */
  lemma Regroup2<T>(pre: seq<T>, a: seq<T>, b: seq<T>, post: seq<T>)
    ensures pre + (a + b) + post == (pre + a) + (b + post)
    ensures pre + (a + b) + post == (pre + a) + b + post
  {
  }

  /** A run split in three, seen around each of its pieces. */
  lemma Regroup3<T>(pre: seq<T>, a: seq<T>, b: seq<T>, c: seq<T>, post: seq<T>)
    ensures pre + (a + b + c) + post == pre + a + (b + c + post)
    ensures pre + (a + b + c) + post == (pre + a) + b + (c + post)
    ensures pre + (a + b + c) + post == (pre + a + b) + c + post
  {
    calc {
      pre + (a + b + c) + post;
      pre + (a + (b + (c + post)));
      (pre + a) + (b + (c + post));
      (pre + a) + b + (c + post);
    }
  }

  /** `a`, of length `n`, sits right after `pre` in `pre + a + post`. */
  lemma InMiddle<T>(pre: seq<T>, a: seq<T>, post: seq<T>, n: nat)
    requires n == |a|
    ensures |pre| + n <= |pre + a + post| && (pre + a + post)[|pre|..|pre| + n] == a
  {
  }
}

=== FILE: settings.dfy ===
/**
 * Loading and saving the app's config through the host's settings:
 * `load_settings` at START and `save_settings` at SAVE_SETTINGS, both
 * under the one key "_".
 */
module Settings {
  import opened Wrappers
  import opened PluginTypes

  /** The key the whole config is stored under. */
  const SETTINGS_KEY: string := "_"

  const GET_SETTING_STRING: string := "plugin_get_setting_string"
  const SET_SETTING_STRING: string := "plugin_set_setting_string"

  /**
   * `load_settings`.  With a host, the setting "_" is read from the list
   * START hands over; a null answer and a parse error both give `None`.
   * Without a host, a non-null data is a `Box<Config>` handed over by
   * `init_start_with_config` and is taken as it is.
   */
  function LoadSettings(h: Handler, codec: Codec, data: nat, env: Env): (r: Step<Option<Config>>)
    ensures h.host.None? ==> r.Done? && r.events == []
    ensures h.host.Some? ==> (r.Done? <==> GET_SETTING_STRING in h.host.value.exports)
    ensures h.host.Some? && r.Done? ==> r.events == [GetSettingString(data, SETTINGS_KEY)]
    ensures r.Done? && r.value.Some? ==>
              if h.host.Some? then env.setting.Some? && codec.parse(env.setting.value) == r.value
              else data != 0 && r.value.value == env.boxed
    ensures h.host.Some? && r.Done? && env.setting.Some? ==> r.value == codec.parse(env.setting.value)
    ensures r.Done? && r.value.None? ==>
              if h.host.Some? then env.setting.None? || codec.parse(env.setting.value).None? else data == 0
  {
    match h.host
    case Some(ho) =>
      (match CallExport(ho, GET_SETTING_STRING, GetSettingString(data, SETTINGS_KEY))
       case Failed(f) => Failed(f)
       case Done(_, events) =>
         match env.setting
         case None => Done(None, events)
         case Some(s) => Done(codec.parse(s), events))
    case None =>
      if data != 0 then Done(Some(env.boxed), []) else Done(None, [])
  }

  /**
   * `plugin_set_setting_string` after `host()`: the value must be one line
   * (checked by `debug_assert!` only), and a NUL in it makes
   * `CString::new(..).unwrap()` panic.
   */
  function PluginSetSettingString(mode: Profile, host: Option<Host>, stream: nat, key: string, value: string): (r: Step<()>)
    requires NulFree(key)
    ensures r.Done? <==> host.Some? && SET_SETTING_STRING in host.value.exports && NulFree(value)
                         && (mode == Debug ==> '\n' !in value)
    ensures r.Done? ==> r.events == [SetSettingString(stream, key, value)]
    ensures host.Some? && mode == Debug && '\n' in value ==> r == Failed(Panic("setting string value must be single-line"))
  {
    match HostOf(mode, host)
    case Err(f) => Failed(f)
    case Ok(ho) =>
      if mode == Debug && '\n' in value then Failed(Panic("setting string value must be single-line"))
      else if SET_SETTING_STRING !in ho.exports then Failed(Undefined("missing export " + SET_SETTING_STRING))
      else if !NulFree(value) then Failed(Panic("nul byte found in provided data"))
      else Done((), [SetSettingString(stream, key, value)])
  }

  /** `save_settings`: the live app's config, serialized, written once under "_"; the handler is left as it was. */
  function SaveSettings(mode: Profile, codec: Codec, h: Handler, stream: nat): (r: Step<Ret>)
    ensures h.app.None? ==> r == Failed(Panic("App not inited"))
    ensures r.Done? <==> h.app.Some? && PluginSetSettingString(mode, h.host, stream, SETTINGS_KEY, codec.serialize(h.app.value.config)).Done?
    ensures r.Done? ==> r.value == Code(1)
                        && r.events == [SetSettingString(stream, SETTINGS_KEY, codec.serialize(h.app.value.config))]
  {
    match AppRef(h)
    case Err(f) => Failed(f)
    case Ok(app) =>
      match PluginSetSettingString(mode, h.host, stream, SETTINGS_KEY, codec.serialize(app.config))
      case Failed(f) => Failed(f)
      case Done(_, events) => Done(Code(1), events)
  }

  /**
   * What the host reads back of a written value: the settings file keeps
   * `key=value` lines, so only the characters before the first newline.
   */
  function FirstLine(value: string): (line: string)
    ensures line <= value
    ensures '\n' !in line
    ensures '\n' !in value ==> line == value
    ensures |line| < |value| ==> value[|line|] == '\n'
  {
    if |value| == 0 || value[0] == '\n' then [] else [value[0]] + FirstLine(value[1..])
  }

  /** What the host reads back under `key` after the events: the first line of the value last written there, if any. */
  function SettingIn(events: seq<Event>, key: string): Option<string>
    decreases |events|
  {
    if |events| == 0 then None
    else
      var last := events[|events| - 1];
      if last.SetSettingString? && last.key == key then Some(FirstLine(last.value))
      else SettingIn(events[..|events| - 1], key)
  }

  /**
   * serde_json's compact `to_string` escapes control characters inside
   * strings, so what it writes has neither a newline nor a NUL.
   */
  ghost predicate OneLine(codec: Codec) {
    forall c: Config :: '\n' !in codec.serialize(c) && NulFree(codec.serialize(c))
  }

  /**
   * With a one-line codec, a live app and a host that exports the write,
   * SAVE_SETTINGS succeeds in either build and writes the serialized
   * config once under "_".
   */
  lemma SaveSettingsSucceeds(mode: Profile, codec: Codec, h: Handler, stream: nat)
    requires OneLine(codec)
    requires h.app.Some? && h.host.Some? && SET_SETTING_STRING in h.host.value.exports
    ensures SaveSettings(mode, codec, h, stream)
            == Done(Code(1), [SetSettingString(stream, SETTINGS_KEY, codec.serialize(h.app.value.config))])
  {
    var value := codec.serialize(h.app.value.config);
    assert '\n' !in value && NulFree(value);
  }

  /**
   * In Release a multi-line serialization is written without complaint,
   * and the host reads back only its first line.
   */
  lemma ReleaseMultiLineLosesTail(codec: Codec, h: Handler, stream: nat)
    requires h.app.Some? && h.host.Some? && SET_SETTING_STRING in h.host.value.exports
    requires NulFree(codec.serialize(h.app.value.config)) && '\n' in codec.serialize(h.app.value.config)
    ensures var r := SaveSettings(Release, codec, h, stream);
            var value := codec.serialize(h.app.value.config);
            r.Done? && SettingIn(r.events, SETTINGS_KEY) == Some(FirstLine(value))
            && |FirstLine(value)| < |value|
  {
  }

  /**
   * Load and save agree on the key: when the host later answers the read
   * of "_" with what it kept of SAVE_SETTINGS's write, and serde writes
   * one line and round-trips the config, START loads the config that was
   * saved.
   */
  lemma SavedConfigLoadsBack(mode: Profile, codec: Codec, h: Handler, stream: nat, later: Handler, list: nat, env: Env)
    requires RoundTrips(codec) && OneLine(codec)
    requires SaveSettings(mode, codec, h, stream).Done?
    requires later.host.Some? && GET_SETTING_STRING in later.host.value.exports
    requires env.setting == SettingIn(SaveSettings(mode, codec, h, stream).events, SETTINGS_KEY)
    ensures LoadSettings(later, codec, list, env) == Done(Some(h.app.value.config), [GetSettingString(list, SETTINGS_KEY)])
  {
    var value := codec.serialize(h.app.value.config);
    var events := SaveSettings(mode, codec, h, stream).events;
    assert events[|events| - 1] == SetSettingString(stream, SETTINGS_KEY, value);
    assert '\n' !in value;
    assert env.setting == Some(value);
  }

  /** With a host, an absent setting gives no config. */
  lemma AbsentSettingLoadsNothing(h: Handler, codec: Codec, data: nat, env: Env)
    requires h.host.Some? && GET_SETTING_STRING in h.host.value.exports && env.setting.None?
    ensures LoadSettings(h, codec, data, env) == Done(None, [GetSettingString(data, SETTINGS_KEY)])
  {
  }

  /** A config is always saved on a single line in Debug, or the save panics. */
  lemma SavedValueIsOneLine(codec: Codec, h: Handler, stream: nat)
    requires SaveSettings(Debug, codec, h, stream).Done?
    ensures forall e :: e in SaveSettings(Debug, codec, h, stream).events ==> e.SetSettingString? && '\n' !in e.value
  {
  }
}

=== FILE: utf16.dfy ===
/**
 * UTF-16 as Windows stores class names and as `U16Str::to_string` reads
 * them back into a Rust `String`: a character above U+FFFF takes a
 * surrogate pair, and a surrogate without its partner makes decoding
 * fail.
 */
module Utf16 {
  import opened Wrappers
  import opened Ints

  predicate IsHighSurrogate(u: u16) {
    0xD800 <= u < 0xDC00
  }

  predicate IsLowSurrogate(u: u16) {
    0xDC00 <= u < 0xE000
  }

  /** The one unit of a character below U+10000, or the surrogate pair of one above. */
  function EncodeChar(c: char): (us: seq<u16>)
    ensures |us| == 1 <==> (c as int) < 0x1_0000
    ensures |us| == 1 || |us| == 2
    ensures |us| == 1 ==> us[0] == c as int && !IsHighSurrogate(us[0]) && !IsLowSurrogate(us[0])
    ensures |us| == 2 ==> IsHighSurrogate(us[0]) && IsLowSurrogate(us[1])
                          && c as int == 0x1_0000 + (us[0] as int - 0xD800) * 0x400 + (us[1] as int - 0xDC00)
  {
    var n := c as int;
    if n < 0x1_0000 then [n]
    else [0xD800 + (n - 0x1_0000) / 0x400, 0xDC00 + (n - 0x1_0000) % 0x400]
  }

  /** The units of a string, character after character. */
  function Encode(s: string): seq<u16> {
    if |s| == 0 then [] else EncodeChar(s[0]) + Encode(s[1..])
  }

  /** The character a surrogate pair stands for. */
  function PairChar(hi: u16, lo: u16): char
    requires IsHighSurrogate(hi) && IsLowSurrogate(lo)
  {
    (0x1_0000 + (hi as int - 0xD800) * 0x400 + (lo as int - 0xDC00)) as char
  }

  /** Strict decoding: `None` for a high surrogate not followed by a low one, or a low one on its own. */
  function Decode(us: seq<u16>): Option<string>
    decreases |us|
  {
    if |us| == 0 then Some([])
    else if IsHighSurrogate(us[0]) then
      if |us| >= 2 && IsLowSurrogate(us[1]) then
        match Decode(us[2..])
        case Some(rest) => Some([PairChar(us[0], us[1])] + rest)
        case None => None
      else None
    else if IsLowSurrogate(us[0]) then None
    else
      match Decode(us[1..])
      case Some(rest) => Some([us[0] as char] + rest)
      case None => None
  }

  /** Every character takes at least one unit. */
  lemma {:induction false} EncodeLength(s: string)
    ensures |Encode(s)| >= |s|
    ensures |s| > 0 ==> |Encode(s)| > 0
  {
    if |s| > 0 {
      EncodeLength(s[1..]);
    }
  }

  /** Encoding distributes over concatenation. */
  lemma {:induction false} EncodeAppend(a: string, b: string)
    ensures Encode(a + b) == Encode(a) + Encode(b)
  {
    if |a| > 0 {
      assert (a + b)[0] == a[0] && (a + b)[1..] == a[1..] + b;
      EncodeAppend(a[1..], b);
      calc {
        Encode(a + b);
        EncodeChar(a[0]) + Encode(a[1..] + b);
        EncodeChar(a[0]) + (Encode(a[1..]) + Encode(b));
        (EncodeChar(a[0]) + Encode(a[1..])) + Encode(b);
      }
    } else {
      assert a + b == b;
    }
  }

  /** Decoding what was encoded gives the string back. */
  lemma {:induction false} DecodeEncode(s: string)
    ensures Decode(Encode(s)) == Some(s)
  {
    if |s| > 0 {
      var head, rest := EncodeChar(s[0]), Encode(s[1..]);
      var us := head + rest;
      DecodeEncode(s[1..]);
      if |head| == 1 {
        assert us[1..] == rest;
        assert us[0] as char == s[0];
      } else {
        assert us[2..] == rest;
        assert PairChar(us[0], us[1]) == s[0];
      }
      assert s == [s[0]] + s[1..];
    }
  }

  /** Units that decode are exactly the encoding of what they decode to. */
  lemma {:induction false} EncodeDecode(us: seq<u16>)
    requires Decode(us).Some?
    ensures Encode(Decode(us).value) == us
    decreases |us|
  {
    if |us| > 0 {
      var s := Decode(us).value;
      if IsHighSurrogate(us[0]) {
        EncodeDecode(us[2..]);
        var c := PairChar(us[0], us[1]);
        assert s[0] == c && s[1..] == Decode(us[2..]).value;
        assert EncodeChar(c) == us[..2];
        assert us == us[..2] + us[2..];
      } else {
        EncodeDecode(us[1..]);
        assert s[0] == us[0] as char && s[1..] == Decode(us[1..]).value;
        assert us == [us[0]] + us[1..];
      }
    }
  }

  /**
   * `a` and `b` meet outside a surrogate pair: `a` does not end in a high
   * surrogate, or `b` does not start with a low one.
   */
  predicate MeetOutsidePair(a: seq<u16>, b: seq<u16>) {
    |a| == 0 || |b| == 0 || !IsHighSurrogate(a[|a| - 1]) || !IsLowSurrogate(b[0])
  }

  /**
   * Decoding a concatenation whose parts meet outside a surrogate pair:
   * the whole decodes exactly when both parts do, and the characters
   * follow each other.
   */
  lemma {:induction false} DecodeAppend(a: seq<u16>, b: seq<u16>)
    requires MeetOutsidePair(a, b)
    ensures Decode(a + b) == if Decode(a).Some? && Decode(b).Some? then Some(Decode(a).value + Decode(b).value) else None
    decreases |a|
  {
    if |a| == 0 {
      assert a + b == b;
      if Decode(b).Some? {
        assert Decode(a).value + Decode(b).value == Decode(b).value;
      }
    } else if IsHighSurrogate(a[0]) {
      if |a| >= 2 && IsLowSurrogate(a[1]) {
        assert (a + b)[2..] == a[2..] + b;
        DecodeAppend(a[2..], b);
        if Decode(a).Some? && Decode(b).Some? {
          var c := PairChar(a[0], a[1]);
          assert Decode(a).value == [c] + Decode(a[2..]).value;
          assert [c] + (Decode(a[2..]).value + Decode(b).value) == ([c] + Decode(a[2..]).value) + Decode(b).value;
        }
      }
    } else if !IsLowSurrogate(a[0]) {
      assert (a + b)[1..] == a[1..] + b;
      DecodeAppend(a[1..], b);
      if Decode(a).Some? && Decode(b).Some? {
        var c := a[0] as char;
        assert Decode(a).value == [c] + Decode(a[1..]).value;
        assert [c] + (Decode(a[1..]).value + Decode(b).value) == ([c] + Decode(a[1..]).value) + Decode(b).value;
      }
    }
  }

  /** Units without surrogates, each the value of the matching character of `s`, decode to `s`. */
  lemma {:induction false} DecodeWidened(us: seq<u16>, s: string)
    requires |us| == |s|
    requires forall i :: 0 <= i < |us| ==> !IsHighSurrogate(us[i]) && !IsLowSurrogate(us[i])
    requires forall i :: 0 <= i < |us| ==> s[i] as int == us[i]
    ensures Decode(us) == Some(s)
  {
    if |us| > 0 {
      DecodeWidened(us[1..], s[1..]);
      assert us[0] as char == s[0];
      assert s == [s[0]] + s[1..];
    }
  }

  /** A string of characters below U+10000 takes one unit per character, the character's own value. */
  lemma {:induction false} EncodeBmp(s: string)
    requires forall i :: 0 <= i < |s| ==> (s[i] as int) < 0x1_0000
    ensures |Encode(s)| == |s|
    ensures forall i :: 0 <= i < |s| ==> Encode(s)[i] == s[i] as int
  {
    if |s| > 0 {
      EncodeBmp(s[1..]);
      assert forall i :: 1 <= i < |s| ==> Encode(s)[i] == Encode(s[1..])[i - 1];
    }
  }

  /** A high surrogate left alone at the end, as a truncation can leave one, makes decoding fail. */
  lemma TrailingHighSurrogateFails(a: seq<u16>, hi: u16)
    requires IsHighSurrogate(hi)
    ensures Decode(a + [hi]).None?
  {
    DecodeAppend(a, [hi]);
  }
}

=== FILE: wrappers.dfy ===
/** Optional values and fallible results shared by every module of the model. */
module Wrappers {

  /** A value that may be absent: a null pointer, a missing setting, no match. */
  datatype Option<+T> = None | Some(value: T) {

    /** The held value, or `default` when absent (Rust's `unwrap_or`). */
    function UnwrapOr(default: T): T {
      match this
      case Some(v) => v
      case None => default
    }
  }

  /** The outcome of an operation that can fail with an error of type `E`. */
  datatype Result<+T, +E> = Ok(value: T) | Err(error: E) {

    /** Forgets the error, keeping only whether a value was produced. */
    function ToOption(): Option<T> {
      match this
      case Ok(v) => Some(v)
      case Err(_) => None
    }
  }
}
